=== FILE: README.md ===
# dynamo-table core, modelled in Dafny

This project models the logic of `index.js` in the `dynamo-table` library, a
thin table layer over a DynamoDB-style key-value store. The parts modelled
are:

- the attribute codec: `mapAttrToDb` and `mapAttrFromDb`, with per-field
  type hints;
- the item mapper: `mapToDb` and `mapFromDb`, with `_isEmpty`;
- key resolution and key types: `resolveKey`, `_getKeyType`,
  `_defaultValue` and `_getDefaultOptions`;
- the table constructor's key and mapping defaults;
- the `update` action builder;
- the condition builder: `conditions`, `condition` and `comparison`, plus
  the placeholder filter `scan` adds for tables with generated ids;
- batch reads and writes: `batchGet` and `batchWrite`, with chunking,
  grouping by table and resending of unprocessed parts;
- paginated listing: `_listRequest`;
- the `createTable` schema builder.

Everything is written as pure functions over immutable datatypes:

- `NativeValue` stands for a JavaScript value.
- `WireAttr` stands for a wire attribute. It has six optional tags: S, N,
  B, SS, NS and BS.
- `Fields` is an ordered list of properties. It stands for a JavaScript
  object, with `Object.keys` order and assignment semantics.
- The store is a list of replies, consumed in order. Running out of
  replies ends a run with `OutOfReplies`.
- JavaScript runtime services the model does not define are function
  values in an `Env` record: JSON text, base64, ISO dates, number parsing
  beyond safe integers, `String()` of objects, and `String()` of integral
  numbers beyond the safe range. Their laws appear as
  predicates (`Base64Faithful`, `IsoFaithful`) in the `requires` of the
  round-trip lemmas that need them.
- Numbers are exact only within the safe range, |n| <= 2^53 - 1
  (`Values.SafeInteger`). There `String(n)` and `+text` are the model's
  own decimal printing and parsing. Beyond it both go to the `Env`
  functions, since JavaScript rounds such numbers to the nearest double.
- An error is one of three kinds:
  - the store's own failure, passed to the caller's callback
    (`Transport`, or `OutOfReplies` when the reply list runs out);
  - an exception thrown before any request is sent, such as an encoding
    `TypeError`;
  - `Uncaught(e)`: an exception thrown while a reply is decoded. It
    escapes the store client's callback, so the caller's callback is never
    called.

Module layout, following the structure of `index.js`:

- `Wrappers`, `Objects` and `Values`: results, JavaScript objects, values
  and truthiness.
- `Decimal`: integer text.
- `Codec` and `CodecLaws`.
- `Items` and `ItemLaws`.
- `Keys` and `KeyLaws`.
- `Updates` and `UpdateLaws`.
- `Conditions` and `ConditionLaws`.
- `Chunking`.
- `Batch` and `BatchLaws`.
- `Paging` and `PagingLaws`.
- `Schema` and `SchemaLaws`.

The model follows the code of `index.js`. In these cases the model keeps
what the code does:

- Encoding NaN under an `N` hint is not an error. `String(NaN)` is sent
  (`Float("NaN")`).
- An empty list under an `SS`, `NS` or `BS` hint is stored as an empty
  set. `_isEmpty` compares the set tags with the text `'[]'`, which a list
  never equals (index.js:163-164). Only the shape-inferred path drops
  empty lists and empty buffers.
- A key field whose encoding is absent is not an error. It stays in the
  key as an `undefined` property (`Key` is `Fields<Option<WireAttr>>`).
- Condition operands that encode to nothing are sent as they are; they are
  not rewritten to a null test.
- A `batchGet` with no keys at all fails. `results.reduce` is called
  without an initial value on an empty list (index.js:372).
- `createTable` builds local indexes only. An index whose declared key
  lists the hash key after position 0 carries the hash key twice
  (`SchemaLaws.HashRepeated`).
- A table key may have any positive length.
- Under a `json` hint, `undefined` encodes to `{S: undefined}`, because
  `JSON.stringify(undefined)` is `undefined`. That is an attribute with no
  tag (`Values.Untagged`), and `mapToDb` keeps it, since `_isEmpty` does not
  hold of it.

## Model

| member | source | states |
|---|---|---|
| Decimal.IntDecimalRoundTrip | index.js:82 | reading back the decimal text of an integer gives the integer, negative ones included; the codec uses this for safe integers, where `String(n)` and unary plus are exact |
| Codec.HintFor | index.js:37-38 | a field's hint is the mapping registered under its name; a missing or empty-text mapping is no hint |
| Codec.Encode | index.js:36-74 | a custom `to` alone decides; `json` writes text for every value, null and '' included, except `undefined`, which gives an attribute with no tag; otherwise null, undefined and '' encode to nothing, and so do `[]` and an empty buffer when no hint applies; every other encoding the codec builds itself carries exactly one type tag |
| Codec.EncodeTagged | index.js:42-55 | every encoding under a recognised hint populates exactly one tag |
| Codec.EncodeInferred | index.js:57-73 | an empty list or empty buffer encodes to nothing; any other shape populates exactly one tag |
| Codec.Base64Texts | index.js:48 | a list is base64-encoded exactly when each element can be, element by element in order |
| Codec.Decode | index.js:76-113 | a custom `from` alone decides; the unknown-wire-type error arises only from an attribute with no tag, and always does when no recognised hint applies |
| Codec.MembershipContents | index.js:91-97 | the object built from a list of names has exactly those names as keys, each with value 1 |
| CodecLaws.MembershipOfNames | index.js:52-54 | for an object whose values are all 1, reading back the list of its keys gives the same object |
| CodecLaws.StringsRoundTrip | index.js:46 | a list of strings passes through the SS rules unchanged |
| CodecLaws.NumbersRoundTrip | index.js:47 | a list of safe integers passes through the NS rules unchanged |
| CodecLaws.BuffersRoundTrip | index.js:48 | a list of buffers passes through the BS rules unchanged, given faithful base64 |
| CodecLaws.EncodeUnderTag | index.js:38-55 | under a recognised hint, a value other than null, undefined and '' is encoded by that hint's rule |
| CodecLaws.DecodeUnderTag | index.js:78-98 | under a recognised hint, decoding uses that hint's rule whatever tags are present |
| CodecLaws.TaggedRoundTrip | index.js:42-55 | for each of S, N, B, SS, NS, BS, bignum, isodate, mapS, mapN and mapB (json is covered by `CodecLaws.HintedRoundTrip`), a value the hint is meant for encodes and decodes back to itself |
| CodecLaws.HintedRoundTrip | index.js:36-98 | the same round trip through the full encoder and decoder of a field carrying that hint, json included for every defined value whose JSON text parses back to it |
| CodecLaws.InferredRoundTrip | index.js:57-73 | without a hint, these decode back to themselves: booleans, safe integers, non-empty buffers, non-empty lists of strings, safe integers or buffers, and text other than '', 'true', 'false' or JSON-looking text |
| CodecLaws.TextTrueComesBackBoolean | index.js:59 | without a hint the text 'true' is stored as S and read back as the boolean true, so text does not always round-trip |
| CodecLaws.InferredDecodeFirstTag | index.js:100-112 | without a hint, decoding is decided by the first tag present in the order S, N, B, SS, NS, BS; the unknown-wire-type error arises exactly when no tag is present |
| CodecLaws.InferredJsonText | index.js:103-105 | S text starting with `{` or `[` decodes to its JSON value when it parses, and stays text when it does not |
| CodecLaws.UnhintedEmptyExactly | index.js:162-165 | without a hint, `_isEmpty` holds of an encoding exactly when the value is null, undefined, '', the empty list or the empty buffer, given runtime texts that are never empty |
| Items.MapToDb | index.js:115-127 | null and undefined map to no item; otherwise the mapping succeeds exactly when every field encodes; the item's names are distinct and no stored attribute is empty |
| Items.MapFromDb | index.js:129-141 | no item maps to null; otherwise decoding succeeds exactly when every attribute decodes; the record's names are distinct and no field is undefined |
| Items.DecodeItems | index.js:579 | a page of items decodes exactly when each item does, item by item in order |
| ItemLaws.MapToDbKeepsExactly | index.js:119-124 | a stored item holds attribute a under k exactly when the record has k, k's value encodes to a, and a is not empty |
| ItemLaws.MapFromDbKeepsExactly | index.js:133-138 | a decoded record holds x under k exactly when the item has k, its attribute decodes to x, and x is not undefined |
| ItemLaws.ZeroAndEmptiesFields | index.js:41 | with no hints, 0 encodes to N '0'; '', null, [] and an empty buffer encode to nothing |
| ItemLaws.ZeroKeptEmptiesDropped | index.js:115-124 | `{a: 0, b: '', c: null, d: [], e: <empty buffer>}` is stored as the single attribute a = N '0' |
| ItemLaws.EmptyListUnderSetHintIsStored | index.js:162-164 | under an SS hint, an empty list is stored as an empty set and not dropped |
| ItemLaws.RecordRoundTrip | index.js:115-141 | a record whose every field round-trips is stored and read back as the same record |
| ItemLaws.HintedFieldRoundTrips | index.js:36-98 | a field that carries a hint and holds a value that hint stores non-empty round-trips |
| ItemLaws.TaggedNotEmpty | index.js:162-165 | under any hint but json, a value the hint stores gives a non-empty attribute, given faithful base64 |
| ItemLaws.HintedRecordRoundTrip | index.js:115-141 | a record whose fields all carry hints, each holding a value its hint stores, is read back unchanged |
| Keys.KeyOf | index.js:24-27 | the table key is the given list; else the one given name; else the first two mapped names; else `['id']` |
| Keys.NewTable | index.js:15-28 | a table needs a name; its key follows the key defaults; its key types are those given; its hints are exactly those given by the mappings |
| Keys.ResolveKey | index.js:143-160 | a null key fails; every resolved key has distinct names |
| Keys.GetKeyType | index.js:175-190 | succeeds exactly when the declared type is one of S, N, B, json, isodate, bignum or timestamp; the result is always S, N or B and equals the declared type when that is S, N or B; it fails naming the attribute |
| Keys.DefaultValue | index.js:167-173 | the placeholder key value is '0' for S, 0 for N and the bytes of base64 '0000' for B, and exists exactly when the key type does |
| Keys.DefaultOptions | index.js:643-652 | the options always end up with a truthy table name; a truthy given name is kept unchanged; every other property is the one given |
| KeyLaws.ScalarKeyIsOneField | index.js:147-154 | a scalar, text or buffer key is the first key attribute alone, with that value's encoding |
| KeyLaws.SpreadIsList | index.js:145-146 | several key arguments resolve as the list of them |
| KeyLaws.PositionalKeyZips | index.js:150-155 | a positional key resolves exactly when each value encodes under the hint of its key attribute, and gives those encodings in key order |
| KeyLaws.NamedKeyByField | index.js:156-159 | a named key resolves exactly when each field encodes under its own hint, and keeps the fields in order |
| KeyLaws.DefaultValueHasKeyType | index.js:167-190 | the placeholder of a key attribute encodes, under its own hint, to an attribute tagged with that attribute's key type (isodate aside) |
| KeyLaws.IsodateDefaultCannotBeEncoded | index.js:50 | the placeholder of an isodate key attribute is the text '0', which its own hint cannot encode |
| KeyLaws.UnsupportedKeyTypes | index.js:176-189 | the key type fails exactly when the declared type is missing or not one of the seven supported names |
| KeyLaws.DefaultOptionsIdempotent | index.js:643-652 | applying the option defaults twice changes nothing |
| Updates.WithoutKey | index.js:234-237 | the put of a whole record keeps exactly its fields that are not key attributes |
| Updates.Update | index.js:223-279 | an action name other than put, add or delete is refused before anything is resolved; the table name is filled in; a preset key is used as it is, else the key argument or the record's key attributes are resolved |
| UpdateLaws.PutAllGet | index.js:247-255 | after the put phase, each attribute keeps an existing update, else gets the put's encoding; either one becomes a bare DELETE when its operand is empty |
| UpdateLaws.AddAllGet | index.js:257-262 | the add phase sets an ADD only on attributes nothing set before |
| UpdateLaws.DeleteSetsGet | index.js:270-273 | a set-delete element sets DELETE with the encoded operand only on attributes nothing set before |
| UpdateLaws.DeleteAllGet | index.js:264-276 | the delete phase gives each attribute not set before the update of the first delete element naming it |
| UpdateLaws.FirstWriterWins | index.js:245-276 | each attribute's update is the first writer among existing updates, put, add and delete, in that order |
| UpdateLaws.EmptyPutDeletes | index.js:249-253 | a put whose encoding is empty becomes `{Action: 'DELETE'}` with no value |
| UpdateLaws.UpdateFirstWriterWins | index.js:223-279 | the request `update` sends carries, for every attribute, the first writer's update |
| UpdateLaws.WithoutKeyGet | index.js:234-237 | leaving out the key attributes hides exactly those names |
| UpdateLaws.RecordUpdates | index.js:232-238 | updating with a whole record builds the updates of putting its fields that are not key attributes |
| UpdateLaws.RecordWinner | index.js:232-254 | for a whole record, an attribute not set before is put when it is not a key attribute, and untouched otherwise |
| UpdateLaws.WholeRecordPutsTheRest | index.js:232-254 | updating with a whole record puts every field that is not a key attribute and no key attribute |
| UpdateLaws.UnknownActionRefused | index.js:240-242 | actions naming `replace` are refused |
| Conditions.Upper | index.js:640 | upper-casing keeps the length and changes exactly the lower-case ASCII letters |
| Conditions.Comparison | index.js:623-641 | each operator spelling maps to its store operator; anything else is upper-cased; the result never has a lower-case letter |
| Conditions.EncodeOperands | index.js:618-619 | the operands encode exactly when each does, in order, under the condition's attribute's hint |
| Conditions.Condition | index.js:596-621 | null is NULL; 'notNull' or 'NOT_NULL' is NOT_NULL without operands; a scalar, text or buffer is EQ; a list is IN; an object's first key names the operator; operands are encoded in order; an empty object or undefined fails |
| Conditions.ConditionsOf | index.js:588-594 | one condition per attribute, names distinct |
| ConditionLaws.UpperOfNoLower | index.js:640 | upper-casing text with no lower-case letter changes nothing |
| ConditionLaws.ComparisonIdempotent | index.js:623-641 | mapping an operator twice gives the same as mapping it once |
| ConditionLaws.ConditionsPerAttribute | index.js:588-594 | each attribute's condition is the one built from its own expression, and no other attribute gets one |
| ConditionLaws.OperandsRoundTrip | index.js:605-619 | the encoded operands of a condition on a hinted attribute decode back to the given operands |
| ConditionLaws.HidePlaceholdersGet | index.js:298-304 | with generated ids, every key attribute left unconditioned gets `!=` its placeholder; other conditions are kept |
| ConditionLaws.HidePlaceholdersLast | index.js:298-304 | adding one key attribute to the placeholder filter fails exactly when it needs a placeholder and has no key type |
| ConditionLaws.HidePlaceholdersOk | index.js:298-304 | the placeholder filter succeeds exactly when every key attribute needing a placeholder has a key type |
| Conditions.HidePlaceholders | index.js:297-303 | the caller's defined conditions are all kept, nothing but the key attributes changes, and names stay distinct |
| Conditions.ScanFilter | index.js:296-305 | with conditions, a truthy `ScanFilter` preset is sent as given and no condition is built, so only hiding the placeholders can fail; without conditions the options' own value stays; otherwise the filter is built from the conditions, placeholders hidden first when ids are generated |
| ConditionLaws.ScanBuilt | index.js:296-305 | with generated ids and no preset, the filter sent is the one built from the conditions with the placeholders hidden |
| ConditionLaws.ScanHidesPlaceholders | index.js:296-305 | with generated ids and no preset, each key attribute left unconditioned is sent as "differs from its placeholder", and every other attribute the caller conditioned, key attributes included, with the caller's own condition |
| Chunking.Chunks | index.js:341-343 | chunks are non-empty and at most the size, all but the last exactly the size, and together give back the input in order |
| Chunking.ChunkCount | index.js:341 | there are ceil(n / size) chunks |
| Chunking.GroupBy | index.js:342-352 | the grouped request names each table once |
| Chunking.GroupByGet | index.js:342-352 | a table's group holds exactly its own entries, in order; a table with none has no group |
| Chunking.GroupByTotal | index.js:405-412 | grouping neither loses nor adds entries |
| Chunking.Batches | index.js:341-354 | one grouped request per chunk, in chunk order |
| Chunking.Concat | index.js:360-363 | appending lists per table keeps table names distinct |
| Chunking.ConcatGet | index.js:372-375 | after appending, a table's list is its earlier list followed by the new one |
| Batch.TablesByName | index.js:325-327 | every table is found by its name, and a later table of the same name replaces an earlier one |
| Batch.GetOptions | index.js:328-331 | a list or a text names the attributes to get; an object is the options; nothing is no options |
| Batch.ResolveAll | index.js:332-337 | a table's keys resolve exactly when each key does; each entry is tagged with the table's name and options |
| Batch.KeyEntries | index.js:325-339 | the entries are the tables' entries, table after table |
| Batch.CopyOptions | index.js:346-347 | copying options sets every given option and leaves the others alone |
| Batch.DecodeResponse | index.js:360-362 | a reply's items are decoded by the table of that name; a name no table carries fails |
| Batch.ReplyStep | index.js:358-367 | a failed reply ends the run with the store's error; a reply that does not decode ends it with `Uncaught`, the exception escaping the callback; a reply with unprocessed keys gathers its items and resends exactly the unprocessed part; otherwise the run ends with the gathered items |
| Batch.SendGets | index.js:356-368 | a run starts with the request itself, and succeeds only on a reply that leaves nothing unprocessed |
| Batch.RunGets | index.js:370 | one result per request, each with distinct table names; no requests need no replies |
| Batch.Reduce | index.js:372-376 | merging fails exactly when there are no results |
| Batch.BatchGet | index.js:311-379 | the calling table's items alone when it is the only table, otherwise items per table with distinct names |
| Batch.PutOps | index.js:396-398 | the puts succeed exactly when each record maps; each becomes a put of that item under the table's name |
| Batch.DeleteOps | index.js:399-401 | the deletes succeed exactly when each key resolves; each becomes a delete of that key under the table's name |
| Batch.TableWrites | index.js:393-402 | a table's operations are its puts followed by its deletes; an object form missing its `puts`, or missing its `deletes` once the puts are mapped, fails with the TypeError of `undefined.map` |
| Batch.WriteEntries | index.js:393-403 | the operations of all tables, table after table |
| Batch.SendWrites | index.js:416-423 | a run starts with the request itself |
| Batch.RunWrites | index.js:425 | no requests succeed with no replies used; otherwise the first request is sent first |
| Batch.Drive | index.js:416-425 | the write loop as one queue: a successful batch consumed only non-failed replies, one per request sent, and exactly as many of them left nothing unprocessed as there were requests; a failure is the store's or running out of replies |
| Batch.RunWritesDrive | index.js:416-425 | sending each request until it is done, one request after another, is exactly the one-queue loop |
| Batch.WriteAll | index.js:393-425 | operations that fail to encode or resolve are thrown before anything is sent; otherwise the chunked requests are sent as the one-queue loop sends them |
| Batch.BatchWriteAsWritten | index.js:382-426 | as written: the calling table joins only with a non-empty list of operations, then the same as `Batch.WriteAll` |
| Batch.BatchWrite | index.js:382-426 | corrected: the calling table joins with operations of either form, then the same as `Batch.WriteAll` |
| BatchLaws.GetRequestsShape | index.js:341-354 | ceil(n / 100) requests of at most 100 keys, all but the last full; a table is in a request exactly when that chunk has its keys, which it holds in order |
| BatchLaws.WriteRequestsShape | index.js:405-414 | ceil(n / 25) requests of at most 25 operations, all but the last full; each table's operations in a request are its own, in order |
| BatchLaws.HundredAndOneKeys | index.js:310 | 101 keys make two requests, of 100 and 1 keys |
| BatchLaws.GetResends | index.js:364-365 | every request after the first is exactly what the previous reply left unprocessed |
| BatchLaws.SendGetsFirst | index.js:358-366 | a run that succeeds began with a reply whose items decode, and went on from what it left unprocessed |
| BatchLaws.SendGetsGathers | index.js:360-366 | a successful run's items per table are those of the replies it consumed, in reply order |
| BatchLaws.MergeFromGet | index.js:372-376 | the merged items of a table are those of each result, in request order |
| BatchLaws.RunGetsConsumes | index.js:355-370 | the requests of a successful batch, resends included, consume the replies from the front, and the rest is left over |
| BatchLaws.RunGetsGathers | index.js:355-370 | across the requests of a successful batch, a table's items are those of every reply the batch consumed, in reply order, so no partial result is dropped |
| BatchLaws.ReduceGathers | index.js:372-376 | merging a non-empty list of results gives each table the items of each result, in result order |
| BatchLaws.BatchGetGathers | index.js:311-379 | a successful batchGet consumes a prefix of the replies; each table's merged items, or the calling table's own items when it is the only one, are exactly those of the consumed replies, in reply order |
| BatchLaws.NoKeysNoEntries | index.js:325-339 | tables without keys give no entries |
| BatchLaws.NoKeysFails | index.js:372 | a batchGet without any key fails and sends nothing |
| BatchLaws.NoOpsNoEntries | index.js:393-403 | tables whose puts and deletes are given and empty give no entries |
| BatchLaws.NoOpsSucceeds | index.js:425 | a batchWrite without operations succeeds and sends nothing |
| BatchLaws.DeletesOnlyThrows | index.js:393-399 | another table given as `{deletes: keys}` has no puts to map, so the batch throws before sending anything |
| BatchLaws.TwoOfThreeResent | index.js:419-420 | of three puts, the two left unprocessed are resent, and the run ends when nothing is left |
| BatchLaws.ListsCountedAlike | index.js:390-391 | operations given as a list are counted the same by the test as written and by the corrected test |
| BatchLaws.ObjectFormDropped | index.js:390-395 | as written, a lone table's puts given as `{puts, deletes}` are never sent, and the batch reports success |
| BatchLaws.OnePutEntry | index.js:393-403 | one record given as `{puts, deletes}` becomes one put entry under the table's name |
| BatchLaws.ObjectFormSent | index.js:390-401 | counted in either form, that put is the first request sent |
| Paging.PageStep | index.js:575-584 | a failed page ends the listing with the store's error; a count-only listing answers the page's count; a page that does not decode ends it with `Uncaught`; otherwise the page's items are appended, and the listing goes on from the page's last key exactly when the page continues |
| Paging.ListPages | index.js:570-586 | the first request carries the caller's start key; a successful listing ends on a page that does not continue |
| PagingLaws.ListResends | index.js:580-582 | each request after the first starts from the last key of the page before it |
| PagingLaws.FirstPage | index.js:575-584 | a successful listing is decided by its first page and then by the rest |
| PagingLaws.ListGathers | index.js:579-584 | a successful listing returns the items of the pages it read, in page order |
| PagingLaws.NoOptions | index.js:577-580 | with no options, a page continues exactly when it has a last key |
| PagingLaws.StepMore | index.js:580-582 | with no options, a page with a last key asks for more |
| PagingLaws.StepLast | index.js:584 | with no options, a page without a last key ends the listing |
| PagingLaws.LastPage | index.js:579-584 | a last page ends the listing with its items appended |
| PagingLaws.TwoPages | index.js:570-586 | two pages, the first with a last key, are read in one listing from that key, and give both pages' items |
| PagingLaws.FullPageStops | index.js:580 | a page that fills the requested limit ends the listing even with a last key |
| Schema.KeySchemaOf | index.js:480-482 | the key schema names the attributes in order, the first HASH and the rest RANGE |
| Schema.WithHash | index.js:464-465 | an index key starts with the table's hash key, which is put in front exactly when the key does not already start with it |
| Schema.NormalizeIndex | index.js:456-461 | a text is a one-attribute key; a list is the key; anything else needs a list under `key` and may carry a projection |
| Schema.ProjectionOf | index.js:473-476 | a text names the projection type; a list projects those attributes with INCLUDE; anything else sets no projection |
| Schema.BuildIndex | index.js:467-477 | an index keeps its name, is keyed HASH by the table's hash key then RANGE by its own attributes, and takes its projection from the declaration |
| Schema.IndexSpecs | index.js:449-454 | a list of names declares one index per name; an object declares its own properties |
| Schema.BuildIndexes | index.js:455-478 | the indexes are built in declaration order, and fail exactly when one declaration cannot be read |
| Schema.Definitions | index.js:483-485 | one definition per attribute, typed by its key type; fails naming the first attribute without one |
| Schema.Named | index.js:441 | the table name is filled in unless a truthy one is given; nothing else changes |
| Schema.CreateTable | index.js:435-491 | a request is built exactly when the indexes can be read and the definitions, when built, type every attribute; truthy presets are sent as given; otherwise it holds the built indexes, the table's key schema, the definitions of every key and index attribute, and a throughput that defaults to 1 |
| SchemaLaws.KeySchemaUnique | index.js:480-482 | a HASH-then-RANGE key schema is the one built from its own attribute list |
| SchemaLaws.HashOnce | index.js:464-471 | an index key schema starts with the hash key as HASH, and has it nowhere else exactly when the declared key has it nowhere after position 0 |
| SchemaLaws.HashRepeated | index.js:464-471 | an index declared as `['dob', 'id']` on a table hashed by `id` is keyed id HASH, dob RANGE, id RANGE |
| SchemaLaws.BuiltIndexesLed | index.js:455-478 | built indexes are those declared, in order, each keyed HASH by the hash key then RANGE |
| SchemaLaws.IndexesLeadWithHash | index.js:448-478 | every index `createTable` builds is named as declared and keyed HASH by the table's hash key, then RANGE |
| SchemaLaws.MarkHas | index.js:443-446 | marking attributes records each of them and forgets none |
| SchemaLaws.MarkAppend | index.js:461-463 | marking the index attributes goes on from the table's key marks |
| SchemaLaws.MarkFresh | index.js:443-446 | distinct new attributes are marked in order, after those already marked |
| SchemaLaws.AttributeNamesCover | index.js:443-463 | the attributes to define are distinct, are exactly the table's key and index key attributes, and start with the table's key |
| SchemaLaws.DefinitionsOf | index.js:483-485 | the definitions name each key and index attribute exactly once, typed by its key type |
| SchemaLaws.DefinitionsCover | index.js:483-485 | the definitions `createTable` builds name each key and index attribute exactly once, typed by its key type |
| SchemaLaws.KeyTypesDecide | index.js:483-485 | without indexes, the definitions fail exactly when a key attribute has no key type |
| SchemaLaws.UnsupportedKeyFails | index.js:483-485 | with indexes not built and no definitions preset, `createTable` fails exactly when a key attribute has no key type |
| SchemaLaws.ByNameTexts | index.js:449-453 | a list of distinct names declares each index under its own name |
| SchemaLaws.NoPresets | index.js:441-489 | with no options, the request is the table's name, its built indexes, its key schema, its definitions and a throughput of 1 |
| SchemaLaws.OneIndexTable | index.js:435-491 | table `users` keyed `id, date` with indexes `['dob']`: one index dob keyed id HASH, dob RANGE; key schema id HASH, date RANGE; id, date and dob defined as S; throughput 1 and 1 |

## Left out

- Client construction (index.js:4-8, 19-23) and every `client.request` call are left out. The store is a given list of replies, consumed in order.
- The custom `preTo`, `postTo`, `preFrom` and `postFrom` hooks are left out, because they are arbitrary caller code. The model has the default hooks only: an empty object for a non-null input, and the identity afterwards.
- Custom `to` and `from` functions are left opaque. They are function values that decide alone.
- JSON text and parsing, base64, ISO date text and parsing, `String()` of objects and of numbers that are not safe integers, and `+text` of any text that is not a safe integer are left out. They are opaque `Env` functions. The round trips that need them state their laws as requirements.
- Floating point is left out. Integral numbers are `Num`, exact only within the safe range; any other number is carried by its text (`Float`). `Num` can hold integers no double holds; the model does not round them itself, but hands their printing to `Env`.
- Codec.EncodeTagged: under an SS hint, a list whose head is a string is sent by the source as it is; the model sends the `String()` of every element instead. The two agree when every element is a string, and differ for a mixed list such as `['a', 1]`: the source sends the number 1, the model the text '1'. Wire lists in the model hold text only.
- Codec.EncodeTagged: under a `bignum` hint the source sends the value, or the list, itself (`{N: val}`, `{NS: val}`); the model sends `String()` of the value or of each element. The two agree for text, the values the hint is meant for, and differ for a number: the source sends 5, the model '5'.
- Codec.EncodeInferred: without a hint, a list whose head is a string is sent by the source as it is; the model sends the `String()` of every element. They agree when every element is a string, as above.
- The `async.map` and `async.each` fan-out (index.js:370, 425) is left out. Requests are sent one after another and the first failure ends the batch, so no concurrent interleaving is modelled.
- Batch.SendGets: a never-ending run of unprocessed replies is cut off by the finite reply list (`OutOfReplies`). The source has no retry ceiling and would resend forever.
- Paging.ListPages: the `ExclusiveStartKey` written into the options is recorded as the start key sent with each request. It is not a mutation of the options object.
- Schema.WithHash: the source puts the hash key in front of the caller's own list (`index.key.unshift`, index.js:465) when an index is given as a list or as `{key: list}`, so the caller's `indexes` object keeps the change. The model builds a new key and leaves the declaration as it was. A caller who reuses one `indexes` object across tables gets different requests in the two. For example, `{byDob: ['dob']}` on a table hashed by `id` and then on one hashed by `uid`: the source's second index key is uid, id, dob, and the model's is uid, dob.
- Conditions.HidePlaceholders: the source writes each `{'!=': placeholder}` into the caller's `conditions` object (index.js:300-301). The model returns new conditions, so a caller reusing that object later would see the placeholders in the source but not in the model.
- Updates.Update: the source writes `Key` and `AttributeUpdates` into the caller's `options` (index.js:244-245), changes entries of a preset `AttributeUpdates` into bare DELETEs (index.js:249-253) and replaces a non-list `actions.delete` by a list (index.js:266). The model returns the request and leaves the caller's values as they were.
- Keys.DefaultOptions: the source writes `TableName` into the caller's options object (index.js:650). The model returns new options.
- Conditions.ScanFilter: the source writes the filter it settles on into the caller's options as `options.ScanFilter` (index.js:305). The model returns the filter. A caller who reuses that options object for a second scan sends the first filter again in the source, because it is then a truthy preset.
- Batch.BatchGet: the source pushes the calling table's entry onto the caller's `tables` array (index.js:322). The model joins the entry onto a new list. A caller who reuses that array sends the earlier entry again in the source, and `onlyThis` no longer holds there.
- Batch.BatchWrite: the source pushes the calling table's entry onto the caller's `tables` array (index.js:391), as `batchGet` does. The model joins the entry onto a new list, so a reused array does not send the earlier operations again. The same holds for Batch.BatchWriteAsWritten.
- Schema.CreateTable: the source writes `TableName`, `LocalSecondaryIndexes`, `KeySchema`, `AttributeDefinitions` and `ProvisionedThroughput` into the caller's options (index.js:441, 455, 480, 483, 486). The model returns a new request. If one options object is reused for a second table, the source sends the first table's name and schema again, because they are then truthy presets; the model builds the second table's own.
- Argument shuffling and the check that the last argument is a callback, in every method, are left out. They decide only which parameter is which.
- The thin pass-through methods are left out: `get`, `put`, `delete`, `query`, `describeTable`, `updateTable`, `deleteTable`, `listTables`, `increment`, `nextId` and `initId` (index.js:192-221, 281-288, 493-568). Their logic is that of the modelled members they call.
- Schema.NormalizeIndex: index key attributes that are not text are rejected. The source would turn them into text with `String()`.
- Codec.EncodeTagged: an SS, NS or BS hint applied to a value that is not a list is reported as a TypeError. The source's outcome there depends on JavaScript property lookups on that value.
- Keys.DefaultOptions: options that are neither nullish, a list, a text nor a plain object are rejected: a number, a boolean, a buffer or a date. The source sets `TableName` on a buffer or a date as on any object, and returns a number or a boolean as it is (index.js:648-650).
- Values.OwnProps: `Object.keys` order is the order of the properties as listed. JavaScript's moving of integer-like keys to the front is not modelled.
- Conditions.Upper: only ASCII letters are upper-cased; the rest of Unicode case mapping is not modelled.
- Codec.Decode: `timestamp` decoding hands the N text to the date parser, and no round trip is claimed for it.

## Findings

| source | as written | input that shows it | evidently intended | confidence | as-written member | corrected member |
|---|---|---|---|---|---|---|
| index.js:390 | `operations && operations.length` counts the calling table's operations only when they are a non-empty list; the `{puts, deletes}` form has no `length`, so it is never added to the batch | `table.batchWrite({puts: [record], deletes: []}, cb)` with no other tables: nothing is sent and the callback reports success | the object form, which index.js:394-395 accepts for every other table, is counted whenever it holds a put or a delete | not executed | BatchLaws.ObjectFormDropped | BatchLaws.ObjectFormSent |

=== FILE: batch.dfy ===
/** The batch operations: `batchGet` (index.js:310-379) and `batchWrite`
    (index.js:382-426). Each flattens the per-table keys or operations, cuts
    them into requests of at most `MaxGet` keys or `MaxWrite` operations
    grouped by table, and sends every request again with whatever the store
    reports as unprocessed until nothing is. The store is a list of replies
    consumed in order; running out of replies ends the run. A reply that
    cannot be decoded makes the source throw inside the store client's
    callback, so the caller's callback is never called: the run ends with
    `Uncaught`. */
module Batch {
  import opened Wrappers
  import opened Objects
  import opened Values
  import opened Items
  import opened Keys
  import opened Chunking

  /** One table's share of a batchGet: its keys and its options. */
  datatype TableKeys = TableKeys(table: Table, keys: seq<NativeValue>, options: NativeValue)

  /** A resolved key with the options of the table it was asked for. */
  datatype KeyEntry = KeyEntry(options: Props, key: Key)

  /** One table's entry in a BatchGetItem request: its options and keys. */
  datatype GetRequestItem = GetRequestItem(options: Props, keys: seq<Key>)

  type GetRequest = Fields<GetRequestItem>

  /** What the store answers a BatchGetItem request: the items found per
      table and the part of the request left unprocessed; or a failure. */
  datatype GetReply =
    | GetReply(responses: Fields<seq<Item>>, unprocessed: GetRequest)
    | GetFailed(message: string)

  /** A run of one request and its resends: the outcome, every request sent,
      and the replies not consumed. */
  datatype GetRun = GetRun(outcome: Res<Fields<seq<NativeValue>>>, sent: seq<GetRequest>, rest: seq<GetReply>)

  /** All requests of a batchGet, one after another. */
  datatype GetsRun = GetsRun(outcome: Res<seq<Fields<seq<NativeValue>>>>, sent: seq<GetRequest>, rest: seq<GetReply>)

  /** The items of the calling table alone, when it was the only table; the
      items of every table otherwise. */
  datatype BatchGetResult = OwnItems(items: Option<seq<NativeValue>>) | AllItems(byTable: Fields<seq<NativeValue>>)

  datatype BatchGetRun = BatchGetRun(outcome: Res<BatchGetResult>, sent: seq<GetRequest>, rest: seq<GetReply>)

  /** `tablesByName`: a later table of the same name replaces an earlier one. */
  function TablesByName(tables: seq<TableKeys>): (m: map<string, Table>)
    ensures forall i :: 0 <= i < |tables| ==> tables[i].table.name in m
    ensures forall n :: n in m ==> m[n].name == n
    ensures |tables| > 0 ==> m[tables[|tables| - 1].table.name] == tables[|tables| - 1].table
  {
    if |tables| == 0 then map[]
    else
      var last := tables[|tables| - 1];
      var prev := TablesByName(tables[..|tables| - 1]);
      assert forall i :: 0 <= i < |tables| - 1 ==> tables[..|tables| - 1][i] == tables[i];
      prev[last.table.name := last.table]
  }

  /** A table's options: a list or a text names the attributes to get;
      otherwise the enumerable properties of `options || {}`. */
  function GetOptions(options: NativeValue): (o: Props)
    ensures options.Arr? ==> o == [Field("AttributesToGet", options)]
    ensures options.Str? ==> o == [Field("AttributesToGet", Arr([options]))]
    ensures options.Obj? ==> o == options.props
    ensures IsNullish(options) ==> o == []
  {
    if options.Arr? then [Field("AttributesToGet", options)]
    else if options.Str? then [Field("AttributesToGet", Arr([options]))]
    else OwnProps(options)
  }

  /** `table.resolveKey(key)` with the one key argument. */
  function ResolveOne(env: Env, t: Table, key: NativeValue): Res<Key> {
    ResolveKey(env, t, [key])
  }

  /** One key resolved, tagged with its table's name. */
  function ResolveEntry(env: Env, t: Table, options: Props, key: NativeValue): Res<Tagged<KeyEntry>> {
    var k :- ResolveOne(env, t, key);
    Ok(Tagged(t.name, KeyEntry(options, k)))
  }

  /** Every key of one table resolved, tagged with the table's name. */
  function ResolveAll(env: Env, t: Table, options: Props, keys: seq<NativeValue>): (r: Res<seq<Tagged<KeyEntry>>>)
    ensures r.Ok? <==> forall i :: 0 <= i < |keys| ==> ResolveOne(env, t, keys[i]).Ok?
    ensures r.Ok? ==> |r.value| == |keys|
    ensures r.Ok? ==> forall i :: 0 <= i < |keys| ==>
      r.value[i] == Tagged(t.name, KeyEntry(options, ResolveOne(env, t, keys[i]).value))
  {
    MapAll(keys, key => ResolveEntry(env, t, options, key))
  }

  /** `allKeys`: the resolved keys of every table, table after table. */
  function KeyEntries(env: Env, tables: seq<TableKeys>): (r: Res<seq<Tagged<KeyEntry>>>)
    ensures r.Ok? && |tables| > 0 ==>
      var last := tables[|tables| - 1];
      var mine := ResolveAll(env, last.table, GetOptions(last.options), last.keys);
      KeyEntries(env, tables[..|tables| - 1]).Ok? && mine.Ok? &&
      r.value == KeyEntries(env, tables[..|tables| - 1]).value + mine.value
    ensures |tables| == 0 ==> r == Ok([])
  {
    if |tables| == 0 then Ok([])
    else
      var last := tables[|tables| - 1];
      var prev :- KeyEntries(env, tables[..|tables| - 1]);
      var mine :- ResolveAll(env, last.table, GetOptions(last.options), last.keys);
      Ok(prev + mine)
  }

  /** `for (opt in options) requestItem[opt] = options[opt]`. */
  function CopyOptions(acc: Props, opts: Props): (r: Props)
    ensures forall n :: !Has(opts, n) ==> Get(r, n) == Get(acc, n)
    ensures forall n :: Has(opts, n) ==> Has(r, n)
  {
    if |opts| == 0 then acc
    else
      var last := opts[|opts| - 1];
      var prev := CopyOptions(acc, opts[..|opts| - 1]);
      assert forall n :: Has(opts, n) && n != last.name ==> Has(opts[..|opts| - 1], n) by {
        forall n | Has(opts, n) && n != last.name ensures Has(opts[..|opts| - 1], n) {
          var j :| 0 <= j < |opts| && opts[j].name == n;
          assert opts[..|opts| - 1][j].name == n;
        }
      }
      assert forall n :: Has(opts[..|opts| - 1], n) ==> Has(opts, n) by {
        forall n | Has(opts[..|opts| - 1], n) ensures Has(opts, n) {
          var j :| 0 <= j < |opts| - 1 && opts[..|opts| - 1][j].name == n;
          assert opts[j].name == n;
        }
      }
      var r := Assign(prev, last.name, last.value);
      AssignGet(prev, last.name, last.value);
      assert Has(r, last.name) by { assert Get(r, last.name).Some?; }
      assert forall n :: Has(opts, n) ==> Has(r, n) by {
        forall n | Has(opts, n) ensures Has(r, n) {
          if n != last.name {
            assert Get(prev, n).Some?;
            assert Get(r, n) == Get(prev, n);
          }
        }
      }
      r
  }

  /** One more key for a table's request entry: its options are copied over
      and it joins the key list. */
  function AddKey(g: GetRequestItem, e: KeyEntry): GetRequestItem {
    GetRequestItem(CopyOptions(g.options, e.options), g.keys + [e.key])
  }

  /** The BatchGetItem requests, at most `MaxGet` keys each. */
  function GetRequests(entries: seq<Tagged<KeyEntry>>): seq<GetRequest> {
    Batches(entries, MaxGet, GetRequestItem([], []), AddKey)
  }

  /** The items of one table in a reply, decoded by the table of that name;
      a name no table carries fails on `undefined.mapFromDb`. */
  function DecodeResponse(env: Env, byName: map<string, Table>, name: string, items: seq<Item>): (r: Res<Option<seq<NativeValue>>>)
    ensures name !in byName ==> r.Err?
    ensures name in byName ==> r.Ok? == DecodeItems(env, byName[name].mappings, items).Ok?
    ensures r.Ok? ==> r.value == Some(DecodeItems(env, byName[name].mappings, items).value)
  {
    if name !in byName then Err(TypeError("Cannot read property 'mapFromDb' of undefined"))
    else
      var vs :- DecodeItems(env, byName[name].mappings, items);
      Ok(Some(vs))
  }

  /** Every table's items in a reply, decoded. */
  function DecodeResponses(env: Env, byName: map<string, Table>, responses: Fields<seq<Item>>): (r: Res<Fields<seq<NativeValue>>>)
    ensures r.Ok? ==> DistinctNames(r.value)
  {
    MapFields(responses, (name, items) => DecodeResponse(env, byName, name, items))
  }

  /** What one reply does to a batchGet request: end it with an outcome, or
      resend what came back unprocessed with the items gathered so far. */
  datatype GetStep = GetDone(outcome: Res<Fields<seq<NativeValue>>>) | GetMore(gathered: Fields<seq<NativeValue>>, unprocessed: GetRequest)

  /** The handling of one reply: a failure ends the request with the
      store's error, an undecodable response with the exception escaping the
      callback; otherwise the decoded items are merged in per table, and
      the unprocessed keys, if any, are sent again. */
  function ReplyStep(env: Env, byName: map<string, Table>, results: Fields<seq<NativeValue>>, reply: GetReply): (s: GetStep)
    ensures reply.GetFailed? ==> s == GetDone(Err(Transport(reply.message)))
    ensures reply.GetReply? && DecodeResponses(env, byName, reply.responses).Err? ==>
      s == GetDone(Err(Uncaught(DecodeResponses(env, byName, reply.responses).error)))
    ensures s.GetMore? <==>
      reply.GetReply? && |reply.unprocessed| > 0 && DecodeResponses(env, byName, reply.responses).Ok?
    ensures s.GetMore? ==>
      s.unprocessed == reply.unprocessed && s.gathered == Concat(results, DecodeResponses(env, byName, reply.responses).value)
    ensures s.GetDone? && s.outcome.Ok? ==>
      reply.GetReply? && |reply.unprocessed| == 0 && DecodeResponses(env, byName, reply.responses).Ok? &&
      s.outcome.value == Concat(results, DecodeResponses(env, byName, reply.responses).value)
  {
    match reply
    case GetFailed(m) => GetDone(Err(Transport(m)))
    case GetReply(responses, unprocessed) =>
      match DecodeResponses(env, byName, responses)
      case Err(e) => GetDone(Err(Uncaught(e)))
      case Ok(decoded) =>
        if |unprocessed| > 0 then GetMore(Concat(results, decoded), unprocessed)
        else GetDone(Ok(Concat(results, decoded)))
  }

  /** `batchRequest` of batchGet: one request, then a resend of what comes
      back unprocessed until nothing does. */
  function SendGets(env: Env, byName: map<string, Table>, request: GetRequest, results: Fields<seq<NativeValue>>, replies: seq<GetReply>): (r: GetRun)
    ensures 0 < |r.sent| <= |replies| + 1 && r.sent[0] == request
    // success means the last reply left nothing unprocessed
    ensures r.outcome.Ok? ==>
      |r.sent| <= |replies| && replies[|r.sent| - 1].GetReply? && |replies[|r.sent| - 1].unprocessed| == 0 &&
      r.rest == replies[|r.sent|..]
    ensures r.outcome.Ok? && DistinctNames(results) ==> DistinctNames(r.outcome.value)
    decreases |replies|
  {
    if |replies| == 0 then GetRun(Err(OutOfReplies), [request], [])
    else
      match ReplyStep(env, byName, results, replies[0])
      case GetDone(outcome) => GetRun(outcome, [request], replies[1..])
      case GetMore(gathered, unprocessed) =>
        var next := SendGets(env, byName, unprocessed, gathered, replies[1..]);
        GetRun(next.outcome, [request] + next.sent, next.rest)
  }

  /** `async.map(requests, batchRequest)`, with the requests taken one after
      another; the first failure ends the batch. */
  function RunGets(env: Env, byName: map<string, Table>, requests: seq<GetRequest>, replies: seq<GetReply>): (r: GetsRun)
    ensures r.outcome.Ok? ==> |r.outcome.value| == |requests|
    ensures r.outcome.Ok? ==> forall i :: 0 <= i < |requests| ==> DistinctNames(r.outcome.value[i])
    ensures |requests| == 0 ==> r == GetsRun(Ok([]), [], replies)
  {
    if |requests| == 0 then GetsRun(Ok([]), [], replies)
    else
      var first := SendGets(env, byName, requests[0], [], replies);
      match first.outcome
      case Err(e) => GetsRun(Err(e), first.sent, first.rest)
      case Ok(res) =>
        var others := RunGets(env, byName, requests[1..], first.rest);
        match others.outcome
        case Err(e) => GetsRun(Err(e), first.sent + others.sent, others.rest)
        case Ok(more) => GetsRun(Ok([res] + more), first.sent + others.sent, others.rest)
  }

  /** `results.reduce(...)` from the first result on: each later result's
      lists are appended per table. */
  function MergeFrom(acc: Fields<seq<NativeValue>>, rs: seq<Fields<seq<NativeValue>>>): (m: Fields<seq<NativeValue>>)
    ensures DistinctNames(acc) ==> DistinctNames(m)
  {
    if |rs| == 0 then acc else Concat(MergeFrom(acc, rs[..|rs| - 1]), rs[|rs| - 1])
  }

  /** `results.reduce(...)` with no initial value: with no result at all it
      throws. */
  function Reduce(rs: seq<Fields<seq<NativeValue>>>): (r: Res<Fields<seq<NativeValue>>>)
    ensures r.Err? <==> |rs| == 0
    ensures r.Ok? && DistinctNames(rs[0]) ==> DistinctNames(r.value)
  {
    if |rs| == 0 then Err(EmptyBatch) else Ok(MergeFrom(rs[0], rs[1..]))
  }

  /** `batchGet(keys, options, tables)`: the calling table joins the list when
      it has keys of its own, and is then the only table unless others were
      given. */
  function BatchGet(env: Env, t: Table, keys: seq<NativeValue>, options: NativeValue, tables: seq<TableKeys>, replies: seq<GetReply>): (r: BatchGetRun)
    ensures r.outcome.Ok? && |keys| > 0 && |tables| == 0 ==> r.outcome.value.OwnItems?
    ensures r.outcome.Ok? && !(|keys| > 0 && |tables| == 0) ==> r.outcome.value.AllItems?
    ensures r.outcome.Ok? && r.outcome.value.AllItems? ==> DistinctNames(r.outcome.value.byTable)
  {
    var all := if |keys| > 0 then tables + [TableKeys(t, keys, options)] else tables;
    var onlyThis := |keys| > 0 && |tables| == 0;
    match KeyEntries(env, all)
    case Err(e) => BatchGetRun(Err(e), [], replies)
    case Ok(entries) =>
      var run := RunGets(env, TablesByName(all), GetRequests(entries), replies);
      var merged := if run.outcome.Ok? then Reduce(run.outcome.value) else Err(run.outcome.error);
      match merged
      case Err(e) => BatchGetRun(Err(e), run.sent, run.rest)
      case Ok(m) => BatchGetRun(Ok(if onlyThis then OwnItems(Get(m, t.name)) else AllItems(m)), run.sent, run.rest)
  }

  /** What a batchWrite is given for one table: a list of records to put, or
      an object with records to put and keys to delete, either of which may
      be missing (None). */
  datatype Operations = PutList(records: seq<NativeValue>) | PutsAndDeletes(puts: Option<seq<NativeValue>>, deletes: Option<seq<NativeValue>>)

  datatype TableOps = TableOps(table: Table, operations: Operations)

  /** One write request: a record to put (None is the `null` of a nullish
      record) or a key to delete. */
  datatype WriteOp = PutRequest(item: Option<Item>) | DeleteRequest(key: Key)

  type WriteRequest = Fields<seq<WriteOp>>

  datatype WriteReply = WriteReply(unprocessed: WriteRequest) | WriteFailed(message: string)

  datatype WriteRun = WriteRun(outcome: Res<()>, sent: seq<WriteRequest>, rest: seq<WriteReply>)

  /** `{PutRequest: {Item: table.mapToDb(record)}}`. */
  function PutOp(env: Env, t: Table, record: NativeValue): Res<Tagged<WriteOp>> {
    var item :- MapToDb(env, t.mappings, record);
    Ok(Tagged(t.name, PutRequest(item)))
  }

  /** `{DeleteRequest: {Key: table.resolveKey(key)}}`. */
  function DeleteOp(env: Env, t: Table, key: NativeValue): Res<Tagged<WriteOp>> {
    var k :- ResolveOne(env, t, key);
    Ok(Tagged(t.name, DeleteRequest(k)))
  }

  function PutOps(env: Env, t: Table, records: seq<NativeValue>): (r: Res<seq<Tagged<WriteOp>>>)
    ensures r.Ok? <==> forall i :: 0 <= i < |records| ==> MapToDb(env, t.mappings, records[i]).Ok?
    ensures r.Ok? ==> |r.value| == |records|
    ensures r.Ok? ==> forall i :: 0 <= i < |records| ==>
      r.value[i] == Tagged(t.name, PutRequest(MapToDb(env, t.mappings, records[i]).value))
  {
    MapAll(records, record => PutOp(env, t, record))
  }

  function DeleteOps(env: Env, t: Table, keys: seq<NativeValue>): (r: Res<seq<Tagged<WriteOp>>>)
    ensures r.Ok? <==> forall i :: 0 <= i < |keys| ==> ResolveOne(env, t, keys[i]).Ok?
    ensures r.Ok? ==> |r.value| == |keys|
    ensures r.Ok? ==> forall i :: 0 <= i < |keys| ==>
      r.value[i] == Tagged(t.name, DeleteRequest(ResolveOne(env, t, keys[i]).value))
  {
    MapAll(keys, key => DeleteOp(env, t, key))
  }

  /** The puts of a list of records; a missing list has none. */
  function Puts(ops: Operations): seq<NativeValue> {
    match ops
    case PutList(rs) => rs
    case PutsAndDeletes(ps, _) => ps.GetOr([])
  }

  /** The deletes; a plain list or a missing list has none. */
  function Deletes(ops: Operations): seq<NativeValue> {
    match ops
    case PutList(_) => []
    case PutsAndDeletes(_, ds) => ds.GetOr([])
  }

  /** Whether `operations.puts` is there to be mapped. */
  predicate HasPuts(ops: Operations) {
    ops.PutList? || ops.puts.Some?
  }

  /** Whether `operations.deletes` is there to be mapped; a plain list gets
      an empty one. */
  predicate HasDeletes(ops: Operations) {
    ops.PutList? || ops.deletes.Some?
  }

  /** `operations.puts.map` or `operations.deletes.map` on a missing list. */
  const NoMap := TypeError("Cannot read property 'map' of undefined")

  /** One table's operations: its puts, then its deletes. A missing list of
      puts fails before anything is mapped; a missing list of deletes fails
      once the puts are mapped. */
  function TableWrites(env: Env, to: TableOps): (r: Res<seq<Tagged<WriteOp>>>)
    ensures !HasPuts(to.operations) ==> r == Err(NoMap)
    ensures HasPuts(to.operations) && PutOps(env, to.table, Puts(to.operations)).Ok? && !HasDeletes(to.operations) ==>
      r == Err(NoMap)
    ensures r.Ok? <==>
      HasPuts(to.operations) && HasDeletes(to.operations) &&
      PutOps(env, to.table, Puts(to.operations)).Ok? && DeleteOps(env, to.table, Deletes(to.operations)).Ok?
    ensures r.Ok? ==> r.value == PutOps(env, to.table, Puts(to.operations)).value + DeleteOps(env, to.table, Deletes(to.operations)).value
  {
    if !HasPuts(to.operations) then Err(NoMap)
    else
      var ps :- PutOps(env, to.table, Puts(to.operations));
      if !HasDeletes(to.operations) then Err(NoMap)
      else
        var ds :- DeleteOps(env, to.table, Deletes(to.operations));
        Ok(ps + ds)
  }

  /** `allOperations`: every table's operations, table after table. */
  function WriteEntries(env: Env, tables: seq<TableOps>): (r: Res<seq<Tagged<WriteOp>>>)
    ensures r.Ok? && |tables| > 0 ==>
      WriteEntries(env, tables[..|tables| - 1]).Ok? && TableWrites(env, tables[|tables| - 1]).Ok? &&
      r.value == WriteEntries(env, tables[..|tables| - 1]).value + TableWrites(env, tables[|tables| - 1]).value
    ensures |tables| == 0 ==> r == Ok([])
  {
    if |tables| == 0 then Ok([])
    else
      var prev :- WriteEntries(env, tables[..|tables| - 1]);
      var mine :- TableWrites(env, tables[|tables| - 1]);
      Ok(prev + mine)
  }

  /** A write operation joins its table's list. */
  function AddOp(g: seq<WriteOp>, op: WriteOp): seq<WriteOp> {
    g + [op]
  }

  /** The BatchWriteItem requests, at most `MaxWrite` operations each. */
  function WriteRequests(entries: seq<Tagged<WriteOp>>): seq<WriteRequest> {
    Batches(entries, MaxWrite, [], AddOp)
  }

  /** `batchRequest` of batchWrite: one request, then a resend of what comes
      back unprocessed until nothing does. */
  function SendWrites(request: WriteRequest, replies: seq<WriteReply>): (r: WriteRun)
    ensures 0 < |r.sent| <= |replies| + 1 && r.sent[0] == request
    // a request is sent again only as the unprocessed part of the reply before it
    ensures forall i :: 0 <= i < |r.sent| - 1 ==> replies[i].WriteReply? && |replies[i].unprocessed| > 0
    ensures forall i :: 0 <= i < |r.sent| - 1 ==> replies[i].WriteReply? && r.sent[i + 1] == replies[i].unprocessed
    ensures r.outcome.Ok? ==>
      |r.sent| <= |replies| && replies[|r.sent| - 1].WriteReply? && |replies[|r.sent| - 1].unprocessed| == 0 &&
      r.rest == replies[|r.sent|..]
    decreases |replies|
  {
    if |replies| == 0 then WriteRun(Err(OutOfReplies), [request], [])
    else
      match replies[0]
      case WriteFailed(m) => WriteRun(Err(Transport(m)), [request], replies[1..])
      case WriteReply(unprocessed) =>
        if |unprocessed| > 0 then
          var next := SendWrites(unprocessed, replies[1..]);
          WriteRun(next.outcome, [request] + next.sent, next.rest)
        else WriteRun(Ok(()), [request], replies[1..])
  }

  /** `async.each(requests, batchRequest)`, one request after another; the
      first failure ends the batch. */
  function RunWrites(requests: seq<WriteRequest>, replies: seq<WriteReply>): (r: WriteRun)
    ensures |requests| == 0 ==> r == WriteRun(Ok(()), [], replies)
    ensures |requests| > 0 ==> |r.sent| > 0 && r.sent[0] == requests[0]
  {
    if |requests| == 0 then WriteRun(Ok(()), [], replies)
    else
      var first := SendWrites(requests[0], replies);
      if first.outcome.Err? then first
      else
        var others := RunWrites(requests[1..], first.rest);
        WriteRun(others.outcome, first.sent + others.sent, others.rest)
  }

  /** Every table's operations, chunked, sent and resent. Operations that
      fail to encode or resolve are thrown before any request is sent. */
  function WriteAll(env: Env, tables: seq<TableOps>, replies: seq<WriteReply>): (r: WriteRun)
    ensures WriteEntries(env, tables).Err? ==> r == WriteRun(Err(WriteEntries(env, tables).error), [], replies)
    ensures WriteEntries(env, tables).Ok? ==> r == Drive(WriteRequests(WriteEntries(env, tables).value), replies)
  {
    match WriteEntries(env, tables)
    case Err(e) => WriteRun(Err(e), [], replies)
    case Ok(entries) =>
      RunWritesDrive(WriteRequests(entries), replies);
      RunWrites(WriteRequests(entries), replies)
  }

  /** `operations && operations.length` as the source tests it: only a
      non-empty list has a length, so the calling table's operations given as
      puts and deletes are not counted. */
  predicate OwnCountedAsWritten(ops: Operations) {
    ops.PutList? && |ops.records| > 0
  }

  /** The calling table joins the batch whenever it has operations of either
      form. */
  predicate OwnCounted(ops: Operations) {
    |Puts(ops)| > 0 || |Deletes(ops)| > 0
  }

  /** Operations that are all there and hold nothing to write. */
  predicate NoOperations(ops: Operations) {
    HasPuts(ops) && HasDeletes(ops) && !OwnCounted(ops)
  }

  /** The write loop as one queue: the head request is sent; a failure or
      running out of replies ends the batch; unprocessed operations replace
      the head, and a reply that leaves nothing unprocessed retires it. The
      batch succeeds once the queue is empty. */
  function Drive(queue: seq<WriteRequest>, replies: seq<WriteReply>): (r: WriteRun)
    ensures r.outcome.Ok? ==> |r.sent| <= |replies| && r.rest == replies[|r.sent|..]
    ensures r.outcome.Ok? ==> forall i :: 0 <= i < |r.sent| ==> replies[i].WriteReply?
    ensures r.outcome.Ok? ==> Retired(replies[..|r.sent|]) == |queue|
    ensures r.outcome.Err? && |queue| > 0 ==> r.outcome == Err(OutOfReplies) || r.outcome.error.Transport?
    decreases |replies|, |queue|
  {
    if |queue| == 0 then WriteRun(Ok(()), [], replies)
    else if |replies| == 0 then WriteRun(Err(OutOfReplies), [queue[0]], [])
    else
      match replies[0]
      case WriteFailed(m) => WriteRun(Err(Transport(m)), [queue[0]], replies[1..])
      case WriteReply(u) =>
        var next := Drive(if |u| > 0 then [u] + queue[1..] else queue[1..], replies[1..]);
        assert next.outcome.Ok? ==> replies[..1 + |next.sent|] == [replies[0]] + replies[1..][..|next.sent|];
        WriteRun(next.outcome, [queue[0]] + next.sent, next.rest)
  }

  /** How many replies leave nothing unprocessed, retiring a request. */
  function Retired(replies: seq<WriteReply>): nat {
    if |replies| == 0 then 0
    else (if replies[0].WriteReply? && |replies[0].unprocessed| == 0 then 1 else 0) + Retired(replies[1..])
  }

  /** `async.each` over the requests, each resent until done, is the one
      queue of `Drive`. */
  lemma {:induction false} RunWritesDrive(requests: seq<WriteRequest>, replies: seq<WriteReply>)
    ensures RunWrites(requests, replies) == Drive(requests, replies)
    decreases |replies|, |requests|
  {
    if |requests| > 0 && |replies| > 0 && replies[0].WriteReply? {
      var u := replies[0].unprocessed;
      if |u| > 0 {
        RunWritesDrive([u] + requests[1..], replies[1..]);
        assert ([u] + requests[1..])[1..] == requests[1..];
        var f := SendWrites(u, replies[1..]);
        if f.outcome.Ok? {
          var o := RunWrites(requests[1..], f.rest);
          Associative([requests[0]], f.sent, o.sent);
        }
      } else {
        RunWritesDrive(requests[1..], replies[1..]);
      }
    }
  }

  /** The tables a batchWrite sends: the calling table joins last when it
      counts. */
  function Joined(t: Table, operations: Operations, tables: seq<TableOps>, counted: bool): seq<TableOps> {
    if counted then tables + [TableOps(t, operations)] else tables
  }

  /** `batchWrite(operations, tables)` as written. */
  function BatchWriteAsWritten(env: Env, t: Table, operations: Operations, tables: seq<TableOps>, replies: seq<WriteReply>): (r: WriteRun)
    ensures var entries := WriteEntries(env, Joined(t, operations, tables, OwnCountedAsWritten(operations)));
      && (entries.Err? ==> r == WriteRun(Err(entries.error), [], replies))
      && (entries.Ok? ==> r == Drive(WriteRequests(entries.value), replies))
  {
    WriteAll(env, Joined(t, operations, tables, OwnCountedAsWritten(operations)), replies)
  }

  /** `batchWrite(operations, tables)` with the calling table's operations
      counted in either form. */
  function BatchWrite(env: Env, t: Table, operations: Operations, tables: seq<TableOps>, replies: seq<WriteReply>): (r: WriteRun)
    ensures var entries := WriteEntries(env, Joined(t, operations, tables, OwnCounted(operations)));
      && (entries.Err? ==> r == WriteRun(Err(entries.error), [], replies))
      && (entries.Ok? ==> r == Drive(WriteRequests(entries.value), replies))
  {
    WriteAll(env, Joined(t, operations, tables, OwnCounted(operations)), replies)
  }
}

=== FILE: batch_laws.dfy ===
/** What the batch operations promise: bounded, lossless requests grouped by
    table; resends of exactly the unprocessed part; results gathered per
    table in reply order; and the empty cases. */
module BatchLaws {
  import opened Wrappers
  import opened Objects
  import opened Values
  import opened Items
  import opened Keys
  import opened Chunking
  import opened Batch

  function KeyCount(g: GetRequestItem): nat {
    |g.keys|
  }

  function OpCount(g: seq<WriteOp>): nat {
    |g|
  }

  /** The keys of a table's entries, in order. */
  function EntryKeys(es: seq<KeyEntry>): (ks: seq<Key>)
    ensures |ks| == |es|
    ensures forall i :: 0 <= i < |es| ==> ks[i] == es[i].key
  {
    seq(|es|, i requires 0 <= i < |es| => es[i].key)
  }

  lemma {:induction false} FoldAddKey(es: seq<KeyEntry>)
    ensures Fold(GetRequestItem([], []), AddKey, es).keys == EntryKeys(es)
  {
    if |es| > 0 {
      FoldAddKey(es[..|es| - 1]);
    }
  }

  lemma {:induction false} FoldAddOp(ops: seq<WriteOp>)
    ensures Fold([], AddOp, ops) == ops
  {
    if |ops| > 0 {
      FoldAddOp(ops[..|ops| - 1]);
      assert ops[..|ops| - 1] + [ops[|ops| - 1]] == ops;
    }
  }

  /** The BatchGetItem requests: ceil(n / 100) of them, each holding between
      one and 100 keys and all but the last exactly 100; the chunks they come
      from join back into the flat key list; and inside a chunk each table's
      entry lists exactly that table's keys, in order. */
  lemma GetRequestsShape(entries: seq<Tagged<KeyEntry>>)
    ensures |GetRequests(entries)| == (|entries| + MaxGet - 1) / MaxGet
    ensures Flatten(Chunks(entries, MaxGet)) == entries
    ensures forall k :: 0 <= k < |GetRequests(entries)| ==>
      0 < Total(GetRequests(entries)[k], KeyCount) <= MaxGet
    ensures forall k :: 0 <= k < |GetRequests(entries)| - 1 ==>
      Total(GetRequests(entries)[k], KeyCount) == MaxGet
    ensures forall k, n :: 0 <= k < |GetRequests(entries)| ==>
      (Has(GetRequests(entries)[k], n) <==> |Select(Chunks(entries, MaxGet)[k], n)| > 0)
    ensures forall k, n :: 0 <= k < |GetRequests(entries)| && Has(GetRequests(entries)[k], n) ==>
      Get(GetRequests(entries)[k], n).value.keys == EntryKeys(Select(Chunks(entries, MaxGet)[k], n))
  {
    var cs := Chunks(entries, MaxGet);
    var rs := GetRequests(entries);
    var start := GetRequestItem([], []);
    ChunkCount(entries, MaxGet);
    forall k | 0 <= k < |rs| ensures Total(rs[k], KeyCount) == |cs[k]| {
      GroupByTotal(cs[k], start, AddKey, KeyCount);
    }
    forall k, n | 0 <= k < |rs|
      ensures Has(rs[k], n) <==> |Select(cs[k], n)| > 0
      ensures Has(rs[k], n) ==> Get(rs[k], n).value.keys == EntryKeys(Select(cs[k], n))
    {
      GroupByGet(cs[k], start, AddKey, n);
      FoldAddKey(Select(cs[k], n));
    }
  }

  /** The BatchWriteItem requests: ceil(n / 25) of them, each holding between
      one and 25 operations and all but the last exactly 25; and inside a
      chunk each table lists exactly its own operations, in order. */
  lemma WriteRequestsShape(entries: seq<Tagged<WriteOp>>)
    ensures |WriteRequests(entries)| == (|entries| + MaxWrite - 1) / MaxWrite
    ensures Flatten(Chunks(entries, MaxWrite)) == entries
    ensures forall k :: 0 <= k < |WriteRequests(entries)| ==>
      0 < Total(WriteRequests(entries)[k], OpCount) <= MaxWrite
    ensures forall k :: 0 <= k < |WriteRequests(entries)| - 1 ==>
      Total(WriteRequests(entries)[k], OpCount) == MaxWrite
    ensures forall k, n :: 0 <= k < |WriteRequests(entries)| ==>
      Get(WriteRequests(entries)[k], n) ==
        if |Select(Chunks(entries, MaxWrite)[k], n)| == 0 then None else Some(Select(Chunks(entries, MaxWrite)[k], n))
  {
    var cs := Chunks(entries, MaxWrite);
    var rs := WriteRequests(entries);
    ChunkCount(entries, MaxWrite);
    forall k | 0 <= k < |rs| ensures Total(rs[k], OpCount) == |cs[k]| {
      GroupByTotal(cs[k], [], AddOp, OpCount);
    }
    forall k, n | 0 <= k < |rs|
      ensures Get(rs[k], n) == if |Select(cs[k], n)| == 0 then None else Some(Select(cs[k], n))
    {
      GroupByGet(cs[k], [], AddOp, n);
      FoldAddOp(Select(cs[k], n));
    }
  }

  /** 101 keys make two requests: one of 100 keys and one of a single key. */
  lemma HundredAndOneKeys(entries: seq<Tagged<KeyEntry>>)
    requires |entries| == 101
    ensures |GetRequests(entries)| == 2
    ensures Total(GetRequests(entries)[0], KeyCount) == 100
    ensures Total(GetRequests(entries)[1], KeyCount) == 1
  {
    GetRequestsShape(entries);
    var cs := Chunks(entries, MaxGet);
    assert Flatten(cs) == cs[0] + (cs[1] + Flatten(cs[2..]));
    var start := GetRequestItem([], []);
    GroupByTotal(cs[1], start, AddKey, KeyCount);
  }

  /** What a sequence of replies contributes to one table, in reply order. */
  function Gathered(env: Env, byName: map<string, Table>, replies: seq<GetReply>, name: string): seq<NativeValue> {
    if |replies| == 0 then []
    else Contribution(env, byName, replies[0], name) + Gathered(env, byName, replies[1..], name)
  }

  /** What one reply contributes to one table. */
  function Contribution(env: Env, byName: map<string, Table>, reply: GetReply, name: string): seq<NativeValue> {
    if reply.GetReply? && DecodeResponses(env, byName, reply.responses).Ok? then
      Get(DecodeResponses(env, byName, reply.responses).value, name).GetOr([])
    else []
  }

  lemma GatheredCons(env: Env, byName: map<string, Table>, reply: GetReply, more: seq<GetReply>, name: string)
    ensures Gathered(env, byName, [reply] + more, name) == Contribution(env, byName, reply, name) + Gathered(env, byName, more, name)
  {
    assert ([reply] + more)[1..] == more;
  }

  /** Whether a reply asks for a resend, and of what. */
  predicate Resends(reply: GetReply, request: GetRequest) {
    reply.GetReply? && |reply.unprocessed| > 0 && request == reply.unprocessed
  }

  /** The requests after a reply that asks for a resend: the resend, then
      the later ones, which follow the later replies. */
  lemma ResendShift(replies: seq<GetReply>, request: GetRequest, later: seq<GetRequest>)
    requires 0 < |later| <= |replies| && Resends(replies[0], later[0])
    requires forall i :: 0 <= i < |later| - 1 ==> Resends(replies[1..][i], later[i + 1])
    ensures forall i :: 0 <= i < |later| ==> Resends(replies[i], ([request] + later)[i + 1])
  {
    forall i | 0 <= i < |later|
      ensures Resends(replies[i], ([request] + later)[i + 1])
    {
      if i > 0 {
        assert replies[1..][i - 1] == replies[i];
      }
    }
  }

  /** A request is sent again exactly as the unprocessed part of the reply
      before it, which must have left something unprocessed. */
  lemma {:induction false} GetResends(env: Env, byName: map<string, Table>, request: GetRequest, results: Fields<seq<NativeValue>>, replies: seq<GetReply>)
    ensures var r := SendGets(env, byName, request, results, replies);
      forall i :: 0 <= i < |r.sent| - 1 ==> Resends(replies[i], r.sent[i + 1])
    decreases |replies|
  {
    var r := SendGets(env, byName, request, results, replies);
    if |replies| > 0 {
      var s := ReplyStep(env, byName, results, replies[0]);
      if s.GetMore? {
        var next := SendGets(env, byName, s.unprocessed, s.gathered, replies[1..]);
        GetResends(env, byName, s.unprocessed, s.gathered, replies[1..]);
        assert r.sent == [request] + next.sent;
        ResendShift(replies, request, next.sent);
      }
    }
  }

  /** A successful request starts with a reply that decodes. */
  lemma SendGetsFirst(env: Env, byName: map<string, Table>, request: GetRequest, results: Fields<seq<NativeValue>>, replies: seq<GetReply>)
    requires SendGets(env, byName, request, results, replies).outcome.Ok?
    ensures |replies| > 0 && replies[0].GetReply?
    ensures DecodeResponses(env, byName, replies[0].responses).Ok?
    ensures var acc := Concat(results, DecodeResponses(env, byName, replies[0].responses).value);
      var r := SendGets(env, byName, request, results, replies);
      if |replies[0].unprocessed| > 0 then
        var next := SendGets(env, byName, replies[0].unprocessed, acc, replies[1..]);
        r.outcome == next.outcome && |r.sent| == 1 + |next.sent|
      else r.outcome == Ok(acc) && |r.sent| == 1
  {
  }

  /** The replies a successful request consumed, when the first one asked
      for a resend: that reply, then those the resend consumed. */
  lemma ConsumedAfterResend(env: Env, byName: map<string, Table>, request: GetRequest, results: Fields<seq<NativeValue>>, replies: seq<GetReply>)
    requires SendGets(env, byName, request, results, replies).outcome.Ok?
    requires |replies| > 0 && replies[0].GetReply? && |replies[0].unprocessed| > 0
    requires DecodeResponses(env, byName, replies[0].responses).Ok?
    ensures var acc := Concat(results, DecodeResponses(env, byName, replies[0].responses).value);
      var next := SendGets(env, byName, replies[0].unprocessed, acc, replies[1..]);
      replies[..|SendGets(env, byName, request, results, replies).sent|] == [replies[0]] + replies[1..][..|next.sent|]
  {
    SendGetsFirst(env, byName, request, results, replies);
  }

  /** A successful request, resends included, returns for every table the
      items it already had followed by those of each reply it consumed, in
      reply order. */
  lemma {:induction false} SendGetsGathers(env: Env, byName: map<string, Table>, request: GetRequest, results: Fields<seq<NativeValue>>, replies: seq<GetReply>, name: string)
    ensures var r := SendGets(env, byName, request, results, replies);
      r.outcome.Ok? ==>
        Get(r.outcome.value, name).GetOr([]) == Get(results, name).GetOr([]) + Gathered(env, byName, replies[..|r.sent|], name)
    decreases |replies|
  {
    var r := SendGets(env, byName, request, results, replies);
    if r.outcome.Ok? {
      SendGetsFirst(env, byName, request, results, replies);
      var reply := replies[0];
      var decoded := DecodeResponses(env, byName, reply.responses).value;
      var acc := Concat(results, decoded);
      ConcatGetOr(results, decoded, name);
      var here := Contribution(env, byName, reply, name);
      var a := Get(results, name).GetOr([]);
      if |reply.unprocessed| > 0 {
        var next := SendGets(env, byName, reply.unprocessed, acc, replies[1..]);
        SendGetsGathers(env, byName, reply.unprocessed, acc, replies[1..], name);
        var later := replies[1..][..|next.sent|];
        ConsumedAfterResend(env, byName, request, results, replies);
        GatheredCons(env, byName, reply, later, name);
        Associative(a, here, Gathered(env, byName, later, name));
      } else {
        assert replies[..|r.sent|] == [reply];
        GatheredCons(env, byName, reply, [], name);
        assert [reply] + [] == [reply];
        assert here + [] == here;
      }
    }
  }

  /** One table's items across results, in result order. */
  function PerTable(rs: seq<Fields<seq<NativeValue>>>, name: string): seq<NativeValue> {
    if |rs| == 0 then [] else PerTable(rs[..|rs| - 1], name) + Get(rs[|rs| - 1], name).GetOr([])
  }

  /** Merging the requests' results appends, per table, each request's
      items in request order. */
  lemma {:induction false} MergeFromGet(acc: Fields<seq<NativeValue>>, rs: seq<Fields<seq<NativeValue>>>, name: string)
    requires forall i :: 0 <= i < |rs| ==> DistinctNames(rs[i])
    ensures Get(MergeFrom(acc, rs), name).GetOr([]) == Get(acc, name).GetOr([]) + PerTable(rs, name)
  {
    if |rs| > 0 {
      var prefix := rs[..|rs| - 1];
      assert forall i :: 0 <= i < |prefix| ==> prefix[i] == rs[i];
      MergeFromGet(acc, prefix, name);
      var m := MergeFrom(acc, prefix);
      var last := rs[|rs| - 1];
      ConcatGetOr(m, last, name);
      assert MergeFrom(acc, rs) == Concat(m, last);
      var a, p, l := Get(acc, name).GetOr([]), PerTable(prefix, name), Get(last, name).GetOr([]);
      assert PerTable(rs, name) == p + l;
      Associative(a, p, l);
    } else {
      assert Get(acc, name).GetOr([]) + [] == Get(acc, name).GetOr([]);
    }
  }

  /** One table's items across results, read from the front. */
  lemma {:induction false} PerTableCons(x: Fields<seq<NativeValue>>, rs: seq<Fields<seq<NativeValue>>>, name: string)
    ensures PerTable([x] + rs, name) == Get(x, name).GetOr([]) + PerTable(rs, name)
    decreases |rs|
  {
    var xs := [x] + rs;
    var own := Get(x, name).GetOr([]);
    if |rs| == 0 {
      assert xs[..|xs| - 1] == [];
      assert own + [] == own;
    } else {
      var init := rs[..|rs| - 1];
      var last := Get(rs[|rs| - 1], name).GetOr([]);
      assert xs[..|xs| - 1] == [x] + init;
      PerTableCons(x, init, name);
      assert PerTable(xs, name) == (own + PerTable(init, name)) + last;
      Associative(own, PerTable(init, name), last);
    }
  }

  /** The items gathered from two runs of replies, one after the other. */
  lemma {:induction false} GatheredAppend(env: Env, byName: map<string, Table>, a: seq<GetReply>, b: seq<GetReply>, name: string)
    ensures Gathered(env, byName, a + b, name) == Gathered(env, byName, a, name) + Gathered(env, byName, b, name)
    decreases |a|
  {
    if |a| == 0 {
      assert a + b == b;
    } else {
      assert (a + b)[1..] == a[1..] + b;
      GatheredAppend(env, byName, a[1..], b, name);
      Associative(Contribution(env, byName, a[0], name), Gathered(env, byName, a[1..], name), Gathered(env, byName, b, name));
    }
  }

  /** A successful batch of requests: the first request's run, then the
      others' run on the replies it left. */
  lemma RunGetsFirst(env: Env, byName: map<string, Table>, requests: seq<GetRequest>, replies: seq<GetReply>)
    requires |requests| > 0 && RunGets(env, byName, requests, replies).outcome.Ok?
    ensures var r := RunGets(env, byName, requests, replies);
      var first := SendGets(env, byName, requests[0], [], replies);
      var others := RunGets(env, byName, requests[1..], first.rest);
      first.outcome.Ok? && others.outcome.Ok? &&
      r.sent == first.sent + others.sent && r.rest == others.rest &&
      r.outcome.value == [first.outcome.value] + others.outcome.value
  {
  }

  /** The requests of a batchGet, sent one after another, consume a prefix
      of the replies. */
  lemma {:induction false} RunGetsConsumes(env: Env, byName: map<string, Table>, requests: seq<GetRequest>, replies: seq<GetReply>)
    ensures var r := RunGets(env, byName, requests, replies);
      r.outcome.Ok? ==> |r.sent| <= |replies| && r.rest == replies[|r.sent|..]
    decreases |requests|
  {
    var r := RunGets(env, byName, requests, replies);
    if r.outcome.Ok? && |requests| > 0 {
      RunGetsFirst(env, byName, requests, replies);
      var first := SendGets(env, byName, requests[0], [], replies);
      var others := RunGets(env, byName, requests[1..], first.rest);
      RunGetsConsumes(env, byName, requests[1..], first.rest);
      assert replies[|first.sent|..][|others.sent|..] == replies[|first.sent| + |others.sent|..];
    }
  }

  /** The items of a first result and of later results, gathered from the
      replies each consumed, are those of all the replies they consumed. */
  lemma GathersStep(env: Env, byName: map<string, Table>, replies: seq<GetReply>, first: Fields<seq<NativeValue>>, more: seq<Fields<seq<NativeValue>>>, k: nat, l: nat, name: string)
    requires k + l <= |replies|
    requires Get(first, name).GetOr([]) == Gathered(env, byName, replies[..k], name)
    requires PerTable(more, name) == Gathered(env, byName, replies[k..][..l], name)
    ensures PerTable([first] + more, name) == Gathered(env, byName, replies[..k + l], name)
  {
    PerTableCons(first, more, name);
    PrefixSplit(replies, k, l);
    GatheredAppend(env, byName, replies[..k], replies[k..][..l], name);
  }

  /** A request sent with no items gathered yet returns, per table, the
      items of the replies it consumed. */
  lemma SendGetsFresh(env: Env, byName: map<string, Table>, request: GetRequest, replies: seq<GetReply>, name: string)
    requires SendGets(env, byName, request, [], replies).outcome.Ok?
    ensures var r := SendGets(env, byName, request, [], replies);
      |r.sent| <= |replies| && r.rest == replies[|r.sent|..] &&
      Get(r.outcome.value, name).GetOr([]) == Gathered(env, byName, replies[..|r.sent|], name)
  {
    var r := SendGets(env, byName, request, [], replies);
    SendGetsGathers(env, byName, request, [], replies, name);
    var items := Gathered(env, byName, replies[..|r.sent|], name);
    assert [] + items == items;
  }

  /** The requests of a batchGet, sent one after another, return per table
      the items of the replies they consumed, in reply order: no partial
      result is dropped. */
  lemma {:induction false} RunGetsGathers(env: Env, byName: map<string, Table>, requests: seq<GetRequest>, replies: seq<GetReply>, name: string)
    ensures var r := RunGets(env, byName, requests, replies);
      r.outcome.Ok? ==> |r.sent| <= |replies| && PerTable(r.outcome.value, name) == Gathered(env, byName, replies[..|r.sent|], name)
    decreases |requests|
  {
    var r := RunGets(env, byName, requests, replies);
    RunGetsConsumes(env, byName, requests, replies);
    if r.outcome.Ok? {
      if |requests| == 0 {
        assert replies[..0] == [];
      } else {
        RunGetsFirst(env, byName, requests, replies);
        var first := SendGets(env, byName, requests[0], [], replies);
        var others := RunGets(env, byName, requests[1..], first.rest);
        SendGetsFresh(env, byName, requests[0], replies, name);
        RunGetsGathers(env, byName, requests[1..], first.rest, name);
        var k, l := |first.sent|, |others.sent|;
        assert k + l <= |replies|;
        assert Get(first.outcome.value, name).GetOr([]) == Gathered(env, byName, replies[..k], name);
        assert PerTable(others.outcome.value, name) == Gathered(env, byName, replies[k..][..l], name);
        GathersStep(env, byName, replies, first.outcome.value, others.outcome.value, k, l, name);
      }
    }
  }

  /** A prefix of `k + l` replies is the first `k`, then `l` of the rest. */
  lemma PrefixSplit<T>(xs: seq<T>, k: nat, l: nat)
    requires k + l <= |xs|
    ensures xs[..k + l] == xs[..k] + xs[k..][..l]
  {
  }

  /** Merging a non-empty list of results gives each table's items in
      result order. */
  lemma ReduceGathers(rs: seq<Fields<seq<NativeValue>>>, name: string)
    requires |rs| > 0
    requires forall i :: 0 <= i < |rs| ==> DistinctNames(rs[i])
    ensures Reduce(rs).Ok? && Get(Reduce(rs).value, name).GetOr([]) == PerTable(rs, name)
  {
    var tail := rs[1..];
    assert forall i :: 0 <= i < |tail| ==> tail[i] == rs[i + 1];
    MergeFromGet(rs[0], tail, name);
    assert [rs[0]] + tail == rs;
    PerTableCons(rs[0], tail, name);
  }

  /** A successful batchGet consumes a prefix of the replies and returns,
      for every table, the items of every reply it consumed, in reply order;
      with only the calling table's keys, it returns that table's items. */
  lemma BatchGetGathers(env: Env, t: Table, keys: seq<NativeValue>, options: NativeValue, tables: seq<TableKeys>, replies: seq<GetReply>, name: string)
    ensures var all := if |keys| > 0 then tables + [TableKeys(t, keys, options)] else tables;
      var r := BatchGet(env, t, keys, options, tables, replies);
      r.outcome.Ok? ==>
        |r.sent| <= |replies| && r.rest == replies[|r.sent|..] &&
        (r.outcome.value.AllItems? ==>
          Get(r.outcome.value.byTable, name).GetOr([]) == Gathered(env, TablesByName(all), replies[..|r.sent|], name)) &&
        (r.outcome.value.OwnItems? ==>
          r.outcome.value.items.GetOr([]) == Gathered(env, TablesByName(all), replies[..|r.sent|], t.name))
  {
    var all := if |keys| > 0 then tables + [TableKeys(t, keys, options)] else tables;
    var r := BatchGet(env, t, keys, options, tables, replies);
    if r.outcome.Ok? {
      var entries := KeyEntries(env, all).value;
      var run := RunGets(env, TablesByName(all), GetRequests(entries), replies);
      assert run.outcome.Ok? && r.sent == run.sent && r.rest == run.rest;
      var rs := run.outcome.value;
      assert Reduce(rs).Ok?;
      RunGetsConsumes(env, TablesByName(all), GetRequests(entries), replies);
      RunGetsGathers(env, TablesByName(all), GetRequests(entries), replies, name);
      RunGetsGathers(env, TablesByName(all), GetRequests(entries), replies, t.name);
      ReduceGathers(rs, name);
      ReduceGathers(rs, t.name);
    }
  }

  lemma {:induction false} NoKeysNoEntries(env: Env, tables: seq<TableKeys>)
    requires forall i :: 0 <= i < |tables| ==> |tables[i].keys| == 0
    ensures KeyEntries(env, tables) == Ok([])
  {
    if |tables| > 0 {
      var prefix := tables[..|tables| - 1];
      var last := tables[|tables| - 1];
      assert forall i :: 0 <= i < |prefix| ==> prefix[i] == tables[i];
      NoKeysNoEntries(env, prefix);
      assert last.keys == [];
      assert ResolveAll(env, last.table, GetOptions(last.options), last.keys) == Ok([]);
      var none: seq<Tagged<KeyEntry>> := [];
      assert none + none == none;
    }
  }

  /** With no key anywhere there is no request, and the merge of no results
      fails. */
  lemma NoKeysFails(env: Env, t: Table, options: NativeValue, tables: seq<TableKeys>, replies: seq<GetReply>)
    requires forall i :: 0 <= i < |tables| ==> |tables[i].keys| == 0
    ensures BatchGet(env, t, [], options, tables, replies) == BatchGetRun(Err(EmptyBatch), [], replies)
  {
    NoKeysNoEntries(env, tables);
    assert GetRequests([]) == [];
  }

  lemma {:induction false} NoOpsNoEntries(env: Env, tables: seq<TableOps>)
    requires forall i :: 0 <= i < |tables| ==> NoOperations(tables[i].operations)
    ensures WriteEntries(env, tables) == Ok([])
  {
    if |tables| > 0 {
      var prefix := tables[..|tables| - 1];
      assert forall i :: 0 <= i < |prefix| ==> prefix[i] == tables[i];
      NoOpsNoEntries(env, prefix);
    }
  }

  /** With no operation anywhere nothing is sent and the batch succeeds. */
  lemma NoOpsSucceeds(env: Env, t: Table, operations: Operations, tables: seq<TableOps>, replies: seq<WriteReply>)
    requires !OwnCounted(operations)
    requires forall i :: 0 <= i < |tables| ==> NoOperations(tables[i].operations)
    ensures BatchWrite(env, t, operations, tables, replies) == WriteRun(Ok(()), [], replies)
  {
    NoOpsNoEntries(env, tables);
    assert WriteRequests([]) == [];
  }

  /** Another table given only keys to delete, `{deletes: keys}`, has no
      puts to map: the batch throws before anything is sent. */
  lemma DeletesOnlyThrows(env: Env, t: Table, operations: Operations, other: Table, keys: seq<NativeValue>, replies: seq<WriteReply>)
    requires !OwnCounted(operations)
    ensures BatchWrite(env, t, operations, [TableOps(other, PutsAndDeletes(None, Some(keys)))], replies) ==
      WriteRun(Err(NoMap), [], replies)
  {
    var tables := [TableOps(other, PutsAndDeletes(None, Some(keys)))];
    assert tables[..0] == [];
    assert WriteEntries(env, tables) == Err(NoMap);
  }

  /** Resending what the store leaves unprocessed: three puts, two left over
      by the first reply, none by the second. */
  lemma TwoOfThreeResent(a: WriteOp, b: WriteOp, c: WriteOp, later: seq<WriteReply>)
    ensures var request: WriteRequest := [Field("t", [a, b, c])];
      var left: WriteRequest := [Field("t", [b, c])];
      var none: WriteRequest := [];
      var r := SendWrites(request, [WriteReply(left), WriteReply(none)] + later);
      r.outcome == Ok(()) && r.sent == [request, left] && r.rest == later
  {
    var left: WriteRequest := [Field("t", [b, c])];
    var none: WriteRequest := [];
    var replies := [WriteReply(left), WriteReply(none)] + later;
    assert replies[1..] == [WriteReply(none)] + later;
    assert replies[1..][1..] == later;
  }

  /** Operations given as a plain list are counted the same by both forms of
      the test. */
  lemma ListsCountedAlike(env: Env, t: Table, records: seq<NativeValue>, tables: seq<TableOps>, replies: seq<WriteReply>)
    ensures BatchWriteAsWritten(env, t, PutList(records), tables, replies) == BatchWrite(env, t, PutList(records), tables, replies)
  {
  }

  /** As written, a lone table's puts given as `{puts, deletes}` are never
      sent, and the batch reports success. */
  lemma ObjectFormDropped(env: Env, t: Table, record: NativeValue, replies: seq<WriteReply>)
    requires MapToDb(env, t.mappings, record).Ok?
    ensures BatchWriteAsWritten(env, t, PutsAndDeletes(Some([record]), Some([])), [], replies) == WriteRun(Ok(()), [], replies)
  {
    assert WriteRequests([]) == [];
  }

  lemma WriteEntriesOne(env: Env, to: TableOps)
    ensures WriteEntries(env, [to]) == TableWrites(env, to)
  {
    assert [to][..0] == [];
    if TableWrites(env, to).Ok? {
      assert [] + TableWrites(env, to).value == TableWrites(env, to).value;
    }
  }

  lemma OneGroup(op: Tagged<WriteOp>)
    ensures WriteRequests([op]) == [[Field(op.table, [op.entry])]]
  {
    assert Chunks([op], MaxWrite) == [[op]];
    assert [op][..0] == [];
    assert GroupBy([op][..0], [], AddOp) == [];
    assert GroupBy([op], [], AddOp) == Assign([], op.table, AddOp([], op.entry));
    assert AddOp([], op.entry) == [op.entry];
    var none: WriteRequest := [];
    assert !Has(none, op.table);
    assert Assign(none, op.table, [op.entry]) == [Field(op.table, [op.entry])];
    var rs := WriteRequests([op]);
    assert |rs| == 1 && rs[0] == GroupBy([op], [], AddOp);
  }

  /** A lone table's single put becomes one tagged put. */
  lemma OnePutEntry(env: Env, t: Table, record: NativeValue)
    requires MapToDb(env, t.mappings, record).Ok?
    ensures WriteEntries(env, [TableOps(t, PutsAndDeletes(Some([record]), Some([])))]) ==
      Ok([Tagged(t.name, PutRequest(MapToDb(env, t.mappings, record).value))])
  {
    var to := TableOps(t, PutsAndDeletes(Some([record]), Some([])));
    var op := Tagged(t.name, PutRequest(MapToDb(env, t.mappings, record).value));
    assert PutOps(env, t, [record]).value == [op];
    assert DeleteOps(env, t, []) == Ok([]);
    assert [op] + [] == [op];
    assert TableWrites(env, to) == Ok([op]);
    WriteEntriesOne(env, to);
  }

  /** Counted in either form, the same put is the first request sent. */
  lemma ObjectFormSent(env: Env, t: Table, record: NativeValue, replies: seq<WriteReply>)
    requires MapToDb(env, t.mappings, record).Ok?
    ensures var r := BatchWrite(env, t, PutsAndDeletes(Some([record]), Some([])), [], replies);
      |r.sent| > 0 && r.sent[0] == [Field(t.name, [PutRequest(MapToDb(env, t.mappings, record).value)])]
  {
    var to := TableOps(t, PutsAndDeletes(Some([record]), Some([])));
    var op := Tagged(t.name, PutRequest(MapToDb(env, t.mappings, record).value));
    OnePutEntry(env, t, record);
    OneGroup(op);
    assert [] + [to] == [to];
    assert WriteAll(env, [to], replies) == RunWrites([[Field(t.name, [op.entry])]], replies);
  }
}

=== FILE: chunking.dfy ===
/** The request shaping the batch operations share (index.js:341-354 and
    index.js:405-414): a flat list of entries, each tagged with its table's
    name, is cut into consecutive chunks of bounded size, and every chunk
    becomes one request object keyed by table name. */
module Chunking {
  import opened Wrappers
  import opened Objects

  /** Keys per BatchGetItem request. */
  const MaxGet: nat := 100

  /** Operations per BatchWriteItem request. */
  const MaxWrite: nat := 25

  /** The chunks joined back together, in order. */
  function Flatten<T>(xss: seq<seq<T>>): seq<T> {
    if |xss| == 0 then [] else xss[0] + Flatten(xss[1..])
  }

  /** `for (i = 0; i < n; i += size)`: consecutive slices of `size` entries;
      only the last one may be shorter. */
  function Chunks<T>(xs: seq<T>, size: nat): (cs: seq<seq<T>>)
    requires size > 0
    ensures forall k :: 0 <= k < |cs| ==> 0 < |cs[k]| <= size
    ensures forall k :: 0 <= k < |cs| - 1 ==> |cs[k]| == size
    ensures Flatten(cs) == xs
    decreases |xs|
  {
    if |xs| == 0 then []
    else if |xs| <= size then
      assert Flatten([xs]) == xs + Flatten([]);
      [xs]
    else
      var rest := Chunks(xs[size..], size);
      var cs := [xs[..size]] + rest;
      assert cs[1..] == rest;
      assert xs[..size] + xs[size..] == xs;
      cs
  }

  lemma MulStep(k: int, s: int)
    requires s > 0 && k >= 1
    ensures k * s >= s
  {
  }

  /** Quotient and remainder are unique. */
  lemma DivUnique(a: int, s: int, q: int, r: int)
    requires s > 0 && 0 <= r < s && a == q * s + r
    ensures a / s == q
  {
    var q', r' := a / s, a % s;
    assert a == q' * s + r';
    if q' < q {
      MulStep(q - q', s);
      assert false;
    } else if q' > q {
      MulStep(q' - q, s);
      assert false;
    }
  }

  lemma CeilStep(n: nat, size: nat)
    requires size > 0 && n > size
    ensures (n + size - 1) / size == 1 + (n - size + size - 1) / size
  {
    var m := n - size + size - 1;
    var q, r := m / size, m % size;
    assert m == q * size + r;
    assert n + size - 1 == (q + 1) * size + r;
    DivUnique(n + size - 1, size, q + 1, r);
  }

  /** The number of chunks is the entry count divided by the size, rounded up. */
  lemma {:induction false} ChunkCount<T>(xs: seq<T>, size: nat)
    requires size > 0
    ensures |Chunks(xs, size)| == (|xs| + size - 1) / size
    decreases |xs|
  {
    if |xs| == 0 {
      DivUnique(size - 1, size, 0, size - 1);
    } else if |xs| <= size {
      DivUnique(|xs| + size - 1, size, 1, |xs| - 1);
    } else {
      ChunkCount(xs[size..], size);
      assert |Chunks(xs, size)| == 1 + |Chunks(xs[size..], size)|;
      CeilStep(|xs|, size);
    }
  }

  /** An entry of a batch, tagged with the name of its table. */
  datatype Tagged<E> = Tagged(table: string, entry: E)

  /** The entries of one table, in order. */
  function Select<E>(es: seq<Tagged<E>>, name: string): seq<E> {
    if |es| == 0 then []
    else Select(es[..|es| - 1], name) + (if es[|es| - 1].table == name then [es[|es| - 1].entry] else [])
  }

  /** Left fold of `add` over a list. */
  function Fold<E, G>(start: G, add: (G, E) -> G, xs: seq<E>): G {
    if |xs| == 0 then start else add(Fold(start, add, xs[..|xs| - 1]), xs[|xs| - 1])
  }

  /** One chunk as a request object: `requestItems[e.table]` starts from
      `start` the first time the table is met and absorbs each of its entries
      in turn. */
  function GroupBy<E, G>(es: seq<Tagged<E>>, start: G, add: (G, E) -> G): (r: Fields<G>)
    ensures DistinctNames(r)
  {
    if |es| == 0 then []
    else
      var prev := GroupBy(es[..|es| - 1], start, add);
      var e := es[|es| - 1];
      AssignDistinct(prev, e.table, add(Get(prev, e.table).GetOr(start), e.entry));
      Assign(prev, e.table, add(Get(prev, e.table).GetOr(start), e.entry))
  }

  /** A table's group is the fold over exactly that table's entries, in
      order; a table without entries has no group. */
  lemma {:induction false} GroupByGet<E, G>(es: seq<Tagged<E>>, start: G, add: (G, E) -> G, name: string)
    ensures Get(GroupBy(es, start, add), name) ==
      if |Select(es, name)| == 0 then None else Some(Fold(start, add, Select(es, name)))
  {
    if |es| > 0 {
      var prefix := es[..|es| - 1];
      var e := es[|es| - 1];
      GroupByGet(prefix, start, add, name);
      var prev := GroupBy(prefix, start, add);
      var g := add(Get(prev, e.table).GetOr(start), e.entry);
      assert GroupBy(es, start, add) == Assign(prev, e.table, g);
      AssignGet(prev, e.table, g);
      var s := Select(prefix, name);
      if e.table == name {
        assert Select(es, name) == s + [e.entry];
        assert (s + [e.entry])[..|s|] == s;
        assert Get(prev, name).GetOr(start) == Fold(start, add, s);
        assert Fold(start, add, s + [e.entry]) == add(Fold(start, add, s), e.entry);
        assert Get(Assign(prev, e.table, g), name) == Some(g);
      } else {
        assert Select(es, name) == s + [] == s;
        assert Get(Assign(prev, e.table, g), name) == Get(prev, name);
      }
    }
  }

  /** Sum of `size` over the values of an object. */
  function Total<G>(fs: Fields<G>, size: G -> nat): nat {
    if |fs| == 0 then 0 else Total(fs[..|fs| - 1], size) + size(fs[|fs| - 1].value)
  }

  lemma {:induction false} TotalUpdate<G>(fs: Fields<G>, k: nat, f: Field<G>, size: G -> nat)
    requires k < |fs|
    ensures Total(fs[k := f], size) == Total(fs, size) - size(fs[k].value) + size(f.value)
    decreases |fs|
  {
    var gs := fs[k := f];
    if k < |fs| - 1 {
      assert gs[..|gs| - 1] == fs[..|fs| - 1][k := f];
      TotalUpdate(fs[..|fs| - 1], k, f, size);
    } else {
      assert gs[..|gs| - 1] == fs[..|fs| - 1];
    }
  }

  lemma TotalSnoc<G>(fs: Fields<G>, f: Field<G>, size: G -> nat)
    ensures Total(fs + [f], size) == Total(fs, size) + size(f.value)
  {
    assert (fs + [f])[..|fs|] == fs;
  }

  /** When every entry adds one to a group's size, the groups of a chunk
      together hold exactly its entries: none is lost or counted twice. */
  lemma {:induction false} GroupByTotal<E, G>(es: seq<Tagged<E>>, start: G, add: (G, E) -> G, size: G -> nat)
    requires size(start) == 0
    requires forall g, e :: size(add(g, e)) == size(g) + 1
    ensures Total(GroupBy(es, start, add), size) == |es|
  {
    if |es| > 0 {
      var prefix := es[..|es| - 1];
      var e := es[|es| - 1];
      GroupByTotal(prefix, start, add, size);
      var prev := GroupBy(prefix, start, add);
      var g := add(Get(prev, e.table).GetOr(start), e.entry);
      if Has(prev, e.table) {
        var k := IndexOf(prev, e.table);
        AssignInPlace(prev, e.table, g);
        TotalUpdate(prev, k, Field(e.table, g), size);
      } else {
        TotalSnoc(prev, Field(e.table, g), size);
      }
    }
  }

  /** The requests of a batch: one per chunk, each grouped by table. */
  function Batches<E, G>(es: seq<Tagged<E>>, size: nat, start: G, add: (G, E) -> G): (rs: seq<Fields<G>>)
    requires size > 0
    ensures |rs| == |Chunks(es, size)|
    ensures forall k :: 0 <= k < |rs| ==> rs[k] == GroupBy(Chunks(es, size)[k], start, add)
  {
    var cs := Chunks(es, size);
    seq(|cs|, k requires 0 <= k < |cs| => GroupBy(cs[k], start, add))
  }

  /** Per-name concatenation `merged[name] = (merged[name] || []).concat(...)`
      over the properties of `more`, in order. */
  function Concat<V>(acc: Fields<seq<V>>, more: Fields<seq<V>>): (r: Fields<seq<V>>)
    ensures DistinctNames(acc) ==> DistinctNames(r)
  {
    if |more| == 0 then acc
    else
      var prev := Concat(acc, more[..|more| - 1]);
      var f := more[|more| - 1];
      if DistinctNames(acc) then
        AssignDistinct(prev, f.name, Get(prev, f.name).GetOr([]) + f.value);
        Assign(prev, f.name, Get(prev, f.name).GetOr([]) + f.value)
      else Assign(prev, f.name, Get(prev, f.name).GetOr([]) + f.value)
  }

  /** The inductive step of `ConcatGet` for the name just added. */
  lemma ConcatStepSame<V>(acc: Fields<seq<V>>, prefix: Fields<seq<V>>, f: Field<seq<V>>)
    requires !Has(prefix, f.name)
    requires Get(Concat(acc, prefix), f.name) ==
      if Has(acc, f.name) then Some(Get(acc, f.name).GetOr([]) + []) else None
    ensures Get(Concat(acc, prefix + [f]), f.name) == Some(Get(acc, f.name).GetOr([]) + f.value)
  {
    var more := prefix + [f];
    assert more[..|more| - 1] == prefix;
    var prev := Concat(acc, prefix);
    var v := Get(prev, f.name).GetOr([]) + f.value;
    assert Concat(acc, more) == Assign(prev, f.name, v);
    AssignGet(prev, f.name, v);
    assert Get(prev, f.name).GetOr([]) == Get(acc, f.name).GetOr([]);
  }

  /** The inductive step of `ConcatGet` for any other name. */
  lemma ConcatStepOther<V>(acc: Fields<seq<V>>, prefix: Fields<seq<V>>, f: Field<seq<V>>, name: string)
    requires f.name != name
    ensures Get(Concat(acc, prefix + [f]), name) == Get(Concat(acc, prefix), name)
  {
    var more := prefix + [f];
    assert more[..|more| - 1] == prefix;
    var prev := Concat(acc, prefix);
    var v := Get(prev, f.name).GetOr([]) + f.value;
    assert Concat(acc, more) == Assign(prev, f.name, v);
    AssignGet(prev, f.name, v);
  }

  /** Each name ends up with its old list followed by the new one. */
  lemma {:induction false} ConcatGet<V>(acc: Fields<seq<V>>, more: Fields<seq<V>>, name: string)
    requires DistinctNames(more)
    ensures Get(Concat(acc, more), name) ==
      if Has(acc, name) || Has(more, name) then Some(Get(acc, name).GetOr([]) + Get(more, name).GetOr([])) else None
  {
    if |more| > 0 {
      var prefix := more[..|more| - 1];
      var f := more[|more| - 1];
      LastNameFresh(more);
      ConcatGet(acc, prefix, name);
      assert prefix + [f] == more;
      GetSnoc(prefix, f, name);
      if f.name == name {
        assert Get(prefix, name) == None;
        ConcatStepSame(acc, prefix, f);
      } else {
        ConcatStepOther(acc, prefix, f, name);
      }
    } else {
      assert Get(acc, name).GetOr([]) + [] == Get(acc, name).GetOr([]);
    }
  }

  /** `ConcatGet` read with `|| []`: the old list, then the new one. */
  lemma ConcatGetOr<V>(acc: Fields<seq<V>>, more: Fields<seq<V>>, name: string)
    requires DistinctNames(more)
    ensures Get(Concat(acc, more), name).GetOr([]) == Get(acc, name).GetOr([]) + Get(more, name).GetOr([])
  {
    ConcatGet(acc, more, name);
    if !(Has(acc, name) || Has(more, name)) {
      assert Get(acc, name).GetOr([]) + Get(more, name).GetOr([]) == [] + [];
    }
  }
}

=== FILE: codec.dfy ===
/** The attribute codec (`mapAttrToDb` / `mapAttrFromDb` / `_isEmpty`): one
    native value to and from one wire attribute, steered by an optional
    per-field hint. */
module Codec {
  import opened Wrappers
  import opened Objects
  import opened Decimal
  import opened Values

  /** A caller's `to` transform: (value, field name, owning record). */
  type ToFn = (NativeValue, string, NativeValue) -> Option<WireAttr>
  /** A caller's `from` transform: (attribute, field name, owning item). */
  type FromFn = (WireAttr, string, Item) -> NativeValue

  /** A per-field mapping: a tag string, or an object carrying optional
      `to` / `from` transforms. */
  datatype Hint = Tag(name: string) | Custom(to: Option<ToFn>, from: Option<FromFn>)

  type Mappings = map<string, Hint>

  /** The tags the encoder's switch recognises (`json` is handled before it). */
  predicate EncodeTag(t: string) {
    t in {"S", "N", "B", "SS", "NS", "BS", "bignum", "isodate", "timestamp", "mapS", "mapN", "mapB"}
  }

  /** The tags the decoder's switch recognises. */
  predicate DecodeTag(t: string) {
    EncodeTag(t) || t == "json"
  }

  /** `this.mappings[key]` when it is truthy. */
  function HintFor(mappings: Mappings, key: string): (h: Option<Hint>)
    ensures h.Some? ==> key in mappings && h.value == mappings[key]
    ensures h.None? ==> key !in mappings || mappings[key] == Tag("")
  {
    if key in mappings && !(mappings[key].Tag? && mappings[key].name == "") then Some(mappings[key])
    else None
  }

  predicate HasTag(mappings: Mappings, key: string, t: string) {
    var h := HintFor(mappings, key);
    h.Some? && h.value.Tag? && h.value.name == t
  }

  predicate HasCustomTo(mappings: Mappings, key: string) {
    var h := HintFor(mappings, key);
    h.Some? && h.value.Custom? && h.value.to.Some?
  }

  predicate HasCustomFrom(mappings: Mappings, key: string) {
    var h := HintFor(mappings, key);
    h.Some? && h.value.Custom? && h.value.from.Some?
  }

  /** The encoder leaves a field to shape inference: no truthy mapping, a
      mapping object without `to`, or an unrecognised tag. */
  predicate Unhinted(mappings: Mappings, key: string) {
    var h := HintFor(mappings, key);
    h.None? || (h.value.Custom? && h.value.to.None?) || (h.value.Tag? && !DecodeTag(h.value.name))
  }

  /** `String(x)` of every list element. */
  function Texts(env: Env, xs: seq<NativeValue>): (ts: seq<string>)
    ensures |ts| == |xs|
    ensures forall i :: 0 <= i < |xs| ==> ts[i] == JsString(env, xs[i])
  {
    seq(|xs|, i requires 0 <= i < |xs| => JsString(env, xs[i]))
  }

  /** `x.toString('base64')`: base64 for a buffer; a number rejects the
      radix argument (RangeError); null and undefined have no `toString`;
      anything else ignores the argument. */
  function Base64Text(env: Env, x: NativeValue): (r: Res<string>)
    ensures x.Buf? ==> r == Ok(env.base64(x.bytes))
    ensures r.Err? <==> x.Num? || x.Float? || IsNullish(x)
  {
    match x
    case Buf(bs) => Ok(env.base64(bs))
    case Num(_) => Err(TypeError("radix must be between 2 and 36"))
    case Float(_) => Err(TypeError("radix must be between 2 and 36"))
    case Undefined => Err(TypeError("cannot read property 'toString' of undefined"))
    case Null => Err(TypeError("cannot read property 'toString' of null"))
    case _ => Ok(JsString(env, x))
  }

  function Base64Texts(env: Env, xs: seq<NativeValue>): (r: Res<seq<string>>)
    ensures r.Ok? <==> forall i :: 0 <= i < |xs| ==> Base64Text(env, xs[i]).Ok?
    ensures r.Ok? ==> |r.value| == |xs| && forall i :: 0 <= i < |xs| ==> r.value[i] == Base64Text(env, xs[i]).value
  {
    if |xs| == 0 then Ok([])
    else
      match Base64Text(env, xs[0])
      case Err(e) => Err(e)
      case Ok(t) =>
        match Base64Texts(env, xs[1..])
        case Err(e) => Err(e)
        case Ok(ts) => Ok([t] + ts)
  }

  /** The encoder's switch on a recognised tag (index.js:42-55); `val` is
      neither null, undefined nor ''. A list-valued tag applied to a value
      that is not a list produces no usable wire value in the source; the
      model reports it as a TypeError. */
  function EncodeTagged(env: Env, tag: string, val: NativeValue): (r: Res<Option<WireAttr>>)
    requires EncodeTag(tag)
    ensures r.Ok? && r.value.Some? ==> OneTag(r.value.value)
  {
    if tag == "S" then Ok(Some(AttrS(JsString(env, val))))
    else if tag == "N" then Ok(Some(AttrN(JsString(env, val))))
    else if tag == "B" then
      var t :- Base64Text(env, val); Ok(Some(AttrB(t)))
    else if tag == "SS" then
      // the source sends a list whose head is a string as it is and maps any
      // other list through String(); the model maps every list, which agrees
      // whenever all elements are strings (wire lists here hold text only)
      if val.Arr? then Ok(Some(AttrSS(Texts(env, val.elems)))) else Err(TypeError("val.map is not a function"))
    else if tag == "NS" then
      if val.Arr? then Ok(Some(AttrNS(Texts(env, val.elems)))) else Err(TypeError("val.map is not a function"))
    else if tag == "BS" then
      if val.Arr? then var ts :- Base64Texts(env, val.elems); Ok(Some(AttrBS(ts)))
      else Err(TypeError("val.map is not a function"))
    else if tag == "bignum" then
      // the source sends the value or list itself; the model sends its text
      if val.Arr? then Ok(Some(AttrNS(Texts(env, val.elems)))) else Ok(Some(AttrN(JsString(env, val))))
    else if tag == "isodate" then
      if val.Date? then Ok(Some(AttrS(env.isoText(val.ms)))) else Err(TypeError("val.toISOString is not a function"))
    else if tag == "timestamp" then Ok(Some(AttrN(JsString(env, JsToNumber(env, val)))))
    else if tag == "mapS" then Ok(Some(AttrSS(Names(OwnProps(val)))))
    else if tag == "mapN" then Ok(Some(AttrNS(Names(OwnProps(val)))))
    else Ok(Some(AttrBS(Names(OwnProps(val)))))
  }

  /** Encoding by the value's shape (index.js:57-73); `val` is neither null,
      undefined nor ''. A list whose head is a string is sent as it is by the
      source; the model sends the texts of its elements, the same list when
      every element is a string. */
  function EncodeInferred(env: Env, val: NativeValue): (r: Res<Option<WireAttr>>)
    ensures (val == Arr([]) || val == Buf([])) ==> r == Ok(None)
    ensures r.Ok? && r.value.Some? ==> OneTag(r.value.value)
  {
    match val
    case Str(s) => Ok(Some(AttrS(s)))
    case Bool(_) => Ok(Some(AttrS(JsString(env, val))))
    case Num(_) => Ok(Some(AttrN(JsString(env, val))))
    case Float(_) => Ok(Some(AttrN(JsString(env, val))))
    case Buf(bs) => if |bs| == 0 then Ok(None) else Ok(Some(AttrB(env.base64(bs))))
    case Arr(xs) =>
      if |xs| == 0 then Ok(None)
      else if xs[0].Str? then Ok(Some(AttrSS(Texts(env, xs))))
      else if xs[0].Num? || xs[0].Float? then Ok(Some(AttrNS(Texts(env, xs))))
      else if xs[0].Buf? then var ts :- Base64Texts(env, xs); Ok(Some(AttrBS(ts)))
      else Ok(Some(AttrS(env.jsonText(val))))
    case _ => Ok(Some(AttrS(env.jsonText(val))))
  }

  /** `mapAttrToDb(val, key, jsObj)`: None is `undefined` (no attribute). */
  function Encode(env: Env, mappings: Mappings, val: NativeValue, key: string, owner: NativeValue): (r: Res<Option<WireAttr>>)
    // a custom `to` decides alone
    ensures HasCustomTo(mappings, key) ==> r == Ok(HintFor(mappings, key).value.to.value(val, key, owner))
    // json writes text for every value, null and '' included, except that
    // `JSON.stringify(undefined)` is undefined and leaves no tag
    ensures HasTag(mappings, key, "json") && val != Undefined ==> r == Ok(Some(AttrS(env.jsonText(val))))
    ensures HasTag(mappings, key, "json") && val == Undefined ==> r == Ok(Some(Untagged))
    // null, undefined and '' are absent under every other mapping
    ensures !HasCustomTo(mappings, key) && !HasTag(mappings, key, "json") && (IsNullish(val) || val == Str(""))
            ==> r == Ok(None)
    // so are the empty list and the empty buffer when the shape decides
    ensures Unhinted(mappings, key) && (val == Arr([]) || val == Buf([])) ==> r == Ok(None)
    // whatever else the codec itself builds carries exactly one type tag
    ensures !HasCustomTo(mappings, key) && !(HasTag(mappings, key, "json") && val == Undefined) && r.Ok? && r.value.Some?
            ==> OneTag(r.value.value)
  {
    var h := HintFor(mappings, key);
    if h.Some? && h.value.Custom? && h.value.to.Some? then Ok(h.value.to.value(val, key, owner))
    else if h.Some? && h.value.Tag? && h.value.name == "json" then
      if val == Undefined then Ok(Some(Untagged)) else Ok(Some(AttrS(env.jsonText(val))))
    else if IsNullish(val) || val == Str("") then Ok(None)
    else if h.Some? && h.value.Tag? && EncodeTag(h.value.name) then EncodeTagged(env, h.value.name, val)
    else EncodeInferred(env, val)
  }

  /** `_isEmpty(attr)`: a missing attribute or an empty S, N or B text. The
      source also compares SS, NS and BS with the string '[]', which a list
      never equals, so set-valued attributes are never empty. */
  predicate IsEmpty(a: Option<WireAttr>) {
    a.None? || a.value.s == Some("") || a.value.n == Some("") || a.value.b == Some("")
  }

  /** The decoder's switch on a recognised tag (index.js:80-97). */
  function DecodeTagged(env: Env, tag: string, val: WireAttr): Res<NativeValue>
    requires DecodeTag(tag)
  {
    if tag == "S" then Ok(if val.s.Some? then Str(val.s.value) else Undefined)
    else if tag == "N" then Ok(if val.n.Some? then NumberOfText(env, val.n.value) else Float("NaN"))
    else if tag == "B" then
      if val.b.Some? then Ok(Buf(env.unbase64(val.b.value))) else Err(TypeError("new Buffer(undefined)"))
    else if tag == "SS" then Ok(if val.ss.Some? then Arr(Strs(val.ss.value)) else Undefined)
    else if tag == "NS" then
      if val.ns.Some? then Ok(Arr(Numbers(env, val.ns.value))) else Err(TypeError("val.NS is undefined"))
    else if tag == "BS" then
      if val.bs.Some? then Ok(Arr(Buffers(env, val.bs.value))) else Err(TypeError("val.BS is undefined"))
    else if tag == "json" then
      if val.s.None? then Err(TypeError("JSON.parse(undefined)"))
      else match env.jsonParse(val.s.value)
        case Some(v) => Ok(v)
        case None => Err(TypeError("JSON.parse: invalid text"))
    else if tag == "bignum" then
      Ok(if val.n.Some? then Str(val.n.value) else if val.ns.Some? then Arr(Strs(val.ns.value)) else Undefined)
    else if tag == "isodate" then Ok(env.dateFromText(val.s))
    else if tag == "timestamp" then Ok(env.dateFromText(val.n))
    // mapS, mapN, mapB: the first list present among SS, NS, BS (an empty list is truthy)
    else if val.ss.Some? then Ok(Obj(Membership(val.ss.value)))
    else if val.ns.Some? then Ok(Obj(Membership(val.ns.value)))
    else if val.bs.Some? then Ok(Obj(Membership(val.bs.value)))
    else Err(TypeError("cannot read property 'reduce' of undefined"))
  }

  function Strs(ts: seq<string>): (vs: seq<NativeValue>)
    ensures |vs| == |ts| && forall i :: 0 <= i < |ts| ==> vs[i] == Str(ts[i])
  {
    seq(|ts|, i requires 0 <= i < |ts| => Str(ts[i]))
  }

  function Numbers(env: Env, ts: seq<string>): (vs: seq<NativeValue>)
    ensures |vs| == |ts| && forall i :: 0 <= i < |ts| ==> vs[i] == NumberOfText(env, ts[i])
  {
    seq(|ts|, i requires 0 <= i < |ts| => NumberOfText(env, ts[i]))
  }

  function Buffers(env: Env, ts: seq<string>): (vs: seq<NativeValue>)
    ensures |vs| == |ts| && forall i :: 0 <= i < |ts| ==> vs[i] == Buf(env.unbase64(ts[i]))
  {
    seq(|ts|, i requires 0 <= i < |ts| => Buf(env.unbase64(ts[i])))
  }

  /** `ts.reduce((o, t) => { o[t] = 1; return o }, {})`. */
  function Membership(ts: seq<string>): (ps: Props)
    ensures DistinctNames(ps)
  {
    if |ts| == 0 then []
    else
      AssignDistinct(Membership(ts[..|ts| - 1]), ts[|ts| - 1], Num(1));
      Assign(Membership(ts[..|ts| - 1]), ts[|ts| - 1], Num(1))
  }

  /** The membership object names each listed text once, with the value 1. */
  lemma {:induction false} MembershipContents(ts: seq<string>)
    ensures forall t :: Has(Membership(ts), t) <==> t in ts
    ensures forall t :: t in ts ==> Get(Membership(ts), t) == Some(Num(1))
  {
    if |ts| > 0 {
      MembershipContents(ts[..|ts| - 1]);
      AssignGet(Membership(ts[..|ts| - 1]), ts[|ts| - 1], Num(1));
      assert ts == ts[..|ts| - 1] + [ts[|ts| - 1]];
    }
  }

  /** Decoding by the first tag present, in the order S, N, B, SS, NS, BS
      (index.js:100-112). */
  function DecodeInferred(env: Env, val: WireAttr): Res<NativeValue> {
    if val.s.Some? then
      var t := val.s.value;
      if t == "true" then Ok(Bool(true))
      else if t == "false" then Ok(Bool(false))
      else if |t| > 0 && (t[0] == '{' || t[0] == '[') then
        match env.jsonParse(t)
        case Some(v) => Ok(v)
        case None => Ok(Str(t))
      else Ok(Str(t))
    else if val.n.Some? then Ok(NumberOfText(env, val.n.value))
    else if val.b.Some? then Ok(Buf(env.unbase64(val.b.value)))
    else if val.ss.Some? then Ok(Arr(Strs(val.ss.value)))
    else if val.ns.Some? then Ok(Arr(Numbers(env, val.ns.value)))
    else if val.bs.Some? then Ok(Arr(Buffers(env, val.bs.value)))
    else Err(UnknownWireType)
  }

  /** `mapAttrFromDb(val, key, dbItem)`. `Undefined` in the result means the
      field is dropped by the item mapper. */
  function Decode(env: Env, mappings: Mappings, val: WireAttr, key: string, item: Item): (r: Res<NativeValue>)
    ensures HasCustomFrom(mappings, key) ==> r == Ok(HintFor(mappings, key).value.from.value(val, key, item))
    // only an attribute without any of the six tags is an unknown wire type
    ensures r == Err(UnknownWireType) ==> TagCount(val) == 0
    ensures TagCount(val) == 0 && !HasCustomFrom(mappings, key)
            && !(HintFor(mappings, key).Some? && HintFor(mappings, key).value.Tag? && DecodeTag(HintFor(mappings, key).value.name))
            ==> r == Err(UnknownWireType)
  {
    var h := HintFor(mappings, key);
    if h.Some? && h.value.Custom? && h.value.from.Some? then Ok(h.value.from.value(val, key, item))
    else if h.Some? && h.value.Tag? && DecodeTag(h.value.name) then DecodeTagged(env, h.value.name, val)
    else DecodeInferred(env, val)
  }
}

=== FILE: codec_laws.dfy ===
/** What the codec promises: hinted fields round-trip, inferred encodings
    round-trip for the shapes that are not ambiguous, and inferred decoding
    looks only at the first tag present. */
module CodecLaws {
  import opened Wrappers
  import opened Objects
  import opened Decimal
  import opened Values
  import opened Codec

  /** The values a hint is meant for, those that come back unchanged. */
  ghost predicate ValidFor(env: Env, tag: string, v: NativeValue) {
    if tag == "S" then v.Str? && v.s != ""
    else if tag == "N" then v.Num? && SafeInteger(v.n)
    else if tag == "B" then v.Buf?
    else if tag == "SS" then v.Arr? && forall i :: 0 <= i < |v.elems| ==> v.elems[i].Str?
    else if tag == "NS" then v.Arr? && forall i :: 0 <= i < |v.elems| ==> v.elems[i].Num? && SafeInteger(v.elems[i].n)
    else if tag == "BS" then v.Arr? && forall i :: 0 <= i < |v.elems| ==> v.elems[i].Buf?
    else if tag == "json" then v != Undefined && env.jsonParse(env.jsonText(v)) == Some(v)
    else if tag == "bignum" then
      (v.Str? && v.s != "") || (v.Arr? && forall i :: 0 <= i < |v.elems| ==> v.elems[i].Str?)
    else if tag == "isodate" then v.Date?
    else if tag in {"mapS", "mapN", "mapB"} then
      v.Obj? && DistinctNames(v.props) && forall i :: 0 <= i < |v.props| ==> v.props[i].value == Num(1)
    else false
  }

  lemma MembershipOfNamesStep(ps: Props)
    requires |ps| > 0
    ensures Membership(Names(ps)) == Assign(Membership(Names(ps[..|ps| - 1])), ps[|ps| - 1].name, Num(1))
  {
    var ns := Names(ps);
    assert ns[..|ns| - 1] == Names(ps[..|ps| - 1]);
  }

  lemma {:induction false} MembershipOfNames(ps: Props)
    requires DistinctNames(ps)
    requires forall i :: 0 <= i < |ps| ==> ps[i].value == Num(1)
    ensures Membership(Names(ps)) == ps
    decreases |ps|
  {
    if |ps| > 0 {
      var init := ps[..|ps| - 1];
      var last := ps[|ps| - 1];
      MembershipOfNamesStep(ps);
      LastNameFresh(ps);
      assert forall i :: 0 <= i < |init| ==> init[i].value == Num(1) by {
        assert forall i :: 0 <= i < |init| ==> init[i] == ps[i];
      }
      MembershipOfNames(init);
      assert ps == init + [Field(last.name, Num(1))];
    }
  }

  lemma StringsRoundTrip(env: Env, xs: seq<NativeValue>)
    requires forall i :: 0 <= i < |xs| ==> xs[i].Str?
    ensures Strs(Texts(env, xs)) == xs
  {
  }

  lemma NumbersRoundTrip(env: Env, xs: seq<NativeValue>)
    requires forall i :: 0 <= i < |xs| ==> xs[i].Num? && SafeInteger(xs[i].n)
    ensures Numbers(env, Texts(env, xs)) == xs
  {
    forall i | 0 <= i < |xs| ensures NumberOfText(env, JsString(env, xs[i])) == xs[i] {
      IntDecimalRoundTrip(xs[i].n);
    }
  }

  lemma BuffersRoundTrip(env: Env, xs: seq<NativeValue>)
    requires Base64Faithful(env)
    requires forall i :: 0 <= i < |xs| ==> xs[i].Buf?
    ensures Base64Texts(env, xs).Ok?
    ensures Buffers(env, Base64Texts(env, xs).value) == xs
  {
  }

  /** Encoding under a recognised tag goes through the tag's own rule. */
  lemma EncodeUnderTag(env: Env, mappings: Mappings, key: string, tag: string, v: NativeValue, owner: NativeValue)
    requires HasTag(mappings, key, tag) && EncodeTag(tag)
    requires !IsNullish(v) && v != Str("")
    ensures Encode(env, mappings, v, key, owner) == EncodeTagged(env, tag, v)
  {
  }

  lemma DecodeUnderTag(env: Env, mappings: Mappings, key: string, tag: string, a: WireAttr, item: Item)
    requires HasTag(mappings, key, tag) && DecodeTag(tag)
    ensures Decode(env, mappings, a, key, item) == DecodeTagged(env, tag, a)
  {
  }

  /** The tagged rules alone: decoding what a tag's rule wrote gives the value. */
  lemma TaggedRoundTrip(env: Env, tag: string, v: NativeValue)
    requires Base64Faithful(env) && IsoFaithful(env)
    requires EncodeTag(tag) && ValidFor(env, tag, v)
    ensures EncodeTagged(env, tag, v).Ok? && EncodeTagged(env, tag, v).value.Some?
    ensures DecodeTagged(env, tag, EncodeTagged(env, tag, v).value.value) == Ok(v)
  {
    if tag == "N" {
      IntDecimalRoundTrip(v.n);
    } else if tag == "SS" {
      StringsRoundTrip(env, v.elems);
    } else if tag == "NS" {
      NumbersRoundTrip(env, v.elems);
    } else if tag == "BS" {
      BuffersRoundTrip(env, v.elems);
    } else if tag == "bignum" {
      if v.Arr? { StringsRoundTrip(env, v.elems); }
    } else if tag in {"mapS", "mapN", "mapB"} {
      MembershipOfNames(v.props);
    }
  }

  /** A field declared with a hint comes back from the store as it went in. */
  lemma HintedRoundTrip(env: Env, mappings: Mappings, key: string, tag: string, v: NativeValue, owner: NativeValue, item: Item)
    requires Base64Faithful(env) && IsoFaithful(env)
    requires HasTag(mappings, key, tag)
    requires ValidFor(env, tag, v)
    ensures Encode(env, mappings, v, key, owner).Ok?
    ensures Encode(env, mappings, v, key, owner).value.Some?
    ensures Decode(env, mappings, Encode(env, mappings, v, key, owner).value.value, key, item) == Ok(v)
  {
    if tag == "json" {
      DecodeUnderTag(env, mappings, key, tag, AttrS(env.jsonText(v)), item);
    } else {
      assert !IsNullish(v) && v != Str("");
      EncodeUnderTag(env, mappings, key, tag, v, owner);
      TaggedRoundTrip(env, tag, v);
      DecodeUnderTag(env, mappings, key, tag, EncodeTagged(env, tag, v).value.value, item);
    }
  }

  /** The inferred encodings that decode back to the same value: booleans,
      safe integers, buffers and non-empty homogeneous lists of strings, integers
      or buffers, and text that is not 'true', 'false' or JSON-looking. */
  ghost predicate Unambiguous(v: NativeValue) {
    match v
    case Bool(_) => true
    case Num(n) => SafeInteger(n)
    case Str(s) => s != "" && s != "true" && s != "false" && s[0] != '{' && s[0] != '['
    case Buf(bs) => |bs| > 0
    case Arr(xs) =>
      |xs| > 0 &&
      ((forall i :: 0 <= i < |xs| ==> xs[i].Str?)
       || (forall i :: 0 <= i < |xs| ==> xs[i].Num? && SafeInteger(xs[i].n))
       || (forall i :: 0 <= i < |xs| ==> xs[i].Buf?))
    case _ => false
  }

  lemma InferredRoundTrip(env: Env, mappings: Mappings, key: string, v: NativeValue, owner: NativeValue, item: Item)
    requires Base64Faithful(env)
    requires HintFor(mappings, key).None?
    requires Unambiguous(v)
    ensures Encode(env, mappings, v, key, owner).Ok?
    ensures Encode(env, mappings, v, key, owner).value.Some?
    ensures Decode(env, mappings, Encode(env, mappings, v, key, owner).value.value, key, item) == Ok(v)
  {
    match v {
      case Num(n) => IntDecimalRoundTrip(n);
      case Arr(xs) =>
        if xs[0].Str? {
          StringsRoundTrip(env, xs);
        } else if xs[0].Num? {
          NumbersRoundTrip(env, xs);
        } else {
          BuffersRoundTrip(env, xs);
        }
      case _ =>
    }
  }

  /** Inferred decoding is not an inverse for text that reads as a boolean:
      the string 'true' is stored as S and comes back as the boolean. */
  lemma TextTrueComesBackBoolean(env: Env, mappings: Mappings, key: string, owner: NativeValue, item: Item)
    requires HintFor(mappings, key).None?
    ensures Encode(env, mappings, Str("true"), key, owner) == Ok(Some(AttrS("true")))
    ensures Decode(env, mappings, AttrS("true"), key, item) == Ok(Bool(true))
  {
  }

  /** Without a hint, the first tag present in the order S, N, B, SS, NS, BS
      alone decides the decoded value; an attribute with no tag is an error. */
  lemma InferredDecodeFirstTag(env: Env, mappings: Mappings, a: WireAttr, key: string, item: Item)
    requires HintFor(mappings, key).None?
    ensures a.s.Some? ==> Decode(env, mappings, a, key, item) == Decode(env, mappings, AttrS(a.s.value), key, item)
    ensures a.s.None? && a.n.Some? ==>
      Decode(env, mappings, a, key, item) == Ok(NumberOfText(env, a.n.value))
    ensures a.s.None? && a.n.None? && a.b.Some? ==>
      Decode(env, mappings, a, key, item) == Ok(Buf(env.unbase64(a.b.value)))
    ensures a.s.None? && a.n.None? && a.b.None? && a.ss.Some? ==>
      Decode(env, mappings, a, key, item) == Ok(Arr(Strs(a.ss.value)))
    ensures a.s.None? && a.n.None? && a.b.None? && a.ss.None? && a.ns.Some? ==>
      Decode(env, mappings, a, key, item) == Ok(Arr(Numbers(env, a.ns.value)))
    ensures a.s.None? && a.n.None? && a.b.None? && a.ss.None? && a.ns.None? && a.bs.Some? ==>
      Decode(env, mappings, a, key, item) == Ok(Arr(Buffers(env, a.bs.value)))
    ensures Decode(env, mappings, a, key, item) == Err(UnknownWireType) <==> TagCount(a) == 0
  {
  }

  /** Text starting with '{' or '[' is parsed as JSON when it parses, and
      kept as text otherwise. */
  lemma InferredJsonText(env: Env, mappings: Mappings, t: string, key: string, item: Item)
    requires HintFor(mappings, key).None?
    requires |t| > 0 && (t[0] == '{' || t[0] == '[')
    ensures env.jsonParse(t).Some? ==> Decode(env, mappings, AttrS(t), key, item) == Ok(env.jsonParse(t).value)
    ensures env.jsonParse(t).None? ==> Decode(env, mappings, AttrS(t), key, item) == Ok(Str(t))
  {
  }

  /** The runtime's texts of defined values are never empty: JSON text, and
      the printed form of an integral number beyond the safe range. */
  ghost predicate TextsNonEmpty(env: Env) {
    (forall v :: v != Undefined ==> env.jsonText(v) != "")
    && (forall n :: env.integerText(n) != "")
  }

  /** Without a hint, `_isEmpty` holds of an encoding exactly for null,
      undefined, '', the empty list and the empty buffer: those are the
      values a record drops. */
  lemma UnhintedEmptyExactly(env: Env, mappings: Mappings, val: NativeValue, key: string, owner: NativeValue)
    requires Unhinted(mappings, key) && TextsNonEmpty(env) && Base64Faithful(env)
    requires val.Float? ==> val.text != ""
    requires Encode(env, mappings, val, key, owner).Ok?
    ensures IsEmpty(Encode(env, mappings, val, key, owner).value)
        <==> IsNullish(val) || val == Str("") || val == Arr([]) || val == Buf([])
  {
    if val.Num? && SafeInteger(val.n) {
      assert |IntToDecimal(val.n)| > 0;
    }
  }
}

=== FILE: condition_laws.dfy ===
/** What the condition builder promises. */
module ConditionLaws {
  import opened Wrappers
  import opened Objects
  import opened Values
  import opened Codec
  import opened CodecLaws
  import opened Keys
  import opened Conditions

  lemma UpperOfNoLower(s: string)
    requires NoLower(s)
    ensures Upper(s) == s
  {
  }

  predicate NoUpper(s: string) {
    forall i :: 0 <= i < |s| ==> !('A' <= s[i] <= 'Z')
  }

  /** Upper-casing changes every lower-case letter into a capital, so text
      whose upper case has no capitals was never changed. */
  lemma UpperWithoutCapitals(c: string)
    ensures NoUpper(Upper(c)) ==> Upper(c) == c
  {
    if NoUpper(Upper(c)) {
      assert forall i :: 0 <= i < |c| ==> Upper(c)[i] == c[i];
    }
  }

  /** No text outside the translated spellings upper-cases into one. */
  lemma UpperAvoidsSpellings(c: string)
    requires !Spelling(c)
    ensures !Spelling(Upper(c))
  {
    var u := Upper(c);
    UpperWithoutCapitals(c);
    assert NoLower(u);
    assert |u| > 1 ==> !IsLower(u[1]);
  }

  /** Translating an operator twice is translating it once: the store's own
      operator names come back unchanged. */
  lemma ComparisonIdempotent(c: string)
    ensures Comparison(Comparison(c)) == Comparison(c)
  {
    if !Spelling(c) {
      UpperAvoidsSpellings(c);
    }
    UpperOfNoLower(Comparison(c));
  }

  /** Each attribute's condition is built from that attribute's own
      expression. */
  lemma ConditionsPerAttribute(env: Env, mappings: Mappings, exprs: Props, attr: string)
    requires DistinctNames(exprs)
    requires ConditionsOf(env, mappings, exprs).Ok?
    ensures Has(exprs, attr) ==>
      Condition(env, mappings, attr, Get(exprs, attr).value).Ok? &&
      Get(ConditionsOf(env, mappings, exprs).value, attr) == Some(Condition(env, mappings, attr, Get(exprs, attr).value).value)
    ensures !Has(exprs, attr) ==> Get(ConditionsOf(env, mappings, exprs).value, attr) == None
  {
    MapFieldsGet(exprs, (k, e) => ConditionField(env, mappings, k, e), attr);
  }

  /** Operands under a hint decode back to the values the caller compared
      with. */
  lemma OperandsRoundTrip(env: Env, mappings: Mappings, key: string, tag: string, expr: NativeValue, item: Item)
    requires Base64Faithful(env) && IsoFaithful(env)
    requires HasTag(mappings, key, tag)
    requires Shape(expr).Some? && Shape(expr).value.1.Some?
    requires forall i :: 0 <= i < |Shape(expr).value.1.value| ==> ValidFor(env, tag, Shape(expr).value.1.value[i])
    ensures Condition(env, mappings, key, expr).Ok?
    ensures forall i :: 0 <= i < |Shape(expr).value.1.value| ==>
      Condition(env, mappings, key, expr).value.operands.value[i].Some? &&
      Decode(env, mappings, Condition(env, mappings, key, expr).value.operands.value[i].value, key, item) == Ok(Shape(expr).value.1.value[i])
  {
    var xs := Shape(expr).value.1.value;
    forall i | 0 <= i < |xs|
      ensures Encode(env, mappings, xs[i], key, Undefined).Ok? && Encode(env, mappings, xs[i], key, Undefined).value.Some?
      ensures Decode(env, mappings, Encode(env, mappings, xs[i], key, Undefined).value.value, key, item) == Ok(xs[i])
    {
      HintedRoundTrip(env, mappings, key, tag, xs[i], Undefined, item);
    }
  }

  /** With generated ids, every key attribute the caller left unconditioned
      gets the condition "differs from the placeholder"; everything else is
      as the caller gave it. */
  lemma {:induction false} HidePlaceholdersGet(t: Table, conds: Props, attrs: seq<string>, attr: string)
    requires HidePlaceholders(t, conds, attrs).Ok?
    ensures attr in attrs && Unconditioned(conds, attr) ==>
      DefaultValue(t, attr).Ok? &&
      Get(HidePlaceholders(t, conds, attrs).value, attr) == Some(Obj([Field("!=", DefaultValue(t, attr).value)]))
    ensures !(attr in attrs && Unconditioned(conds, attr)) ==>
      Get(HidePlaceholders(t, conds, attrs).value, attr) == Get(conds, attr)
    decreases |attrs|
  {
    if attr in attrs && Unconditioned(conds, attr) {
      var init := attrs[..|attrs| - 1];
      var prev := HidePlaceholders(t, conds, init).value;
      HideStepGet(t, conds, attrs, attr);
      if attr in init {
        HidePlaceholdersGet(t, conds, init, attr);
      } else {
        assert attrs == init + [attr];
        assert Get(prev, attr) == Get(conds, attr);
      }
    }
  }

  /** One more attribute changes only its own condition, and only when it
      has none yet. */
  lemma HideStepGet(t: Table, conds: Props, attrs: seq<string>, attr: string)
    requires |attrs| > 0 && HidePlaceholders(t, conds, attrs).Ok?
    ensures HidePlaceholders(t, conds, attrs[..|attrs| - 1]).Ok?
    ensures var prev := HidePlaceholders(t, conds, attrs[..|attrs| - 1]).value;
      if attr == attrs[|attrs| - 1] && Unconditioned(prev, attr)
      then DefaultValue(t, attr).Ok? && Get(HidePlaceholders(t, conds, attrs).value, attr) == Some(Obj([Field("!=", DefaultValue(t, attr).value)]))
      else Get(HidePlaceholders(t, conds, attrs).value, attr) == Get(prev, attr)
  {
    var prev := HidePlaceholders(t, conds, attrs[..|attrs| - 1]).value;
    var a := attrs[|attrs| - 1];
    if Unconditioned(prev, a) {
      AssignGet(prev, a, Obj([Field("!=", DefaultValue(t, a).value)]));
    }
  }

  /** A key attribute left unconditioned needs a key type for its
      placeholder. */
  predicate PlaceholderTyped(t: Table, conds: Props, attr: string) {
    Unconditioned(conds, attr) ==> GetKeyType(t, attr).Ok?
  }

  /** Once the earlier attributes are hidden, the last one succeeds exactly
      when it is typed or needs no placeholder. */
  lemma HidePlaceholdersLast(t: Table, conds: Props, attrs: seq<string>)
    requires |attrs| > 0 && HidePlaceholders(t, conds, attrs[..|attrs| - 1]).Ok?
    requires forall i :: 0 <= i < |attrs| - 1 ==> PlaceholderTyped(t, conds, attrs[i])
    ensures HidePlaceholders(t, conds, attrs).Ok? <==> PlaceholderTyped(t, conds, attrs[|attrs| - 1])
  {
    var init := attrs[..|attrs| - 1];
    var attr := attrs[|attrs| - 1];
    HidePlaceholdersGet(t, conds, init, attr);
    var prev := HidePlaceholders(t, conds, init).value;
    if attr in init {
      var j :| 0 <= j < |init| && init[j] == attr;
      assert init[j] == attrs[j];
      assert PlaceholderTyped(t, conds, attrs[j]);
      assert Unconditioned(conds, attr) ==> !Unconditioned(prev, attr);
    } else {
      assert Unconditioned(prev, attr) == Unconditioned(conds, attr);
    }
  }

  /** Hiding placeholders fails exactly when a key attribute left
      unconditioned has no key type. */
  lemma {:induction false} HidePlaceholdersOk(t: Table, conds: Props, attrs: seq<string>)
    ensures HidePlaceholders(t, conds, attrs).Ok? <==>
      forall i :: 0 <= i < |attrs| ==> PlaceholderTyped(t, conds, attrs[i])
    decreases |attrs|
  {
    if |attrs| > 0 {
      var init := attrs[..|attrs| - 1];
      HidePlaceholdersOk(t, conds, init);
      assert forall i :: 0 <= i < |init| ==> init[i] == attrs[i];
      if HidePlaceholders(t, conds, init).Err? {
        var j :| 0 <= j < |init| && !PlaceholderTyped(t, conds, init[j]);
        assert !PlaceholderTyped(t, conds, attrs[j]);
      } else {
        HidePlaceholdersLast(t, conds, attrs);
      }
    }
  }

  /** With generated ids and no preset, the filter is built from the
      conditions with the placeholders hidden. */
  lemma ScanBuilt(env: Env, t: Table, conditions: Option<Props>, preset: NativeValue)
    requires !Truthy(preset)
    requires ScanFilter(env, t, true, conditions, preset).Ok?
    ensures HidePlaceholders(t, conditions.GetOr([]), t.key).Ok?
    ensures DistinctNames(conditions.GetOr([])) ==> DistinctNames(HidePlaceholders(t, conditions.GetOr([]), t.key).value)
    ensures ConditionsOf(env, t.mappings, HidePlaceholders(t, conditions.GetOr([]), t.key).value).Ok?
    ensures ScanFilter(env, t, true, conditions, preset) ==
      Ok(Built(ConditionsOf(env, t.mappings, HidePlaceholders(t, conditions.GetOr([]), t.key).value).value))
  {
  }

  /** A scan with generated ids and no preset filter sends, for every key
      attribute the caller left unconditioned, the condition "differs from
      the placeholder", and the caller's own condition for every other
      attribute. */
  lemma {:induction false} ScanHidesPlaceholders(env: Env, t: Table, conditions: Option<Props>, preset: NativeValue, attr: string)
    requires !Truthy(preset) && DistinctNames(conditions.GetOr([]))
    requires ScanFilter(env, t, true, conditions, preset).Ok?
    ensures ScanFilter(env, t, true, conditions, preset).value.Built?
    ensures attr in t.key && Unconditioned(conditions.GetOr([]), attr) ==>
      DefaultValue(t, attr).Ok? &&
      Condition(env, t.mappings, attr, Obj([Field("!=", DefaultValue(t, attr).value)])).Ok? &&
      Get(ScanFilter(env, t, true, conditions, preset).value.built, attr) ==
        Some(Condition(env, t.mappings, attr, Obj([Field("!=", DefaultValue(t, attr).value)])).value)
    ensures !(attr in t.key && Unconditioned(conditions.GetOr([]), attr)) && Has(conditions.GetOr([]), attr) ==>
      Condition(env, t.mappings, attr, Get(conditions.GetOr([]), attr).value).Ok? &&
      Get(ScanFilter(env, t, true, conditions, preset).value.built, attr) ==
        Some(Condition(env, t.mappings, attr, Get(conditions.GetOr([]), attr).value).value)
  {
    var conds := conditions.GetOr([]);
    ScanBuilt(env, t, conditions, preset);
    var hidden := HidePlaceholders(t, conds, t.key).value;
    var built := ConditionsOf(env, t.mappings, hidden).value;
    HidePlaceholdersGet(t, conds, t.key, attr);
    ConditionsPerAttribute(env, t.mappings, hidden, attr);
    if attr in t.key && Unconditioned(conds, attr) {
      var e := Obj([Field("!=", DefaultValue(t, attr).value)]);
      assert Get(hidden, attr) == Some(e);
      assert Get(built, attr) == Some(Condition(env, t.mappings, attr, e).value);
    }
    if !(attr in t.key && Unconditioned(conds, attr)) && Has(conds, attr) {
      assert Get(hidden, attr) == Get(conds, attr);
    }
  }
}

=== FILE: conditions.dfy ===
/** The condition builder (`conditions`, `condition`, `comparison`,
    index.js:588-641) and the scan filter that hides placeholder keys
    (index.js:297-305). */
module Conditions {
  import opened Wrappers
  import opened Objects
  import opened Values
  import opened Codec
  import opened Keys

  /** One store condition: an operator and, unless the operator takes none,
      its operands in wire form (an operand may encode to nothing). */
  datatype Cond = Cond(op: string, operands: Option<seq<Option<WireAttr>>>)

  predicate IsLower(c: char) {
    'a' <= c <= 'z'
  }

  /** `toUpperCase` on ASCII letters; other characters are kept. */
  function Upper(s: string): (r: string)
    ensures |r| == |s|
    ensures forall i :: 0 <= i < |s| ==> r[i] == if IsLower(s[i]) then (s[i] as int - 32) as char else s[i]
  {
    seq(|s|, i requires 0 <= i < |s| => if IsLower(s[i]) then (s[i] as int - 32) as char else s[i])
  }

  predicate NoLower(s: string) {
    forall i :: 0 <= i < |s| ==> !IsLower(s[i])
  }

  /** `comparison(c)`: operator spellings to store operators; anything else
      is upper-cased. */
  function Comparison(c: string): (r: string)
    ensures NoLower(r)
    ensures c == "=" || c == "==" ==> r == "EQ"
    ensures c == "!=" ==> r == "NE"
    ensures c == "<=" ==> r == "LE"
    ensures c == "<" ==> r == "LT"
    ensures c == ">" ==> r == "GT"
    ensures c == ">=" ==> r == "GE"
    ensures c == ">=<=" ==> r == "BETWEEN"
    ensures c == "beginsWith" || c == "startsWith" ==> r == "BEGINS_WITH"
    ensures c == "notContains" || c == "doesNotContain" ==> r == "NOT_CONTAINS"
    ensures !Spelling(c) ==> r == Upper(c)
  {
    if c == "=" || c == "==" then "EQ"
    else if c == "!=" then "NE"
    else if c == "<=" then "LE"
    else if c == "<" then "LT"
    else if c == ">" then "GT"
    else if c == ">=" then "GE"
    else if c == ">=<=" then "BETWEEN"
    else if c == "beginsWith" || c == "startsWith" then "BEGINS_WITH"
    else if c == "notContains" || c == "doesNotContain" then "NOT_CONTAINS"
    else Upper(c)
  }

  /** The spellings `comparison` translates itself. */
  predicate Spelling(c: string) {
    c in {"=", "==", "!=", "<=", "<", ">", ">=", ">=<=", "beginsWith", "startsWith", "notContains", "doesNotContain"}
  }

  /** Every operand encoded under the attribute's hint, in order. */
  function EncodeOperands(env: Env, mappings: Mappings, key: string, xs: seq<NativeValue>): (r: Res<seq<Option<WireAttr>>>)
    ensures r.Ok? <==> forall i :: 0 <= i < |xs| ==> Encode(env, mappings, xs[i], key, Undefined).Ok?
    ensures r.Ok? ==> |r.value| == |xs|
    ensures r.Ok? ==> forall i :: 0 <= i < |xs| ==> r.value[i] == Encode(env, mappings, xs[i], key, Undefined).value
  {
    MapAll(xs, x => Encode(env, mappings, x, key, Undefined))
  }

  /** The operator and raw operands a condition expression asks for; None
      where the source fails on `undefined.toUpperCase()` or on listing the
      keys of `undefined`. */
  function Shape(expr: NativeValue): Option<(string, Option<seq<NativeValue>>)> {
    match expr
    case Null => Some(("NULL", None))
    case Str(s) => if s == "notNull" || s == "NOT_NULL" then Some(("NOT_NULL", None)) else Some(("EQ", Some([expr])))
    case Num(_) => Some(("EQ", Some([expr])))
    case Float(_) => Some(("EQ", Some([expr])))
    case Buf(_) => Some(("EQ", Some([expr])))
    case Arr(xs) => Some(("IN", Some(xs)))
    case Obj(ps) =>
      if |ps| == 0 then None
      else
        var vals := ps[0].value;
        Some((Comparison(ps[0].name), Some(if vals.Arr? then vals.elems else [vals])))
    case _ => None
  }

  /** `condition(key, conditionExpr)`. */
  function Condition(env: Env, mappings: Mappings, key: string, expr: NativeValue): (r: Res<Cond>)
    ensures Shape(expr).None? ==> r.Err?
    ensures Shape(expr).Some? && Shape(expr).value.1.None? ==> r == Ok(Cond(Shape(expr).value.0, None))
    ensures Shape(expr).Some? && Shape(expr).value.1.Some? ==>
      (r.Ok? <==> forall i :: 0 <= i < |Shape(expr).value.1.value| ==>
                    Encode(env, mappings, Shape(expr).value.1.value[i], key, Undefined).Ok?)
    ensures r.Ok? ==> r.value.op == Shape(expr).value.0
    ensures r.Ok? && Shape(expr).value.1.Some? ==>
      var xs := Shape(expr).value.1.value;
      r.value.operands.Some? && |r.value.operands.value| == |xs| &&
      forall i :: 0 <= i < |xs| ==> r.value.operands.value[i] == Encode(env, mappings, xs[i], key, Undefined).value
  {
    match Shape(expr)
    case None => Err(TypeError("Cannot read property 'toUpperCase' of undefined"))
    case Some((op, vals)) =>
      if vals.None? then Ok(Cond(op, None))
      else
        var operands :- EncodeOperands(env, mappings, key, vals.value);
        Ok(Cond(op, Some(operands)))
  }

  function ConditionField(env: Env, mappings: Mappings, attr: string, expr: NativeValue): Res<Option<Cond>> {
    match Condition(env, mappings, attr, expr)
    case Err(e) => Err(e)
    case Ok(c) => Ok(Some(c))
  }

  /** `conditions(conditionExprObj)`: one condition per attribute. */
  function ConditionsOf(env: Env, mappings: Mappings, exprs: Props): (r: Res<Fields<Cond>>)
    ensures r.Ok? ==> DistinctNames(r.value)
  {
    MapFields(exprs, (k, e) => ConditionField(env, mappings, k, e))
  }

  /** `typeof conditions[attr] === 'undefined'`: the caller set no
      condition on the attribute, or set it to undefined. */
  predicate Unconditioned(conds: Props, attr: string) {
    Get(conds, attr).GetOr(Undefined) == Undefined
  }

  /** The NE-placeholder conditions `scan` adds for a table using generated
      ids: every key attribute the caller leaves unconditioned must differ
      from its placeholder. */
  function HidePlaceholders(t: Table, conds: Props, attrs: seq<string>): (r: Res<Props>)
    // the caller's defined conditions are all kept, and nothing but the listed attributes changes
    ensures r.Ok? ==> forall n :: !Unconditioned(conds, n) ==> Get(r.value, n) == Get(conds, n)
    ensures r.Ok? ==> forall n :: n !in attrs ==> Get(r.value, n) == Get(conds, n)
    ensures r.Ok? && DistinctNames(conds) ==> DistinctNames(r.value)
    decreases |attrs|
  {
    if |attrs| == 0 then Ok(conds)
    else
      var init := attrs[..|attrs| - 1];
      var prev :- HidePlaceholders(t, conds, init);
      var attr := attrs[|attrs| - 1];
      assert forall n :: n !in attrs ==> n !in init && n != attr by {
        assert attrs == init + [attr];
      }
      if !Unconditioned(prev, attr) then Ok(prev)
      else
        var d :- DefaultValue(t, attr);
        HideOne(conds, prev, attr, Obj([Field("!=", d)]));
        Ok(Assign(prev, attr, Obj([Field("!=", d)])))
  }

  /** Adding one placeholder condition where none was keeps the caller's
      conditions and every other name. */
  lemma HideOne(conds: Props, prev: Props, attr: string, f: NativeValue)
    requires forall n :: !Unconditioned(conds, n) ==> Get(prev, n) == Get(conds, n)
    requires Unconditioned(prev, attr)
    ensures Unconditioned(conds, attr)
    ensures forall n :: n != attr ==> Get(Assign(prev, attr, f), n) == Get(prev, n)
    ensures DistinctNames(prev) ==> DistinctNames(Assign(prev, attr, f))
  {
    AssignGet(prev, attr, f);
    if DistinctNames(prev) { AssignDistinct(prev, attr, f); }
  }

  /** The `ScanFilter` a scan sends (index.js:296-305), given the options'
      own `ScanFilter`. With generated ids the key placeholders are hidden
      first, and the conditions then always exist. With conditions, a truthy
      preset is sent and no condition is built; otherwise they are built.
      Without conditions, the options' own value stays. */
  function ScanFilter(env: Env, t: Table, useNextId: bool, conditions: Option<Props>, preset: NativeValue): (r: Res<Setting<Fields<Cond>>>)
    // only hiding the placeholders can fail before a truthy preset is chosen
    ensures Truthy(preset) && (useNextId ==> HidePlaceholders(t, conditions.GetOr([]), t.key).Ok?) ==> r == Ok(Given(preset))
    ensures useNextId && HidePlaceholders(t, conditions.GetOr([]), t.key).Err? ==> r.Err?
    ensures !useNextId && conditions.None? ==> r == Ok(Given(preset))
    ensures r.Ok? && r.value.Built? ==> !Truthy(preset) && (useNextId || conditions.Some?)
    ensures r.Ok? && r.value.Built? && !useNextId ==> ConditionsOf(env, t.mappings, conditions.value) == Ok(r.value.built)
    ensures r.Ok? && r.value.Built? && useNextId ==>
      ConditionsOf(env, t.mappings, HidePlaceholders(t, conditions.GetOr([]), t.key).value) == Ok(r.value.built)
  {
    var conds :-
      if useNextId then
        var c :- HidePlaceholders(t, conditions.GetOr([]), t.key);
        Ok(Some(c))
      else Ok(conditions);
    match conds
    case None => Ok(Given(preset))
    case Some(c) =>
      if Truthy(preset) then Ok(Given(preset))
      else
        var f :- ConditionsOf(env, t.mappings, c);
        Ok(Built(f))
  }
}

=== FILE: decimal.dfy ===
/** Decimal text of integers: the part of JavaScript's `String(n)` and unary
    `+text` that the codec relies on, restricted to integral numbers. */
module Decimal {
  import opened Wrappers

  predicate IsDigit(c: char) {
    '0' <= c <= '9'
  }

  predicate AllDigits(s: string) {
    forall i :: 0 <= i < |s| ==> IsDigit(s[i])
  }

  function DigitChar(d: nat): (c: char)
    requires d < 10
    ensures IsDigit(c)
  {
    ('0' as int + d) as char
  }

  function DigitValue(c: char): (d: nat)
    requires IsDigit(c)
    ensures d < 10
  {
    c as int - '0' as int
  }

  /** Shortest decimal text of a natural number (no leading zeros). */
  function NatToDecimal(n: nat): (s: string)
    ensures |s| > 0 && AllDigits(s)
    ensures s[0] == '0' ==> n == 0
    decreases n
  {
    if n < 10 then [DigitChar(n)] else NatToDecimal(n / 10) + [DigitChar(n % 10)]
  }

  /** Value of a run of decimal digits, most significant first. */
  function DigitsValue(s: string): nat
    requires AllDigits(s)
  {
    if |s| == 0 then 0 else DigitsValue(s[..|s| - 1]) * 10 + DigitValue(s[|s| - 1])
  }

  /** `String(n)` for an integral JavaScript number. */
  function IntToDecimal(n: int): string {
    if n < 0 then "-" + NatToDecimal(-n) else NatToDecimal(n)
  }

  /** `+s` for text that is an optional minus sign followed by at least one
      digit; any other text is not handled here (None). */
  function ParseInt(s: string): (r: Option<int>)
    ensures r.Some? ==> |s| > 0
  {
    if |s| > 0 && s[0] == '-' && |s| > 1 && AllDigits(s[1..]) then Some(-(DigitsValue(s[1..]) as int))
    else if |s| > 0 && AllDigits(s) then Some(DigitsValue(s))
    else None
  }

  lemma {:induction false} NatToDecimalValue(n: nat)
    ensures DigitsValue(NatToDecimal(n)) == n
    decreases n
  {
    if n >= 10 {
      var s := NatToDecimal(n);
      var p := NatToDecimal(n / 10);
      assert s == p + [DigitChar(n % 10)];
      assert s[..|s| - 1] == p;
      NatToDecimalValue(n / 10);
    }
  }

  /** Printing an integer and reading the text back gives the integer. */
  lemma IntDecimalRoundTrip(n: int)
    ensures ParseInt(IntToDecimal(n)) == Some(n)
  {
    var s := IntToDecimal(n);
    if n < 0 {
      assert s[0] == '-' && s[1..] == NatToDecimal(-n);
      NatToDecimalValue(-n);
      assert ParseInt(s) == Some(-(DigitsValue(s[1..]) as int));
    } else {
      assert IsDigit(s[0]);
      NatToDecimalValue(n);
      assert ParseInt(s) == Some(DigitsValue(s));
    }
  }
}

=== FILE: item_laws.dfy ===
/** What the item mapper promises: exactly the fields with a present,
    non-empty encoding reach the store, and records of hinted fields come
    back unchanged. */
module ItemLaws {
  import opened Wrappers
  import opened Decimal
  import opened Objects
  import opened Values
  import opened Codec
  import opened CodecLaws
  import opened Items

  /** Field k is stored with attribute a exactly when the record has field k
      and it encodes to the non-empty a. */
  lemma MapToDbKeepsExactly(env: Env, mappings: Mappings, ps: Props, k: string, a: WireAttr)
    requires DistinctNames(ps)
    requires MapToDb(env, mappings, Obj(ps)).Ok?
    ensures Get(MapToDb(env, mappings, Obj(ps)).value.value, k) == Some(a)
        <==> Has(ps, k) && Encode(env, mappings, Get(ps, k).value, k, Obj(ps)) == Ok(Some(a)) && !IsEmpty(Some(a))
  {
    MapFieldsGet(ps, (k', x) => EncodeField(env, mappings, Obj(ps), k', x), k);
  }

  /** Field k of the decoded record is x exactly when the item has attribute k
      and it decodes to x, x not being `undefined`. */
  lemma MapFromDbKeepsExactly(env: Env, mappings: Mappings, it: Item, k: string, x: NativeValue)
    requires DistinctNames(it)
    requires MapFromDb(env, mappings, Some(it)).Ok?
    ensures Get(MapFromDb(env, mappings, Some(it)).value.props, k) == Some(x)
        <==> Has(it, k) && Decode(env, mappings, Get(it, k).value, k, it) == Ok(x) && x != Undefined
  {
    MapFieldsGet(it, (k', a) => DecodeField(env, mappings, it, k', a), k);
  }

  /** The source's own example record: zero, '', null, [] and an empty buffer. */
  function ZeroAndEmpties(): Props {
    [Field("a", Num(0)), Field("b", Str("")), Field("c", Null), Field("d", Arr([])), Field("e", Buf([]))]
  }

  lemma ZeroAndEmptiesFields(env: Env)
    ensures EncodeField(env, map[], Obj(ZeroAndEmpties()), "a", Num(0)) == Ok(Some(AttrN("0")))
    ensures forall i :: 1 <= i < |ZeroAndEmpties()| ==>
      EncodeField(env, map[], Obj(ZeroAndEmpties()), ZeroAndEmpties()[i].name, ZeroAndEmpties()[i].value) == Ok(None)
  {
    assert DigitChar(0) == '0';
    assert IntToDecimal(0) == "0";
  }

  /** Zero is kept; '', null, [] and an empty buffer are dropped. */
  lemma ZeroKeptEmptiesDropped(env: Env)
    ensures MapToDb(env, map[], Obj(ZeroAndEmpties())) == Ok(Some([Field("a", AttrN("0"))]))
  {
    var ps := ZeroAndEmpties();
    var f := (k, x) => EncodeField(env, map[], Obj(ps), k, x);
    ZeroAndEmptiesFields(env);
    var first := ps[..1];
    var none: Item := [];
    assert first[..0] == [];
    assert !Has(none, "a");
    assert Assign(none, "a", AttrN("0")) == [Field("a", AttrN("0"))];
    assert MapFields(first, f) == Ok([Field("a", AttrN("0"))]);
    MapFieldsSkipsAbsent(first, ps[1..], f);
    assert first + ps[1..] == ps;
  }

  /** `_isEmpty` compares SS/NS/BS with the string '[]', so an empty list
      under a set hint is stored as an empty set rather than dropped. */
  lemma EmptyListUnderSetHintIsStored(env: Env, mappings: Mappings)
    requires HasTag(mappings, "tags", "SS")
    ensures MapToDb(env, mappings, Obj([Field("tags", Arr([]))])) == Ok(Some([Field("tags", AttrSS([]))]))
  {
    var ps := [Field("tags", Arr([]))];
    var f := (k, x) => EncodeField(env, mappings, Obj(ps), k, x);
    assert Encode(env, mappings, Arr([]), "tags", Obj(ps)) == Ok(Some(AttrSS([])));
    assert f("tags", Arr([])) == Ok(Some(AttrSS([])));
    assert ps[..0] == [];
    var none: Item := [];
    assert !Has(none, "tags");
    assert Assign(none, "tags", AttrSS([])) == [Field("tags", AttrSS([]))];
    assert MapFields(ps, f) == Ok([Field("tags", AttrSS([]))]);
  }

  /** A field that reaches the store and comes back unchanged. */
  ghost predicate FieldRoundTrips(env: Env, mappings: Mappings, p: Field<NativeValue>, owner: NativeValue) {
    var e := Encode(env, mappings, p.value, p.name, owner);
    && e.Ok? && e.value.Some? && !IsEmpty(e.value) && p.value != Undefined
    && forall whole: Item {:trigger Decode(env, mappings, e.value.value, p.name, whole)} ::
         Decode(env, mappings, e.value.value, p.name, whole) == Ok(p.value)
  }

  /** A record whose every field round-trips is stored and read back as the
      same record. */
  lemma {:induction false} RecordRoundTrip(env: Env, mappings: Mappings, ps: Props)
    requires DistinctNames(ps)
    requires forall i :: 0 <= i < |ps| ==> FieldRoundTrips(env, mappings, ps[i], Obj(ps))
    ensures MapToDb(env, mappings, Obj(ps)).Ok? && MapToDb(env, mappings, Obj(ps)).value.Some?
    ensures MapFromDb(env, mappings, MapToDb(env, mappings, Obj(ps)).value) == Ok(Obj(ps))
  {
    var f := (k, x) => EncodeField(env, mappings, Obj(ps), k, x);
    MapFieldsKeepsAll(ps, f);
    var it := MapFields(ps, f).value;
    assert DistinctNames(it);
    var g := (k, a) => DecodeField(env, mappings, it, k, a);
    forall i | 0 <= i < |it| ensures g(it[i].name, it[i].value) == Ok(Some(ps[i].value)) {
      assert it[i] == Field(ps[i].name, f(ps[i].name, ps[i].value).value.value);
      assert FieldRoundTrips(env, mappings, ps[i], Obj(ps));
    }
    MapFieldsKeepsAll(it, g);
    var back := MapFields(it, g).value;
    assert back == ps;
  }

  /** The values a tag stores non-empty and reads back. */
  ghost predicate StoredFor(env: Env, tag: string, v: NativeValue) {
    && ValidFor(env, tag, v)
    && v != Undefined
    && (tag == "B" ==> v.bytes != [])
    && (tag == "json" ==> env.jsonText(v) != "")
    && (tag == "isodate" ==> env.isoText(v.ms) != "")
  }

  lemma HintedFieldRoundTrips(env: Env, mappings: Mappings, p: Field<NativeValue>, tag: string, owner: NativeValue)
    requires Base64Faithful(env) && IsoFaithful(env)
    requires HasTag(mappings, p.name, tag) && StoredFor(env, tag, p.value)
    ensures FieldRoundTrips(env, mappings, p, owner)
  {
    var e := Encode(env, mappings, p.value, p.name, owner);
    HintedRoundTrip(env, mappings, p.name, tag, p.value, owner, []);
    if tag == "json" {
      assert e == Ok(Some(AttrS(env.jsonText(p.value))));
    } else {
      EncodeUnderTag(env, mappings, p.name, tag, p.value, owner);
      TaggedNotEmpty(env, tag, p.value);
    }
    assert !IsEmpty(e.value);
    forall whole: Item ensures Decode(env, mappings, e.value.value, p.name, whole) == Ok(p.value) {
      HintedRoundTrip(env, mappings, p.name, tag, p.value, owner, whole);
    }
  }

  /** What a tag other than json stores for a value it is meant for is not
      an empty text. */
  lemma TaggedNotEmpty(env: Env, tag: string, v: NativeValue)
    requires Base64Faithful(env)
    requires EncodeTag(tag) && tag != "json" && StoredFor(env, tag, v)
    ensures EncodeTagged(env, tag, v).Ok? ==> !IsEmpty(EncodeTagged(env, tag, v).value)
  {
  }

  /** A record whose fields are all declared with tags and hold values those
      tags store comes back from the store unchanged. */
  lemma HintedRecordRoundTrip(env: Env, mappings: Mappings, ps: Props, tags: seq<string>)
    requires Base64Faithful(env) && IsoFaithful(env)
    requires DistinctNames(ps) && |tags| == |ps|
    requires forall i :: 0 <= i < |ps| ==> HasTag(mappings, ps[i].name, tags[i]) && StoredFor(env, tags[i], ps[i].value)
    ensures MapToDb(env, mappings, Obj(ps)).Ok? && MapToDb(env, mappings, Obj(ps)).value.Some?
    ensures MapFromDb(env, mappings, MapToDb(env, mappings, Obj(ps)).value) == Ok(Obj(ps))
  {
    forall i | 0 <= i < |ps| ensures FieldRoundTrips(env, mappings, ps[i], Obj(ps)) {
      HintedFieldRoundTrips(env, mappings, ps[i], tags[i], Obj(ps));
    }
    RecordRoundTrip(env, mappings, ps);
  }
}

=== FILE: items.dfy ===
/** The item mapper (`mapToDb` / `mapFromDb`): a whole record to and from a
    whole stored item, field by field through the codec, with the default
    hooks (`preTo`, `postTo`, `preFrom`, `postFrom`). */
module Items {
  import opened Wrappers
  import opened Objects
  import opened Values
  import opened Codec

  /** One field on the way to the store: its encoding, or nothing when that
      is absent or empty (index.js:121-123). */
  function EncodeField(env: Env, mappings: Mappings, owner: NativeValue, k: string, v: NativeValue): Res<Option<WireAttr>> {
    match Encode(env, mappings, v, k, owner)
    case Err(e) => Err(e)
    case Ok(a) => if IsEmpty(a) then Ok(None) else Ok(a)
  }

  /** One field on the way back: its decoding, or nothing when that is
      `undefined` (index.js:135-137). */
  function DecodeField(env: Env, mappings: Mappings, whole: Item, k: string, a: WireAttr): Res<Option<NativeValue>> {
    match Decode(env, mappings, a, k, whole)
    case Err(e) => Err(e)
    case Ok(x) => if x == Undefined then Ok(None) else Ok(Some(x))
  }

  function EncodeFields(env: Env, mappings: Mappings, ps: Props, owner: NativeValue): Res<Item> {
    MapFields(ps, (k, v) => EncodeField(env, mappings, owner, k, v))
  }

  function DecodeFields(env: Env, mappings: Mappings, it: Item): Res<Props> {
    MapFields(it, (k, a) => DecodeField(env, mappings, it, k, a))
  }

  /** `mapToDb(jsObj)`: None is the source's `null` for a null or undefined
      record; otherwise every property with a present, non-empty encoding,
      and a thrown encoding aborts. */
  function MapToDb(env: Env, mappings: Mappings, v: NativeValue): (r: Res<Option<Item>>)
    ensures IsNullish(v) <==> r == Ok(None)
    ensures !IsNullish(v) ==>
      (r.Ok? <==> forall i :: 0 <= i < |OwnProps(v)| ==> Encode(env, mappings, OwnProps(v)[i].value, OwnProps(v)[i].name, v).Ok?)
    ensures r.Ok? && r.value.Some? ==> DistinctNames(r.value.value)
    ensures r.Ok? && r.value.Some? ==> forall i :: 0 <= i < |r.value.value| ==> !IsEmpty(Some(r.value.value[i].value))
  {
    if IsNullish(v) then Ok(None)
    else
      var f := (k, x) => EncodeField(env, mappings, v, k, x);
      MapFieldsOk(OwnProps(v), f);
      match MapFields(OwnProps(v), f)
      case Err(e) => Err(e)
      case Ok(item) =>
        MapFieldsValues(OwnProps(v), f, (a: WireAttr) => !IsEmpty(Some(a)));
        Ok(Some(item))
  }

  /** `mapFromDb(dbItem)`: `null` for a missing item, otherwise the record of
      every attribute whose decoding is not `undefined`; a thrown decoding
      aborts. */
  function MapFromDb(env: Env, mappings: Mappings, item: Option<Item>): (r: Res<NativeValue>)
    ensures item.None? <==> r == Ok(Null)
    ensures item.Some? ==>
      (r.Ok? <==> forall i :: 0 <= i < |item.value| ==> Decode(env, mappings, item.value[i].value, item.value[i].name, item.value).Ok?)
    ensures r.Ok? && item.Some? ==> r.value.Obj? && DistinctNames(r.value.props)
    ensures r.Ok? && item.Some? ==> forall i :: 0 <= i < |r.value.props| ==> r.value.props[i].value != Undefined
  {
    if item.None? then Ok(Null)
    else
      var it := item.value;
      var f := (k, a) => DecodeField(env, mappings, it, k, a);
      MapFieldsOk(it, f);
      match MapFields(it, f)
      case Err(e) => Err(e)
      case Ok(ps) =>
        MapFieldsValues(it, f, (x: NativeValue) => x != Undefined);
        Ok(Obj(ps))
  }

  /** `items.map(mapFromDb)` over stored items; the first failing item
      aborts. */
  function DecodeItems(env: Env, mappings: Mappings, items: seq<Item>): (r: Res<seq<NativeValue>>)
    ensures r.Ok? <==> forall i :: 0 <= i < |items| ==> MapFromDb(env, mappings, Some(items[i])).Ok?
    ensures r.Ok? ==> |r.value| == |items|
    ensures r.Ok? ==> forall i :: 0 <= i < |items| ==> r.value[i] == MapFromDb(env, mappings, Some(items[i])).value
  {
    MapAll(items, item => MapFromDb(env, mappings, Some(item)))
  }
}

=== FILE: key_laws.dfy ===
/** What key resolution and key typing promise. */
module KeyLaws {
  import opened Wrappers
  import opened Objects
  import opened Values
  import opened Codec
  import opened Keys

  /** Scalars, text and buffers are a key with one field: the first key
      attribute, encoded under its hint. */
  lemma ScalarKeyIsOneField(env: Env, t: Table, v: NativeValue)
    requires v.Undefined? || v.Bool? || v.Num? || v.Float? || v.Str? || v.Buf?
    ensures Encode(env, t.mappings, v, t.key[0], Undefined).Err? ==>
      ResolveKey(env, t, [v]) == Err(Encode(env, t.mappings, v, t.key[0], Undefined).error)
    ensures Encode(env, t.mappings, v, t.key[0], Undefined).Ok? ==>
      ResolveKey(env, t, [v]) == Ok([Field(t.key[0], Encode(env, t.mappings, v, t.key[0], Undefined).value)])
  {
    var fs := Positional(t.key, [v]);
    assert ResolveKey(env, t, [v]) == EncodeKeyFields(env, t.mappings, fs);
    assert fs == [Field(t.key[0], v)];
    var f := (k, x) => KeyField(env, t.mappings, k, x);
    assert fs[..0] == [];
    assert MapFields(fs[..0], f) == Ok([]);
    var none: Key := [];
    assert !Has(none, t.key[0]);
    var e := Encode(env, t.mappings, v, t.key[0], Undefined);
    assert f(t.key[0], v) == if e.Err? then Err(e.error) else Ok(Some(e.value));
    if e.Ok? {
      assert Assign(none, t.key[0], e.value) == [Field(t.key[0], e.value)];
    }
  }

  /** Several arguments are the same key as one list holding them. */
  lemma SpreadIsList(env: Env, t: Table, args: seq<NativeValue>)
    requires |args| > 1
    ensures ResolveKey(env, t, args) == ResolveKey(env, t, [Arr(args)])
  {
  }

  lemma PositionalNamesDistinct(key: KeyNames, xs: seq<NativeValue>)
    requires |xs| <= |key|
    requires forall i, j :: 0 <= i < j < |xs| ==> key[i] != key[j]
    ensures DistinctNames(Positional(key, xs))
    ensures forall i :: 0 <= i < |xs| ==> Positional(key, xs)[i] == Field(key[i], xs[i])
  {
  }

  /** Positional values are zipped with the key attributes: position i is the
      field key[i], encoded under key[i]'s hint. */
  lemma PositionalKeyZips(env: Env, t: Table, xs: seq<NativeValue>)
    requires |xs| <= |t.key|
    requires forall i, j :: 0 <= i < j < |xs| ==> t.key[i] != t.key[j]
    ensures ResolveKey(env, t, [Arr(xs)]).Ok? <==>
      forall i :: 0 <= i < |xs| ==> Encode(env, t.mappings, xs[i], t.key[i], Undefined).Ok?
    ensures ResolveKey(env, t, [Arr(xs)]).Ok? ==>
      |ResolveKey(env, t, [Arr(xs)]).value| == |xs| &&
      forall i :: 0 <= i < |xs| ==>
        ResolveKey(env, t, [Arr(xs)]).value[i] == Field(t.key[i], Encode(env, t.mappings, xs[i], t.key[i], Undefined).value)
  {
    var fs := Positional(t.key, xs);
    var f := (k, v) => KeyField(env, t.mappings, k, v);
    assert ResolveKey(env, t, [Arr(xs)]) == MapFields(fs, f);
    PositionalNamesDistinct(t.key, xs);
    forall i | 0 <= i < |xs|
      ensures f(fs[i].name, fs[i].value).Ok? <==> Encode(env, t.mappings, xs[i], t.key[i], Undefined).Ok?
      ensures f(fs[i].name, fs[i].value).Ok? ==> f(fs[i].name, fs[i].value).value == Some(Encode(env, t.mappings, xs[i], t.key[i], Undefined).value)
    {
    }
    MapFieldsOk(fs, f);
    if MapFields(fs, f).Ok? {
      MapFieldsKeepsAll(fs, f);
    }
  }

  /** A named key is encoded field by field, each under its own name. */
  lemma NamedKeyByField(env: Env, t: Table, ps: Props)
    requires DistinctNames(ps)
    ensures ResolveKey(env, t, [Obj(ps)]).Ok? <==>
      forall i :: 0 <= i < |ps| ==> Encode(env, t.mappings, ps[i].value, ps[i].name, Undefined).Ok?
    ensures ResolveKey(env, t, [Obj(ps)]).Ok? ==>
      |ResolveKey(env, t, [Obj(ps)]).value| == |ps| &&
      forall i :: 0 <= i < |ps| ==>
        ResolveKey(env, t, [Obj(ps)]).value[i] == Field(ps[i].name, Encode(env, t.mappings, ps[i].value, ps[i].name, Undefined).value)
  {
    var f := (k, v) => KeyField(env, t.mappings, k, v);
    assert ResolveKey(env, t, [Obj(ps)]) == MapFields(ps, f);
    forall i | 0 <= i < |ps|
      ensures f(ps[i].name, ps[i].value).Ok? <==> Encode(env, t.mappings, ps[i].value, ps[i].name, Undefined).Ok?
      ensures f(ps[i].name, ps[i].value).Ok? ==> f(ps[i].name, ps[i].value).value == Some(Encode(env, t.mappings, ps[i].value, ps[i].name, Undefined).value)
    {
    }
    MapFieldsOk(ps, f);
    if MapFields(ps, f).Ok? {
      MapFieldsKeepsAll(ps, f);
    }
  }

  /** The placeholder key value is stored with the attribute's key type, as
      long as no separate key type overrides a hint and the hint is not
      isodate. */
  lemma DefaultValueHasKeyType(env: Env, t: Table, attr: string, owner: NativeValue)
    requires GetKeyType(t, attr).Ok?
    requires !(attr in t.keyTypes && t.keyTypes[attr] != "") || HintFor(t.mappings, attr).None?
    requires DeclaredType(t, attr) != Some("isodate")
    ensures Encode(env, t.mappings, DefaultValue(t, attr).value, attr, owner).Ok?
    ensures Encode(env, t.mappings, DefaultValue(t, attr).value, attr, owner).value.Some?
    ensures FirstTag(Encode(env, t.mappings, DefaultValue(t, attr).value, attr, owner).value.value) == GetKeyType(t, attr).value
  {
  }

  /** An isodate key gets the text placeholder '0', which the isodate rule
      cannot encode: it is not a date. */
  lemma IsodateDefaultCannotBeEncoded(env: Env, t: Table, attr: string, owner: NativeValue)
    requires HasTag(t.mappings, attr, "isodate") && attr !in t.keyTypes
    ensures DefaultValue(t, attr) == Ok(Str("0"))
    ensures Encode(env, t.mappings, Str("0"), attr, owner).Err?
  {
  }

  /** `_getKeyType` refuses exactly the declared types outside S, N, B, json,
      isodate, bignum and timestamp, and mapping objects. */
  lemma UnsupportedKeyTypes(t: Table, attr: string)
    ensures GetKeyType(t, attr).Err? <==>
      DeclaredType(t, attr).None? || !KeyTypeName(DeclaredType(t, attr).value)
  {
  }

  /** Filling in the defaults twice is filling them in once. */
  lemma DefaultOptionsIdempotent(t: Table, options: NativeValue)
    requires DefaultOptions(t, options).Ok?
    ensures DefaultOptions(t, Obj(DefaultOptions(t, options).value)) == DefaultOptions(t, options)
  {
  }
}

=== FILE: keys.dfy ===
/** A table's identity and key: construction defaults (index.js:15-34), key
    resolution (`resolveKey`), key types (`_getKeyType`), the placeholder key
    value (`_defaultValue`) and request-option defaults (`_getDefaultOptions`). */
module Keys {
  import opened Wrappers
  import opened Objects
  import opened Values
  import opened Codec

  /** The `key` option: not given (or falsy), one attribute name, or a list. */
  datatype KeyOption = NoKey | OneKey(name: string) | KeyList(names: seq<string>)

  /** The constructor options this model keeps; `mappings` in declaration
      order, since the default key is read off that order. */
  datatype TableOptions = TableOptions(key: KeyOption, mappings: Fields<Hint>, keyTypes: map<string, string>)

  /** A table's key attribute names: never empty once constructed. */
  type KeyNames = k: seq<string> | |k| > 0 witness ["id"]

  /** A table's name: the constructor refuses a falsy one. */
  type TableName = s: string | s != "" witness "table"

  datatype Table = Table(name: TableName, key: KeyNames, mappings: Mappings, keyTypes: map<string, string>)

  /** The mapping object as a lookup table: the first declaration of a name. */
  function MappingsOf(fs: Fields<Hint>): (m: Mappings)
    ensures forall k :: k in m <==> Has(fs, k)
    ensures forall k :: k in m ==> Some(m[k]) == Get(fs, k)
  {
    map k | k in Names(fs) :: Get(fs, k).value
  }

  /** The key a table is built with: the given list, a single given name, or
      else the first two mapped names; an empty result falls back to `id`. */
  function KeyOf(opts: TableOptions): (k: KeyNames)
    ensures opts.key.KeyList? && |opts.key.names| > 0 ==> k == opts.key.names
    ensures opts.key.OneKey? && opts.key.name != "" ==> k == [opts.key.name]
    ensures opts.key.KeyList? && |opts.key.names| == 0 ==> k == ["id"]
    ensures (opts.key.NoKey? || opts.key == OneKey("")) && |opts.mappings| > 0 ==>
      k == Names(opts.mappings)[..if |opts.mappings| < 2 then |opts.mappings| else 2]
    ensures (opts.key.NoKey? || opts.key == OneKey("")) && |opts.mappings| == 0 ==> k == ["id"]
  {
    var given: seq<string> :=
      match opts.key
      case KeyList(ns) => ns
      case OneKey(n) => if n != "" then [n] else Names(opts.mappings)[..if |opts.mappings| < 2 then |opts.mappings| else 2]
      case NoKey => Names(opts.mappings)[..if |opts.mappings| < 2 then |opts.mappings| else 2];
    if |given| == 0 then ["id"] else given
  }

  /** `new DynamoTable(name, options)`: a table needs a non-empty name. */
  function NewTable(name: string, opts: TableOptions): (r: Res<Table>)
    ensures r.Err? <==> name == ""
    ensures r.Ok? ==> r.value.name == name && r.value.key == KeyOf(opts) && r.value.keyTypes == opts.keyTypes
    ensures r.Ok? ==> forall k :: k in r.value.mappings <==> Has(opts.mappings, k)
  {
    if name == "" then Err(TypeError("Table must have a name"))
    else Ok(Table(name, KeyOf(opts), MappingsOf(opts.mappings), opts.keyTypes))
  }

  /** `self.key[ix]`: past the end of the key list the name is `undefined`. */
  function KeyNameAt(key: KeyNames, i: nat): string {
    if i < |key| then key[i] else "undefined"
  }

  /** Positional key values paired with the table's key names. */
  function Positional(key: KeyNames, xs: seq<NativeValue>): (fs: Props)
    ensures |fs| == |xs|
    ensures forall i :: 0 <= i < |xs| ==> fs[i] == Field(KeyNameAt(key, i), xs[i])
  {
    seq(|xs|, i requires 0 <= i < |xs| => Field(KeyNameAt(key, i), xs[i]))
  }

  /** One key field, encoded under its own name's hint with no owning record;
      an absent encoding is kept as an `undefined` property. */
  function KeyField(env: Env, mappings: Mappings, name: string, v: NativeValue): Res<Option<Option<WireAttr>>> {
    match Encode(env, mappings, v, name, Undefined)
    case Err(e) => Err(e)
    case Ok(a) => Ok(Some(a))
  }

  function EncodeKeyFields(env: Env, mappings: Mappings, fs: Props): Res<Key> {
    MapFields(fs, (k, v) => KeyField(env, mappings, k, v))
  }

  /** `resolveKey(...args)`: several arguments are a positional key; a list
      is positional too; a scalar, text or buffer is a one-element positional
      key; `null` has no keys to list; any other object is a named key. */
  function ResolveKey(env: Env, t: Table, args: seq<NativeValue>): (r: Res<Key>)
    ensures |args| == 1 && args[0].Null? ==> r.Err?
    ensures r.Ok? ==> DistinctNames(r.value)
  {
    if |args| > 1 then EncodeKeyFields(env, t.mappings, Positional(t.key, args))
    else
      var key := if |args| == 1 then args[0] else Undefined;
      match key
      case Null => Err(TypeError("Cannot convert undefined or null to object"))
      case Arr(xs) => EncodeKeyFields(env, t.mappings, Positional(t.key, xs))
      case Obj(ps) => EncodeKeyFields(env, t.mappings, ps)
      case Date(_) => EncodeKeyFields(env, t.mappings, OwnProps(key))
      case _ => EncodeKeyFields(env, t.mappings, Positional(t.key, [key]))
  }

  /** The declared type of a key attribute: `keyTypes[attr]`, else the
      mapping, else 'S'. None is a mapping object, which names no type. */
  function DeclaredType(t: Table, attr: string): Option<string> {
    if attr in t.keyTypes && t.keyTypes[attr] != "" then Some(t.keyTypes[attr])
    else match HintFor(t.mappings, attr)
      case Some(Tag(n)) => Some(n)
      case Some(Custom(_, _)) => None
      case None => Some("S")
  }

  /** The declared types `_getKeyType` accepts. */
  predicate KeyTypeName(d: string) {
    d in {"S", "N", "B", "json", "isodate", "bignum", "timestamp"}
  }

  /** `_getKeyType(attr)`: the store type of a key attribute. */
  function GetKeyType(t: Table, attr: string): (r: Res<string>)
    ensures r.Ok? <==> DeclaredType(t, attr).Some? && KeyTypeName(DeclaredType(t, attr).value)
    ensures r.Err? ==> r.error == UnsupportedKeyType(attr)
    ensures r.Ok? ==> r.value in {"S", "N", "B"}
    ensures r.Ok? && DeclaredType(t, attr).value in {"S", "N", "B"} ==> r.value == DeclaredType(t, attr).value
  {
    match DeclaredType(t, attr)
    case None => Err(UnsupportedKeyType(attr))
    case Some(d) =>
      if d == "N" || d == "S" || d == "B" then Ok(d)
      else if d == "json" || d == "isodate" then Ok("S")
      else if d == "bignum" || d == "timestamp" then Ok("N")
      else Err(UnsupportedKeyType(attr))
  }

  /** The bytes of base64 '0000'. */
  const ZeroBytes: seq<byte> := [0xD3, 0x4D, 0x34]

  /** `_defaultValue(attr)`: a placeholder of the attribute's key type. */
  function DefaultValue(t: Table, attr: string): (r: Res<NativeValue>)
    ensures r.Ok? <==> GetKeyType(t, attr).Ok?
    ensures r.Ok? && GetKeyType(t, attr).value == "S" ==> r.value == Str("0")
    ensures r.Ok? && GetKeyType(t, attr).value == "N" ==> r.value == Num(0)
    ensures r.Ok? && GetKeyType(t, attr).value == "B" ==> r.value == Buf(ZeroBytes)
  {
    var k :- GetKeyType(t, attr);
    if k == "S" then Ok(Str("0"))
    else if k == "N" then Ok(Num(0))
    else Ok(Buf(ZeroBytes))
  }

  /** `_getDefaultOptions(options)`: nothing becomes an empty object, a list
      or a single text names the attributes to get, and the table name is
      filled in unless a truthy one is given. Options of any other kind are
      rejected here. */
  function DefaultOptions(t: Table, options: NativeValue): (r: Res<Props>)
    ensures r.Ok? <==> IsNullish(options) || options.Arr? || options.Str? || options.Obj?
    ensures r.Ok? ==> Get(r.value, "TableName").Some? && Truthy(Get(r.value, "TableName").value)
    // a truthy table name is kept, and then nothing changes
    ensures r.Ok? && Truthy(Get(Base(options), "TableName").GetOr(Undefined)) ==> r.value == Base(options)
    ensures r.Ok? && !Truthy(Get(Base(options), "TableName").GetOr(Undefined)) ==>
      Get(r.value, "TableName") == Some(Str(t.name))
    ensures r.Ok? ==> forall n :: n != "TableName" ==> Get(r.value, n) == Get(Base(options), n)
  {
    if !(IsNullish(options) || options.Arr? || options.Str? || options.Obj?) then
      Err(TypeError("options must be an object, a list or a text"))
    else
      var o := Base(options);
      AssignGet(o, "TableName", Str(t.name));
      match Get(o, "TableName")
      case Some(v) => if Truthy(v) then Ok(o) else Ok(Assign(o, "TableName", Str(t.name)))
      case None => Ok(Assign(o, "TableName", Str(t.name)))
  }

  /** The options object before the table name is filled in. */
  function Base(options: NativeValue): (o: Props)
    ensures options.Obj? ==> o == options.props
    ensures options.Arr? ==> o == [Field("AttributesToGet", options)]
    ensures options.Str? ==> o == [Field("AttributesToGet", Arr([options]))]
  {
    match options
    case Arr(_) => [Field("AttributesToGet", options)]
    case Str(s) => [Field("AttributesToGet", Arr([options]))]
    case Obj(ps) => ps
    case _ => []
  }
}

=== FILE: objects.dfy ===
/** JavaScript objects as the source uses them: an ordered list of named
    properties (the order `Object.keys` reports), where assignment replaces a
    property in place or appends a new one at the end. */
module Objects {
  import opened Wrappers

  datatype Field<+V> = Field(name: string, value: V)

  type Fields<V> = seq<Field<V>>

  function Names<V>(fs: Fields<V>): (ns: seq<string>)
    ensures |ns| == |fs|
    ensures forall i :: 0 <= i < |fs| ==> ns[i] == fs[i].name
  {
    seq(|fs|, i requires 0 <= i < |fs| => fs[i].name)
  }

  /** Property names are pairwise distinct, as in every JavaScript object. */
  predicate DistinctNames<V>(fs: Fields<V>) {
    forall i, j :: 0 <= i < j < |fs| ==> fs[i].name != fs[j].name
  }

  predicate Has<V>(fs: Fields<V>, name: string) {
    exists i :: 0 <= i < |fs| && fs[i].name == name
  }

  /** Position of the first property called `name`. */
  function IndexOf<V>(fs: Fields<V>, name: string): (i: nat)
    requires Has(fs, name)
    ensures i < |fs| && fs[i].name == name
    ensures forall j :: 0 <= j < i ==> fs[j].name != name
  {
    if fs[0].name == name then 0
    else
      assert Has(fs[1..], name) by {
        var k :| 0 <= k < |fs| && fs[k].name == name;
        assert fs[1..][k - 1].name == name;
      }
      1 + IndexOf(fs[1..], name)
  }

  /** Property read `obj[name]`; None stands for `undefined`. */
  function Get<V>(fs: Fields<V>, name: string): (r: Option<V>)
    ensures r.Some? <==> Has(fs, name)
  {
    if Has(fs, name) then Some(fs[IndexOf(fs, name)].value) else None
  }

  /** A name is listed exactly when a property carries it. */
  lemma NamesHas<V>(fs: Fields<V>, n: string)
    ensures n in Names(fs) <==> Has(fs, n)
  {
    if n in Names(fs) {
      var j :| 0 <= j < |fs| && Names(fs)[j] == n;
      assert fs[j].name == n;
    }
    if Has(fs, n) {
      var j :| 0 <= j < |fs| && fs[j].name == n;
      assert Names(fs)[j] == n;
    }
  }

  /** Reading a one-property object. */
  lemma GetOne<V>(name: string, v: V, n: string)
    ensures Get([Field(name, v)], n) == if n == name then Some(v) else None
  {
    if n == name {
      assert [Field(name, v)][0].name == n;
    }
  }

  lemma GetAt<V>(fs: Fields<V>, i: nat)
    requires DistinctNames(fs) && i < |fs|
    ensures Get(fs, fs[i].name) == Some(fs[i].value)
  {
    var k := IndexOf(fs, fs[i].name);
  }

  /** In an object the last property's name occurs nowhere before it. */
  lemma LastNameFresh<V>(fs: Fields<V>)
    requires |fs| > 0 && DistinctNames(fs)
    ensures !Has(fs[..|fs| - 1], fs[|fs| - 1].name)
    ensures DistinctNames(fs[..|fs| - 1])
  {
    var init := fs[..|fs| - 1];
    forall j | 0 <= j < |init| ensures init[j].name != fs[|fs| - 1].name {
      assert init[j] == fs[j];
    }
  }

  /** Reading a property of a list extended at the end: the earlier
      properties shadow the new one. */
  lemma GetSnoc<V>(fs: Fields<V>, f: Field<V>, name: string)
    ensures Get(fs + [f], name) ==
      if Has(fs, name) then Get(fs, name) else if f.name == name then Some(f.value) else None
  {
    var r := fs + [f];
    if Has(fs, name) {
      var k := IndexOf(fs, name);
      assert r[k].name == name;
      var a := IndexOf(r, name);
      assert fs[a].name == name || a == |fs|;
    } else if f.name == name {
      assert r[|fs|].name == name;
      assert IndexOf(r, name) == |fs|;
    }
  }

  /** Property assignment `obj[name] = v`: an existing property is replaced
      where it stands, a new one is appended. Its laws follow. */
  function Assign<V>(fs: Fields<V>, name: string, v: V): Fields<V> {
    if Has(fs, name) then fs[IndexOf(fs, name) := Field(name, v)] else fs + [Field(name, v)]
  }

  /** Replacing a property in place keeps every name where it was. */
  lemma ReplaceKeepsNames<V>(fs: Fields<V>, k: nat, v: V)
    requires k < |fs|
    ensures var r := fs[k := Field(fs[k].name, v)];
      |r| == |fs| && Names(r) == Names(fs) &&
      (forall n :: Has(r, n) == Has(fs, n)) &&
      (forall n :: Has(r, n) ==> IndexOf(r, n) == IndexOf(fs, n))
  {
    var r := fs[k := Field(fs[k].name, v)];
    assert Names(r) == Names(fs);
    forall n ensures Has(r, n) == Has(fs, n) {
      if Has(r, n) { var j :| 0 <= j < |r| && r[j].name == n; assert fs[j].name == n; }
      if Has(fs, n) { var j :| 0 <= j < |fs| && fs[j].name == n; assert r[j].name == n; }
    }
    forall n | Has(r, n) ensures IndexOf(r, n) == IndexOf(fs, n) {
      var a, b := IndexOf(r, n), IndexOf(fs, n);
      assert r[b].name == n;
      assert fs[a].name == n;
    }
  }

  /** Appending a property leaves every other name's first position alone. */
  lemma AppendKeepsOthers<V>(fs: Fields<V>, f: Field<V>)
    requires !Has(fs, f.name)
    ensures var r := fs + [f];
      Has(r, f.name) && IndexOf(r, f.name) == |fs| &&
      (forall n :: n != f.name ==> Has(r, n) == Has(fs, n)) &&
      (forall n :: n != f.name && Has(r, n) ==> IndexOf(r, n) == IndexOf(fs, n))
  {
    var r := fs + [f];
    forall n | n != f.name ensures Has(r, n) == Has(fs, n) {
      if Has(r, n) { var j :| 0 <= j < |r| && r[j].name == n; assert fs[j].name == n; }
      if Has(fs, n) { var j :| 0 <= j < |fs| && fs[j].name == n; assert r[j].name == n; }
    }
    forall n | n != f.name && Has(r, n) ensures IndexOf(r, n) == IndexOf(fs, n) {
      var a, b := IndexOf(r, n), IndexOf(fs, n);
      assert r[b].name == n;
    }
    assert r[|fs|].name == f.name;
  }

  /** After `obj[name] = v`, reading `name` gives `v` and every other
      property reads as before. */
  lemma AssignGet<V>(fs: Fields<V>, name: string, v: V)
    ensures Get(Assign(fs, name, v), name) == Some(v)
    ensures forall n :: n != name ==> Get(Assign(fs, name, v), n) == Get(fs, n)
  {
    if Has(fs, name) {
      var k := IndexOf(fs, name);
      ReplaceKeepsNames(fs, k, v);
    } else {
      AppendKeepsOthers(fs, Field(name, v));
    }
  }

  /** Assignment keeps the names of an object distinct. */
  lemma AssignDistinct<V>(fs: Fields<V>, name: string, v: V)
    requires DistinctNames(fs)
    ensures DistinctNames(Assign(fs, name, v))
  {
    if Has(fs, name) {
      ReplaceKeepsNames(fs, IndexOf(fs, name), v);
      var r := Assign(fs, name, v);
      forall i, j | 0 <= i < j < |r| ensures r[i].name != r[j].name {
        assert r[i].name == Names(r)[i] == Names(fs)[i];
        assert r[j].name == Names(r)[j] == Names(fs)[j];
      }
    } else {
      var r := Assign(fs, name, v);
      assert r == fs + [Field(name, v)];
      forall i, j | 0 <= i < j < |r| ensures r[i].name != r[j].name {
        if j == |fs| {
          assert r[i] == fs[i];
        }
      }
    }
  }

  /** Assigning an existing property replaces it where it stands: the names
      and their order are unchanged. */
  lemma AssignInPlace<V>(fs: Fields<V>, name: string, v: V)
    requires Has(fs, name)
    ensures Assign(fs, name, v) == fs[IndexOf(fs, name) := Field(name, v)]
    ensures |Assign(fs, name, v)| == |fs| && Names(Assign(fs, name, v)) == Names(fs)
  {
    ReplaceKeepsNames(fs, IndexOf(fs, name), v);
  }

  /** Building an object by assigning, in property order, every property
      whose transformed value is present; the first failure aborts. */
  function MapFields<A, B, E>(fs: Fields<A>, f: (string, A) -> Result<Option<B>, E>): (r: Result<Fields<B>, E>)
    ensures r.Ok? ==> DistinctNames(r.value)
    decreases |fs|
  {
    if |fs| == 0 then Ok([])
    else
      var last := fs[|fs| - 1];
      match MapFields(fs[..|fs| - 1], f)
      case Err(e) => Err(e)
      case Ok(prev) =>
        match f(last.name, last.value)
        case Err(e) => Err(e)
        case Ok(None) => Ok(prev)
        case Ok(Some(b)) =>
          AssignDistinct(prev, last.name, b);
          Ok(Assign(prev, last.name, b))
  }

  lemma {:induction false} MapFieldsOk<A, B, E>(fs: Fields<A>, f: (string, A) -> Result<Option<B>, E>)
    ensures MapFields(fs, f).Ok? <==> forall i :: 0 <= i < |fs| ==> f(fs[i].name, fs[i].value).Ok?
    decreases |fs|
  {
    if |fs| > 0 {
      var init := fs[..|fs| - 1];
      MapFieldsOk(init, f);
      assert forall i :: 0 <= i < |init| ==> init[i] == fs[i];
    }
  }

  /** Trailing fields that map to nothing leave the result as it was. */
  lemma {:induction false} MapFieldsSkipsAbsent<A, B, E>(xs: Fields<A>, ys: Fields<A>, f: (string, A) -> Result<Option<B>, E>)
    requires forall i :: 0 <= i < |ys| ==> f(ys[i].name, ys[i].value) == Ok(None)
    ensures MapFields(xs + ys, f) == MapFields(xs, f)
    decreases |ys|
  {
    if |ys| > 0 {
      var init := ys[..|ys| - 1];
      assert forall i :: 0 <= i < |init| ==> init[i] == ys[i];
      MapFieldsSkipsAbsent(xs, init, f);
      var zs := xs + ys;
      assert zs[..|zs| - 1] == xs + init;
      assert zs[|zs| - 1] == ys[|ys| - 1];
      assert f(zs[|zs| - 1].name, zs[|zs| - 1].value) == Ok(None);
    } else {
      assert xs + ys == xs;
    }
  }

  lemma {:induction false} MapFieldsGet<A, B, E>(fs: Fields<A>, f: (string, A) -> Result<Option<B>, E>, k: string)
    requires DistinctNames(fs)
    requires MapFields(fs, f).Ok?
    ensures Has(fs, k) ==> f(k, Get(fs, k).value).Ok?
    ensures Get(MapFields(fs, f).value, k) == (if Has(fs, k) then f(k, Get(fs, k).value).value else None)
    decreases |fs|
  {
    if |fs| > 0 {
      var init := fs[..|fs| - 1];
      var last := fs[|fs| - 1];
      assert DistinctNames(init);
      MapFieldsGet(init, f, k);
      var fb := f(last.name, last.value);
      if fb.Ok? && fb.value.Some? {
        AssignGet(MapFields(init, f).value, last.name, fb.value.value);
      }
      if k == last.name {
        assert !Has(init, k);
        GetAt(fs, |fs| - 1);
      } else {
        assert Has(fs, k) <==> Has(init, k) by {
          if Has(fs, k) { var j :| 0 <= j < |fs| && fs[j].name == k; assert init[j].name == k; }
        }
        if Has(fs, k) {
          var j := IndexOf(init, k);
          GetAt(init, j);
          GetAt(fs, j);
        }
      }
    }
  }

  /** Every property of the result carries a value the transform produced. */
  lemma {:induction false} MapFieldsValues<A, B, E>(fs: Fields<A>, f: (string, A) -> Result<Option<B>, E>, P: B -> bool)
    requires forall i :: 0 <= i < |fs| ==> f(fs[i].name, fs[i].value).Ok? && f(fs[i].name, fs[i].value).value.Some? ==> P(f(fs[i].name, fs[i].value).value.value)
    requires MapFields(fs, f).Ok?
    ensures forall i :: 0 <= i < |MapFields(fs, f).value| ==> P(MapFields(fs, f).value[i].value)
    decreases |fs|
  {
    if |fs| > 0 {
      var init := fs[..|fs| - 1];
      assert forall i :: 0 <= i < |init| ==> init[i] == fs[i];
      MapFieldsValues(init, f, P);
    }
  }

  /** When the transform keeps every property, the result lists the same
      names in the same order. */
  lemma {:induction false} MapFieldsKeepsAll<A, B, E>(fs: Fields<A>, f: (string, A) -> Result<Option<B>, E>)
    requires DistinctNames(fs)
    requires forall i :: 0 <= i < |fs| ==> f(fs[i].name, fs[i].value).Ok? && f(fs[i].name, fs[i].value).value.Some?
    ensures MapFields(fs, f).Ok?
    ensures |MapFields(fs, f).value| == |fs|
    ensures forall i :: 0 <= i < |fs| ==>
      MapFields(fs, f).value[i] == Field(fs[i].name, f(fs[i].name, fs[i].value).value.value)
    decreases |fs|
  {
    if |fs| > 0 {
      var init := fs[..|fs| - 1];
      var last := fs[|fs| - 1];
      assert forall i :: 0 <= i < |init| ==> init[i] == fs[i];
      assert DistinctNames(init);
      MapFieldsKeepsAll(init, f);
      var prev := MapFields(init, f).value;
      assert !Has(prev, last.name);
      var b := f(last.name, last.value).value.value;
      assert MapFields(fs, f) == Ok(Assign(prev, last.name, b));
      var r := prev + [Field(last.name, b)];
      assert Assign(prev, last.name, b) == r;
      assert forall i :: 0 <= i < |init| ==> r[i] == prev[i];
    }
  }

  /** Sequence concatenation regroups freely. */
  lemma Associative<T>(a: seq<T>, b: seq<T>, c: seq<T>)
    ensures (a + b) + c == a + (b + c)
  {
  }
}

=== FILE: paging.dfy ===
/** The list request behind `query` and `scan` (`_listRequest`,
    index.js:570-586): a count-only request answers with the count; otherwise
    pages of items are decoded and gathered, and the next page is asked for,
    from the last key the store evaluated, until the store reports none or
    the page filled the requested limit. The store is a list of pages consumed
    in order; running out of pages ends the run. A page that cannot be
    decoded makes the source throw inside the store client's callback, so
    the caller's callback is never called: the run ends with `Uncaught`. */
module Paging {
  import opened Wrappers
  import opened Objects
  import opened Values
  import opened Codec
  import opened Items

  /** One reply of the store: the page's items, its `Count`, and the
      `LastEvaluatedKey` when there is one; or a failure. */
  datatype Page = Page(items: seq<Item>, count: int, lastKey: Option<Key>) | PageFailed(message: string)

  datatype ListResult = Counted(count: int) | Listed(items: seq<NativeValue>)

  /** The outcome, the start key sent with each request (None for the
      caller's own options), and the pages not consumed. */
  datatype ListRun = ListRun(outcome: Res<ListResult>, sent: seq<Option<Key>>, rest: seq<Page>)

  /** `options.Count`: only the count is wanted. */
  predicate CountOnly(options: Props) {
    Truthy(Prop(Obj(options), "Count"))
  }

  /** `!options.Limit || options.Limit !== data.Count`: the page did not
      fill the requested limit. */
  predicate BelowLimit(options: Props, count: int) {
    var limit := Prop(Obj(options), "Limit");
    !Truthy(limit) || limit != Num(count)
  }

  /** Whether a page makes the source ask for the next one. */
  predicate Continues(options: Props, p: Page) {
    p.Page? && !CountOnly(options) && p.lastKey.Some? && BelowLimit(options, p.count)
  }

  /** What one page does to a listing: end it with an outcome, or ask for
      the next page from `key` with the items gathered so far. */
  datatype Step = Done(outcome: Res<ListResult>) | More(items: seq<NativeValue>, key: Option<Key>)

  /** The handling of one reply: a failure ends the listing with the store's
      error; a count-only request answers with the page's count; a page that
      does not decode ends it with the exception escaping the callback;
      otherwise the page's items are
      decoded and appended, and the listing goes on exactly when the page
      continues. */
  function PageStep(env: Env, mappings: Mappings, options: Props, items: seq<NativeValue>, p: Page): (s: Step)
    ensures p.PageFailed? ==> s == Done(Err(Transport(p.message)))
    ensures p.Page? && CountOnly(options) ==> s == Done(Ok(Counted(p.count)))
    ensures p.Page? && !CountOnly(options) && DecodeItems(env, mappings, p.items).Err? ==>
      s == Done(Err(Uncaught(DecodeItems(env, mappings, p.items).error)))
    ensures s.More? <==> Continues(options, p) && DecodeItems(env, mappings, p.items).Ok?
    ensures s.More? ==> s.key == p.lastKey && s.items == items + DecodeItems(env, mappings, p.items).value
    ensures s.Done? && s.outcome.Ok? ==> p.Page? && !Continues(options, p)
    ensures s.Done? && s.outcome.Ok? && !CountOnly(options) ==>
      p.Page? && DecodeItems(env, mappings, p.items).Ok? && s.outcome == Ok(Listed(items + DecodeItems(env, mappings, p.items).value))
  {
    match p
    case PageFailed(m) => Done(Err(Transport(m)))
    case Page(its, count, lastKey) =>
      if CountOnly(options) then Done(Ok(Counted(count)))
      else
        match DecodeItems(env, mappings, its)
        case Err(e) => Done(Err(Uncaught(e)))
        case Ok(vs) =>
          if Continues(options, p) then More(items + vs, lastKey)
          else Done(Ok(Listed(items + vs)))
  }

  /** `_listRequest(operation, items, options)`, from the request that
      starts at `start`, with `items` gathered so far. */
  function ListPages(env: Env, mappings: Mappings, options: Props, start: Option<Key>, items: seq<NativeValue>, pages: seq<Page>): (r: ListRun)
    ensures 0 < |r.sent| <= |pages| + 1 && r.sent[0] == start
    ensures r.outcome.Ok? ==>
      |r.sent| <= |pages| && pages[|r.sent| - 1].Page? && !Continues(options, pages[|r.sent| - 1]) &&
      r.rest == pages[|r.sent|..]
    // a count-only request ends at its first page, with that page's count
    ensures CountOnly(options) && |pages| > 0 && pages[0].Page? ==>
      r.outcome == Ok(Counted(pages[0].count)) && |r.sent| == 1
    decreases |pages|
  {
    if |pages| == 0 then ListRun(Err(OutOfReplies), [start], [])
    else
      match PageStep(env, mappings, options, items, pages[0])
      case Done(outcome) => ListRun(outcome, [start], pages[1..])
      case More(gathered, key) =>
        var next := ListPages(env, mappings, options, key, gathered, pages[1..]);
        ListRun(next.outcome, [start] + next.sent, next.rest)
  }

  /** A listing from the caller's options. */
  function List(env: Env, mappings: Mappings, options: Props, pages: seq<Page>): ListRun {
    ListPages(env, mappings, options, None, [], pages)
  }
}

=== FILE: paging_laws.dfy ===
/** What a listing returns: the decoded pages it consumed, joined in order. */
module PagingLaws {
  import opened Wrappers
  import opened Objects
  import opened Values
  import opened Codec
  import opened Items
  import opened Paging

  /** The decoded items of a run of pages, page after page. */
  function Decoded(env: Env, mappings: Mappings, pages: seq<Page>): seq<NativeValue> {
    if |pages| == 0 then []
    else
      (if pages[0].Page? && DecodeItems(env, mappings, pages[0].items).Ok? then DecodeItems(env, mappings, pages[0].items).value else [])
      + Decoded(env, mappings, pages[1..])
  }

  lemma DecodedCons(env: Env, mappings: Mappings, p: Page, more: seq<Page>)
    requires p.Page? && DecodeItems(env, mappings, p.items).Ok?
    ensures Decoded(env, mappings, [p] + more) == DecodeItems(env, mappings, p.items).value + Decoded(env, mappings, more)
  {
    assert ([p] + more)[1..] == more;
  }

  /** The requests after a page that continues: its own, then the later
      ones, which follow the later pages. */
  lemma StartKeysShift(options: Props, pages: seq<Page>, start: Option<Key>, later: seq<Option<Key>>)
    requires 0 < |later| <= |pages| && Continues(options, pages[0]) && later[0] == pages[0].lastKey
    requires forall i :: 0 <= i < |later| - 1 ==>
      Continues(options, pages[1..][i]) && pages[1..][i].Page? && later[i + 1] == pages[1..][i].lastKey
    ensures forall i :: 0 <= i < |later| ==>
      Continues(options, pages[i]) && pages[i].Page? && ([start] + later)[i + 1] == pages[i].lastKey
  {
    forall i | 0 <= i < |later|
      ensures Continues(options, pages[i]) && pages[i].Page? && ([start] + later)[i + 1] == pages[i].lastKey
    {
      if i > 0 {
        assert pages[1..][i - 1] == pages[i];
      }
    }
  }

  /** A further request is made exactly after a page that continues, and it
      starts from that page's last key. */
  lemma {:induction false} ListResends(env: Env, mappings: Mappings, options: Props, start: Option<Key>, items: seq<NativeValue>, pages: seq<Page>)
    ensures var r := ListPages(env, mappings, options, start, items, pages);
      forall i :: 0 <= i < |r.sent| - 1 ==>
        Continues(options, pages[i]) && pages[i].Page? && r.sent[i + 1] == pages[i].lastKey
    decreases |pages|
  {
    var r := ListPages(env, mappings, options, start, items, pages);
    if |pages| > 0 {
      var s := PageStep(env, mappings, options, items, pages[0]);
      if s.More? {
        var next := ListPages(env, mappings, options, s.key, s.items, pages[1..]);
        ListResends(env, mappings, options, s.key, s.items, pages[1..]);
        assert r.sent == [start] + next.sent;
        StartKeysShift(options, pages, start, next.sent);
      }
    }
  }

  /** A successful listing's first page either ends it or hands over to
      the next request. */
  lemma FirstPage(env: Env, mappings: Mappings, options: Props, start: Option<Key>, items: seq<NativeValue>, pages: seq<Page>)
    requires ListPages(env, mappings, options, start, items, pages).outcome.Ok?
    ensures |pages| > 0
    ensures var r := ListPages(env, mappings, options, start, items, pages);
      var s := PageStep(env, mappings, options, items, pages[0]);
      if s.More? then
        var next := ListPages(env, mappings, options, s.key, s.items, pages[1..]);
        r.outcome == next.outcome && |r.sent| == 1 + |next.sent|
      else r.outcome == s.outcome && |r.sent| == 1
  {
  }

  lemma PrefixCons<T>(xs: seq<T>, n: nat)
    requires 0 < n <= |xs|
    ensures xs[..n] == [xs[0]] + xs[1..][..n - 1]
  {
  }

  /** A listing that is not count-only and succeeds returns the items
      gathered before it followed by every consumed page's decoded items, in
      page order. */
  lemma {:induction false} ListGathers(env: Env, mappings: Mappings, options: Props, start: Option<Key>, items: seq<NativeValue>, pages: seq<Page>)
    ensures var r := ListPages(env, mappings, options, start, items, pages);
      !CountOnly(options) && r.outcome.Ok? ==>
        r.outcome == Ok(Listed(items + Decoded(env, mappings, pages[..|r.sent|])))
    decreases |pages|
  {
    var r := ListPages(env, mappings, options, start, items, pages);
    if !CountOnly(options) && r.outcome.Ok? {
      var p := pages[0];
      var s := PageStep(env, mappings, options, items, p);
      var vs := DecodeItems(env, mappings, p.items).value;
      FirstPage(env, mappings, options, start, items, pages);
      PrefixCons(pages, |r.sent|);
      if s.More? {
        var next := ListPages(env, mappings, options, s.key, s.items, pages[1..]);
        ListGathers(env, mappings, options, s.key, s.items, pages[1..]);
        var later := pages[1..][..|next.sent|];
        DecodedCons(env, mappings, p, later);
        Associative(items, vs, Decoded(env, mappings, later));
      } else {
        assert pages[1..][..0] == [];
        DecodedCons(env, mappings, p, []);
        assert vs + [] == vs;
      }
    }
  }

  lemma NoOptions()
    ensures !CountOnly([]) && BelowLimit([], 0)
    ensures forall p: Page :: Continues([], p) <==> p.Page? && p.lastKey.Some?
  {
    assert Prop(Obj([]), "Count") == Undefined;
    assert Prop(Obj([]), "Limit") == Undefined;
  }

  lemma StepMore(env: Env, mappings: Mappings, items: seq<NativeValue>, its: seq<Item>, key: Key)
    requires DecodeItems(env, mappings, its).Ok?
    ensures PageStep(env, mappings, [], items, Page(its, |its|, Some(key))) ==
      More(items + DecodeItems(env, mappings, its).value, Some(key))
  {
    NoOptions();
  }

  lemma StepLast(env: Env, mappings: Mappings, items: seq<NativeValue>, its: seq<Item>)
    requires DecodeItems(env, mappings, its).Ok?
    ensures PageStep(env, mappings, [], items, Page(its, |its|, None)) ==
      Done(Ok(Listed(items + DecodeItems(env, mappings, its).value)))
  {
    NoOptions();
  }

  lemma LastPage(env: Env, mappings: Mappings, items: seq<NativeValue>, key: Key, pages: seq<Page>)
    requires |pages| > 0 && pages[0].Page? && pages[0].lastKey == None && pages[0].count == |pages[0].items|
    requires DecodeItems(env, mappings, pages[0].items).Ok?
    ensures ListPages(env, mappings, [], Some(key), items, pages) ==
      ListRun(Ok(Listed(items + DecodeItems(env, mappings, pages[0].items).value)), [Some(key)], pages[1..])
  {
    StepLast(env, mappings, items, pages[0].items);
  }

  /** Two pages: the first names a last key, the second none. The second
      request starts from that key and the result is both pages' items. */
  lemma TwoPages(env: Env, mappings: Mappings, first: seq<Item>, second: seq<Item>, key: Key, pages: seq<Page>)
    requires |pages| >= 2 && pages[0] == Page(first, |first|, Some(key)) && pages[1] == Page(second, |second|, None)
    requires DecodeItems(env, mappings, first).Ok? && DecodeItems(env, mappings, second).Ok?
    ensures var r := List(env, mappings, [], pages);
      r.sent == [None, Some(key)] && r.rest == pages[2..] &&
      r.outcome == Ok(Listed(DecodeItems(env, mappings, first).value + DecodeItems(env, mappings, second).value))
  {
    var d1 := DecodeItems(env, mappings, first).value;
    StepMore(env, mappings, [], first, key);
    assert [] + d1 == d1;
    assert pages[1..][0] == pages[1];
    LastPage(env, mappings, d1, key, pages[1..]);
    assert pages[1..][1..] == pages[2..];
  }

  /** A page that fills a truthy `Limit` ends the listing even though the
      store names a last key. */
  lemma FullPageStops(env: Env, mappings: Mappings, items: seq<Item>, key: Key, pages: seq<Page>)
    requires |items| > 0 && DecodeItems(env, mappings, items).Ok?
    requires |pages| > 0 && pages[0] == Page(items, |items|, Some(key))
    ensures var options := [Field("Limit", Num(|items|))];
      var r := List(env, mappings, options, pages);
      r.sent == [None] && r.rest == pages[1..] && r.outcome == Ok(Listed(DecodeItems(env, mappings, items).value))
  {
    var options := [Field("Limit", Num(|items|))];
    GetOne("Limit", Num(|items|), "Count");
    GetOne("Limit", Num(|items|), "Limit");
    assert !CountOnly(options) && !BelowLimit(options, |items|);
    assert !Continues(options, pages[0]);
    assert [] + DecodeItems(env, mappings, items).value == DecodeItems(env, mappings, items).value;
  }
}

=== FILE: schema.dfy ===
/** The CreateTable request `createTable` builds (index.js:435-491): the
    table name, local secondary indexes from a compact description, the key
    schema, the attribute definitions of every key attribute and the
    provisioned throughput. Whatever the caller already put in the options
    for a setting, when truthy, is sent as given. */
module Schema {
  import opened Wrappers
  import opened Objects
  import opened Values
  import opened Keys
  import opened Chunking

  /** `{AttributeName, KeyType}`. */
  datatype KeyElement = KeyElement(attr: string, keyType: string)

  /** `{ProjectionType, NonKeyAttributes}`; the attribute list comes only
      with INCLUDE. */
  datatype Projection = Projection(projectionType: string, nonKeyAttributes: Option<seq<NativeValue>>)

  /** One entry of `LocalSecondaryIndexes`. */
  datatype LocalIndex = LocalIndex(name: string, keySchema: seq<KeyElement>, projection: Option<Projection>)

  /** `{AttributeName, AttributeType}`. */
  datatype AttributeDefinition = AttributeDefinition(attr: string, attrType: string)

  datatype Throughput = Throughput(read: NativeValue, write: NativeValue)

  /** The request: the caller's options with the table name filled in, and
      the four settings `createTable` decides. No local indexes (None) leaves
      whatever falsy value the options hold. */
  datatype CreateTableRequest = CreateTableRequest(
    options: Props,
    localIndexes: Option<Setting<seq<LocalIndex>>>,
    keySchema: Setting<seq<KeyElement>>,
    attributeDefinitions: Setting<seq<AttributeDefinition>>,
    throughput: Setting<Throughput>)

  /** The attribute names of a key schema, in order. */
  function Attrs(ks: seq<KeyElement>): (ns: seq<string>)
    ensures |ns| == |ks|
    ensures forall i :: 0 <= i < |ks| ==> ns[i] == ks[i].attr
  {
    seq(|ks|, i requires 0 <= i < |ks| => ks[i].attr)
  }

  /** The first element is the HASH key, every later one a RANGE key. */
  predicate HashThenRange(ks: seq<KeyElement>) {
    forall i :: 0 <= i < |ks| ==> ks[i].keyType == (if i == 0 then "HASH" else "RANGE")
  }

  /** `key.map((attr, ix) => ({AttributeName: attr, KeyType: ix === 0 ? 'HASH' : 'RANGE'}))`. */
  function KeySchemaOf(attrs: seq<string>): (ks: seq<KeyElement>)
    ensures Attrs(ks) == attrs && HashThenRange(ks)
  {
    seq(|attrs|, i requires 0 <= i < |attrs| => KeyElement(attrs[i], if i == 0 then "HASH" else "RANGE"))
  }

  /** `if (index.key[0] != self.key[0]) index.key.unshift(self.key[0])`: an
      index key is led by the table's hash key, which is put in front only
      when the key does not already start with it. */
  function WithHash(hash: string, key: seq<string>): (r: seq<string>)
    ensures |r| > 0 && r[0] == hash && r[1..] == if |key| > 0 && key[0] == hash then key[1..] else key
    ensures r == key <==> |key| > 0 && key[0] == hash
  {
    if |key| > 0 && key[0] == hash then key else [hash] + key
  }

  /** An index key attribute name. The source takes any value and lets
      JavaScript turn it into text; the model accepts text only. */
  function KeyText(x: NativeValue): Res<string> {
    if x.Str? then Ok(x.s) else Err(TypeError("index key attribute is not text"))
  }

  function KeyTexts(xs: seq<NativeValue>): (r: Res<seq<string>>)
    ensures r.Ok? <==> forall i :: 0 <= i < |xs| ==> xs[i].Str?
    ensures r.Ok? ==> |r.value| == |xs| && forall i :: 0 <= i < |xs| ==> xs[i] == Str(r.value[i])
  {
    MapAll(xs, KeyText)
  }

  /** An index in its object form: its key attributes and its projection. */
  datatype IndexSpec = IndexSpec(key: seq<string>, projection: NativeValue)

  /** A text is a one-attribute key, a list is the key, and anything else
      must carry a list under `key` (else `index.key.forEach` throws) and may
      carry a `projection`. */
  function NormalizeIndex(index: NativeValue): (r: Res<IndexSpec>)
    ensures index.Str? ==> r == Ok(IndexSpec([index.s], Undefined))
    ensures index.Arr? ==> (r.Ok? <==> KeyTexts(index.elems).Ok?)
    ensures index.Arr? && r.Ok? ==> r.value == IndexSpec(KeyTexts(index.elems).value, Undefined)
    ensures !index.Str? && !index.Arr? ==>
      (r.Ok? <==> Prop(index, "key").Arr? && KeyTexts(Prop(index, "key").elems).Ok?)
    ensures !index.Str? && !index.Arr? && r.Ok? ==>
      r.value == IndexSpec(KeyTexts(Prop(index, "key").elems).value, Prop(index, "projection"))
  {
    match index
    case Str(s) => Ok(IndexSpec([s], Undefined))
    case Arr(xs) =>
      var key :- KeyTexts(xs);
      Ok(IndexSpec(key, Undefined))
    case _ =>
      var k := Prop(index, "key");
      if !k.Arr? then Err(TypeError("index.key.forEach is not a function"))
      else
        var key :- KeyTexts(k.elems);
        Ok(IndexSpec(key, Prop(index, "projection")))
  }

  /** A text projection names the projection type; a list projects those
      attributes with INCLUDE; anything else sets no projection. */
  function ProjectionOf(p: NativeValue): (r: Option<Projection>)
    ensures r.Some? <==> p.Str? || p.Arr?
    ensures p.Str? ==> r == Some(Projection(p.s, None))
    ensures p.Arr? ==> r == Some(Projection("INCLUDE", Some(p.elems)))
  {
    match p
    case Str(s) => Some(Projection(s, None))
    case Arr(xs) => Some(Projection("INCLUDE", Some(xs)))
    case _ => None
  }

  /** The local index called `name`, keyed by the table's hash key and the
      index's own key attributes. */
  function BuildIndex(hash: string, name: string, spec: IndexSpec): (lsi: LocalIndex)
    ensures lsi.name == name && lsi.projection == ProjectionOf(spec.projection)
    ensures Attrs(lsi.keySchema) == WithHash(hash, spec.key) && HashThenRange(lsi.keySchema)
  {
    LocalIndex(name, KeySchemaOf(WithHash(hash, spec.key)), ProjectionOf(spec.projection))
  }

  /** A list of attribute names becomes an object naming each index after
      its attribute: `indexesObj[attr] = attr`. */
  function ByName(env: Env, xs: seq<NativeValue>): (fs: Props)
    decreases |xs|
  {
    if |xs| == 0 then []
    else
      var x := xs[|xs| - 1];
      Assign(ByName(env, xs[..|xs| - 1]), JsString(env, x), x)
  }

  /** The indexes by name: a list is first turned into an object. */
  function IndexSpecs(env: Env, indexes: NativeValue): (specs: Props)
    ensures indexes.Arr? ==> specs == ByName(env, indexes.elems)
    ensures !indexes.Arr? ==> specs == OwnProps(indexes)
  {
    if indexes.Arr? then ByName(env, indexes.elems) else OwnProps(indexes)
  }

  /** One built index with the attributes its declared key marks (before
      the hash key is put in front). */
  datatype IndexOutcome = IndexOutcome(index: LocalIndex, marks: seq<string>)

  function IndexEntry(hash: string, f: Field<NativeValue>): (r: Res<IndexOutcome>)
    ensures r.Ok? <==> NormalizeIndex(f.value).Ok?
    ensures r.Ok? ==> r.value == IndexOutcome(BuildIndex(hash, f.name, NormalizeIndex(f.value).value), NormalizeIndex(f.value).value.key)
  {
    var spec :- NormalizeIndex(f.value);
    Ok(IndexOutcome(BuildIndex(hash, f.name, spec), spec.key))
  }

  /** `Object.keys(indexes).map(...)`: every index in order; the first that
      cannot be read ends the request. */
  function BuildIndexes(hash: string, specs: Props): (r: Res<seq<IndexOutcome>>)
    ensures r.Ok? <==> forall i :: 0 <= i < |specs| ==> NormalizeIndex(specs[i].value).Ok?
    ensures r.Ok? ==> |r.value| == |specs| && forall i :: 0 <= i < |specs| ==>
      r.value[i] == IndexOutcome(BuildIndex(hash, specs[i].name, NormalizeIndex(specs[i].value).value), NormalizeIndex(specs[i].value).value.key)
  {
    MapAll(specs, f => IndexEntry(hash, f))
  }

  function Indexes(os: seq<IndexOutcome>): (lsis: seq<LocalIndex>)
    ensures |lsis| == |os| && forall i :: 0 <= i < |os| ==> lsis[i] == os[i].index
  {
    seq(|os|, i requires 0 <= i < |os| => os[i].index)
  }

  /** Every attribute the index keys mark, index after index. */
  function Marks(os: seq<IndexOutcome>): seq<string> {
    Flatten(seq(|os|, i requires 0 <= i < |os| => os[i].marks))
  }

  /** `namesObj[attr] = true` for each attribute in turn. */
  function Mark(fs: Fields<bool>, attrs: seq<string>): Fields<bool>
    decreases |attrs|
  {
    if |attrs| == 0 then fs else Assign(Mark(fs, attrs[..|attrs| - 1]), attrs[|attrs| - 1], true)
  }

  /** `Object.keys(attrMap)`: the table's key attributes, then those the
      index keys add, each once, in first-marked order. */
  function AttributeNames(t: Table, marks: seq<string>): seq<string> {
    Names(Mark([], t.key + marks))
  }

  function Define(t: Table, attr: string): (r: Res<AttributeDefinition>)
    ensures r.Ok? <==> GetKeyType(t, attr).Ok?
    ensures r.Ok? ==> r.value == AttributeDefinition(attr, GetKeyType(t, attr).value)
    ensures r.Err? ==> r.error == UnsupportedKeyType(attr)
  {
    var k :- GetKeyType(t, attr);
    Ok(AttributeDefinition(attr, k))
  }

  /** Each attribute typed with `_getKeyType`; the first it rejects ends the
      request with that attribute named. */
  function Definitions(t: Table, names: seq<string>): (r: Res<seq<AttributeDefinition>>)
    ensures r.Ok? <==> forall i :: 0 <= i < |names| ==> GetKeyType(t, names[i]).Ok?
    ensures r.Ok? ==> |r.value| == |names| && forall i :: 0 <= i < |names| ==>
      r.value[i] == AttributeDefinition(names[i], GetKeyType(t, names[i]).value)
    // the error names the first attribute without a key type
    ensures r.Err? ==> exists i :: (0 <= i < |names| && GetKeyType(t, names[i]).Err? && r.error == UnsupportedKeyType(names[i]) &&
      forall j :: 0 <= j < i ==> GetKeyType(t, names[j]).Ok?)
  {
    MapAll(names, n => Define(t, n))
  }

  /** `options.TableName = options.TableName || this.name`. */
  function Named(t: Table, options: Props): (o: Props)
    ensures Get(o, "TableName") == Some(
      if Truthy(Get(options, "TableName").GetOr(Undefined)) then Get(options, "TableName").value else Str(t.name))
    ensures forall n :: n != "TableName" ==> Get(o, n) == Get(options, n)
  {
    var given := Get(options, "TableName").GetOr(Undefined);
    var name := if Truthy(given) then given else Str(t.name);
    AssignGet(options, "TableName", name);
    Assign(options, "TableName", name)
  }

  /** `options[name]` as the source reads it. */
  function Preset(options: Props, name: string): NativeValue {
    Get(options, name).GetOr(Undefined)
  }

  /** Whether the local indexes are built: `indexes` is truthy, has keys,
      and the caller set no local indexes of their own. */
  predicate BuildsIndexes(indexes: NativeValue, options: Props) {
    Truthy(indexes) && |OwnProps(indexes)| > 0 && !Truthy(Preset(options, "LocalSecondaryIndexes"))
  }

  /** `options[name] || built`: a truthy preset wins over what is built. */
  function Or<T>(options: Props, name: string, built: T): (s: Setting<T>)
    ensures Truthy(Preset(options, name)) ==> s == Given(Preset(options, name))
    ensures !Truthy(Preset(options, name)) ==> s == Built(built)
  {
    if Truthy(Preset(options, name)) then Given(Preset(options, name)) else Built(built)
  }

  /** The local indexes built, or none when they are not built. */
  function Outcomes(env: Env, t: Table, indexes: NativeValue, options: Props): (r: Res<seq<IndexOutcome>>)
    ensures BuildsIndexes(indexes, options) ==> r == BuildIndexes(t.key[0], IndexSpecs(env, indexes))
    ensures !BuildsIndexes(indexes, options) ==> r == Ok([])
  {
    if BuildsIndexes(indexes, options) then BuildIndexes(t.key[0], IndexSpecs(env, indexes)) else Ok([])
  }

  /** `LocalSecondaryIndexes`: built, the caller's own, or left alone. */
  function IndexesSetting(indexes: NativeValue, options: Props, built: seq<IndexOutcome>): (s: Option<Setting<seq<LocalIndex>>>)
    ensures BuildsIndexes(indexes, options) ==> s == Some(Built(Indexes(built)))
    ensures Truthy(Preset(options, "LocalSecondaryIndexes")) ==> s == Some(Given(Preset(options, "LocalSecondaryIndexes")))
    ensures s.None? <==> !BuildsIndexes(indexes, options) && !Truthy(Preset(options, "LocalSecondaryIndexes"))
  {
    if BuildsIndexes(indexes, options) then Some(Built(Indexes(built)))
    else if Truthy(Preset(options, "LocalSecondaryIndexes")) then Some(Given(Preset(options, "LocalSecondaryIndexes")))
    else None
  }

  /** `AttributeDefinitions`: the caller's own, or one per marked attribute. */
  function DefinitionsSetting(t: Table, options: Props, built: seq<IndexOutcome>): (r: Res<Setting<seq<AttributeDefinition>>>)
    ensures Truthy(Preset(options, "AttributeDefinitions")) ==> r == Ok(Given(Preset(options, "AttributeDefinitions")))
    ensures !Truthy(Preset(options, "AttributeDefinitions")) ==>
      var defs := Definitions(t, AttributeNames(t, Marks(built)));
      (r.Ok? <==> defs.Ok?) && (r.Ok? ==> r.value == Built(defs.value)) && (r.Err? ==> r.error == defs.error)
  {
    if Truthy(Preset(options, "AttributeDefinitions")) then Ok(Given(Preset(options, "AttributeDefinitions")))
    else
      var defs :- Definitions(t, AttributeNames(t, Marks(built)));
      Ok(Built(defs))
  }

  /** `createTable(readCapacity, writeCapacity, indexes, options)`. A
      capacity not passed (None) is 1; `indexes` not passed is null. */
  function CreateTable(env: Env, t: Table, read: Option<NativeValue>, write: Option<NativeValue>, indexes: NativeValue, options: Props): (r: Res<CreateTableRequest>)
    // an index that cannot be read ends the request, and so does an
    // attribute without a key type when the definitions are built
    ensures Outcomes(env, t, indexes, options).Err? ==> r == Err(Outcomes(env, t, indexes, options).error)
    ensures r.Ok? <==> (Outcomes(env, t, indexes, options).Ok? &&
      (Truthy(Preset(options, "AttributeDefinitions")) ||
       Definitions(t, AttributeNames(t, Marks(Outcomes(env, t, indexes, options).value))).Ok?))
    ensures r.Ok? ==> r.value.options == Named(t, options)
    // a truthy preset is sent as given
    ensures r.Ok? && Truthy(Preset(options, "LocalSecondaryIndexes")) ==>
      r.value.localIndexes == Some(Given(Preset(options, "LocalSecondaryIndexes")))
    ensures r.Ok? && Truthy(Preset(options, "KeySchema")) ==> r.value.keySchema == Given(Preset(options, "KeySchema"))
    ensures r.Ok? && Truthy(Preset(options, "AttributeDefinitions")) ==>
      r.value.attributeDefinitions == Given(Preset(options, "AttributeDefinitions"))
    ensures r.Ok? && Truthy(Preset(options, "ProvisionedThroughput")) ==>
      r.value.throughput == Given(Preset(options, "ProvisionedThroughput"))
    // otherwise it is built
    ensures r.Ok? && !BuildsIndexes(indexes, options) && !Truthy(Preset(options, "LocalSecondaryIndexes")) ==>
      r.value.localIndexes == None
    ensures r.Ok? && BuildsIndexes(indexes, options) ==>
      BuildIndexes(t.key[0], IndexSpecs(env, indexes)).Ok? &&
      r.value.localIndexes == Some(Built(Indexes(BuildIndexes(t.key[0], IndexSpecs(env, indexes)).value)))
    ensures r.Ok? && !Truthy(Preset(options, "KeySchema")) ==> r.value.keySchema == Built(KeySchemaOf(t.key))
    ensures r.Ok? && !Truthy(Preset(options, "AttributeDefinitions")) ==>
      r.value.attributeDefinitions == Built(Definitions(t, AttributeNames(t, Marks(Outcomes(env, t, indexes, options).value))).value)
    ensures r.Ok? && !Truthy(Preset(options, "ProvisionedThroughput")) ==>
      r.value.throughput == Built(Throughput(read.GetOr(Num(1)), write.GetOr(Num(1))))
  {
    var built :- Outcomes(env, t, indexes, options);
    var definitions :- DefinitionsSetting(t, options, built);
    Ok(CreateTableRequest(
      Named(t, options),
      IndexesSetting(indexes, options, built),
      Or(options, "KeySchema", KeySchemaOf(t.key)),
      definitions,
      Or(options, "ProvisionedThroughput", Throughput(read.GetOr(Num(1)), write.GetOr(Num(1))))))
  }
}

=== FILE: schema_laws.dfy ===
/** What `createTable` promises about the schema it builds: key schemas are
    HASH then RANGE and read back to their attributes, every local index is
    led by the table's hash key, and the attribute definitions name every
    key attribute once, typed by `_getKeyType`. */
module SchemaLaws {
  import opened Wrappers
  import opened Objects
  import opened Values
  import opened Keys
  import opened Chunking
  import opened Schema

  /** A HASH-then-RANGE key schema is the one built from its own attribute
      names: building and reading the names back are inverse. */
  lemma KeySchemaUnique(ks: seq<KeyElement>)
    requires HashThenRange(ks)
    ensures KeySchemaOf(Attrs(ks)) == ks
  {
    var built := KeySchemaOf(Attrs(ks));
    assert |built| == |ks|;
    forall i | 0 <= i < |ks| ensures built[i] == ks[i] {
      assert built[i].attr == Attrs(ks)[i] == ks[i].attr;
    }
  }

  /** The hash key appears only at the front of an index key schema exactly
      when the declared index key does not repeat it after its first place. */
  lemma HashOnce(hash: string, name: string, spec: IndexSpec)
    ensures var ks := BuildIndex(hash, name, spec).keySchema;
      |ks| > 0 && ks[0] == KeyElement(hash, "HASH") &&
      ((forall i :: 0 < i < |ks| ==> ks[i].attr != hash) <==>
       (forall j :: 0 < j < |spec.key| ==> spec.key[j] != hash))
  {
    var ks := BuildIndex(hash, name, spec).keySchema;
    var ns := WithHash(hash, spec.key);
    assert Attrs(ks) == ns;
    assert ks[0].attr == hash;
    if |spec.key| > 0 && spec.key[0] == hash {
      assert ns == spec.key;
    } else {
      assert ns == [hash] + spec.key;
      if exists j :: 0 <= j < |spec.key| && spec.key[j] == hash {
        var j :| 0 <= j < |spec.key| && spec.key[j] == hash;
        assert ks[j + 1].attr == ns[j + 1] == hash;
      } else {
        forall i | 0 < i < |ks| ensures ks[i].attr != hash {
          assert ks[i].attr == ns[i] == spec.key[i - 1];
        }
      }
    }
  }

  /** An index declared with the hash key after its range key gets the hash
      key twice: `['dob', 'id']` on a table hashed by `id` becomes
      `id, dob, id`, because only the first declared attribute is compared. */
  lemma HashRepeated()
    ensures BuildIndex("id", "byDob", IndexSpec(["dob", "id"], Undefined)).keySchema ==
      [KeyElement("id", "HASH"), KeyElement("dob", "RANGE"), KeyElement("id", "RANGE")]
  {
    var ks := BuildIndex("id", "byDob", IndexSpec(["dob", "id"], Undefined)).keySchema;
    assert WithHash("id", ["dob", "id"]) == ["id", "dob", "id"];
    assert Attrs(ks) == ["id", "dob", "id"];
    assert ks[0].attr == "id" && ks[1].attr == "dob" && ks[2].attr == "id";
  }

  /** The indexes are those declared, in order, each keyed HASH by the
      table's hash key and RANGE after it. */
  predicate LedBy(hash: string, specs: Props, lsis: seq<LocalIndex>) {
    |lsis| == |specs| &&
    forall i :: 0 <= i < |specs| ==>
      lsis[i].name == specs[i].name && HashThenRange(lsis[i].keySchema) &&
      |lsis[i].keySchema| > 0 && lsis[i].keySchema[0] == KeyElement(hash, "HASH")
  }

  lemma BuiltIndexesLed(hash: string, specs: Props)
    requires BuildIndexes(hash, specs).Ok?
    ensures LedBy(hash, specs, Indexes(BuildIndexes(hash, specs).value))
  {
    var os := BuildIndexes(hash, specs).value;
    forall i | 0 <= i < |os|
      ensures Indexes(os)[i].keySchema[0] == KeyElement(hash, "HASH")
    {
      HashOnce(hash, os[i].index.name, NormalizeIndex(specs[i].value).value);
    }
  }

  /** Every index `createTable` builds is named as declared and keyed HASH
      by the table's hash key, then RANGE. */
  lemma IndexesLeadWithHash(env: Env, t: Table, read: Option<NativeValue>, write: Option<NativeValue>, indexes: NativeValue, options: Props)
    requires CreateTable(env, t, read, write, indexes, options).Ok?
    requires BuildsIndexes(indexes, options)
    ensures var r := CreateTable(env, t, read, write, indexes, options).value;
      r.localIndexes.Some? && r.localIndexes.value.Built? &&
      LedBy(t.key[0], IndexSpecs(env, indexes), r.localIndexes.value.built)
  {
    BuiltIndexesLed(t.key[0], IndexSpecs(env, indexes));
  }

  /** Marking an attribute records it; marking never forgets one. */
  lemma {:induction false} MarkHas(fs: Fields<bool>, attrs: seq<string>, n: string)
    ensures Has(Mark(fs, attrs), n) <==> Has(fs, n) || n in attrs
    decreases |attrs|
  {
    if |attrs| > 0 {
      var init := attrs[..|attrs| - 1];
      var last := attrs[|attrs| - 1];
      assert n in attrs <==> n in init || n == last;
      MarkHas(fs, init, n);
      var prev := Mark(fs, init);
      AssignGet(prev, last, true);
      assert Mark(fs, attrs) == Assign(prev, last, true);
      if n != last {
        assert Get(Assign(prev, last, true), n) == Get(prev, n);
      }
    }
  }

  /** Marking keeps property names distinct. */
  lemma {:induction false} MarkDistinct(fs: Fields<bool>, attrs: seq<string>)
    requires DistinctNames(fs)
    ensures DistinctNames(Mark(fs, attrs))
    decreases |attrs|
  {
    if |attrs| > 0 {
      MarkDistinct(fs, attrs[..|attrs| - 1]);
      AssignDistinct(Mark(fs, attrs[..|attrs| - 1]), attrs[|attrs| - 1], true);
    }
  }

  /** An assignment keeps the names already there, in place. */
  lemma AssignKeepsFront<V>(fs: Fields<V>, name: string, v: V)
    ensures |Assign(fs, name, v)| >= |fs| && Names(Assign(fs, name, v))[..|fs|] == Names(fs)
  {
    if Has(fs, name) {
      AssignInPlace(fs, name, v);
    } else {
      var r := fs + [Field(name, v)];
      assert Assign(fs, name, v) == r;
      assert forall i :: 0 <= i < |fs| ==> Names(r)[i] == Names(fs)[i];
    }
  }

  /** Marking only adds names after those already there. */
  lemma {:induction false} MarkKeepsFront(fs: Fields<bool>, attrs: seq<string>)
    ensures |Mark(fs, attrs)| >= |fs| && Names(Mark(fs, attrs))[..|fs|] == Names(fs)
    decreases |attrs|
  {
    if |attrs| > 0 {
      var prev := Mark(fs, attrs[..|attrs| - 1]);
      MarkKeepsFront(fs, attrs[..|attrs| - 1]);
      AssignKeepsFront(prev, attrs[|attrs| - 1], true);
      var ns := Names(Mark(fs, attrs));
      assert ns[..|prev|][..|fs|] == ns[..|fs|];
    }
  }

  /** Marking a further run of attributes goes on from the marks so far. */
  lemma {:induction false} MarkAppend(fs: Fields<bool>, xs: seq<string>, ys: seq<string>)
    ensures Mark(fs, xs + ys) == Mark(Mark(fs, xs), ys)
    decreases |ys|
  {
    if |ys| == 0 {
      assert xs + ys == xs;
    } else {
      var zs := xs + ys;
      assert zs[..|zs| - 1] == xs + ys[..|ys| - 1];
      assert zs[|zs| - 1] == ys[|ys| - 1];
      MarkAppend(fs, xs, ys[..|ys| - 1]);
    }
  }

  /** Pairwise distinct text. */
  predicate DistinctTexts(xs: seq<string>) {
    forall i, j :: 0 <= i < j < |xs| ==> xs[i] != xs[j]
  }

  /** Distinct new attributes are appended in order. */
  lemma {:induction false} MarkFresh(fs: Fields<bool>, attrs: seq<string>)
    requires DistinctTexts(attrs)
    requires forall i :: 0 <= i < |attrs| ==> !Has(fs, attrs[i])
    ensures Names(Mark(fs, attrs)) == Names(fs) + attrs
    decreases |attrs|
  {
    if |attrs| > 0 {
      var init := attrs[..|attrs| - 1];
      var last := attrs[|attrs| - 1];
      assert DistinctTexts(init);
      MarkFresh(fs, init);
      var prev := Mark(fs, init);
      MarkHas(fs, init, last);
      assert !Has(prev, last);
      var r := prev + [Field(last, true)];
      assert Mark(fs, attrs) == r;
      assert Names(r) == Names(prev) + [last];
      assert Names(fs) + init + [last] == Names(fs) + attrs;
    }
  }

  /** An element of the joined lists is an element of one of them. */
  lemma {:induction false} FlattenHas<T>(xss: seq<seq<T>>, x: T)
    ensures x in Flatten(xss) <==> exists i :: 0 <= i < |xss| && x in xss[i]
    decreases |xss|
  {
    if |xss| > 0 {
      FlattenHas(xss[1..], x);
      assert Flatten(xss) == xss[0] + Flatten(xss[1..]);
      if exists i :: 0 <= i < |xss[1..]| && x in xss[1..][i] {
        var i :| 0 <= i < |xss[1..]| && x in xss[1..][i];
        assert x in xss[i + 1];
      }
      if exists i :: 0 <= i < |xss| && x in xss[i] {
        var i :| 0 <= i < |xss| && x in xss[i];
        if i > 0 {
          assert x in xss[1..][i - 1];
        }
      }
    }
  }

  /** The attribute names the definitions are built for: each once, the
      table's key attributes or an attribute some index key marks, and the
      table's key first when it has no repeats. */
  lemma AttributeNamesCover(t: Table, os: seq<IndexOutcome>)
    ensures DistinctTexts(AttributeNames(t, Marks(os)))
    ensures forall n :: n in AttributeNames(t, Marks(os)) <==>
      n in t.key || exists k :: 0 <= k < |os| && n in os[k].marks
    ensures DistinctTexts(t.key) ==>
      |AttributeNames(t, Marks(os))| >= |t.key| && AttributeNames(t, Marks(os))[..|t.key|] == t.key
  {
    var ms := Marks(os);
    var fs := Mark([], t.key + ms);
    MarkDistinct([], t.key + ms);
    forall n ensures n in Names(fs) <==> n in t.key || exists k :: 0 <= k < |os| && n in os[k].marks {
      NamesHas(fs, n);
      MarkHas([], t.key + ms, n);
      var xss := seq(|os|, i requires 0 <= i < |os| => os[i].marks);
      FlattenHas(xss, n);
      assert (exists k :: 0 <= k < |os| && n in os[k].marks) ==> n in ms by {
        if exists k :: 0 <= k < |os| && n in os[k].marks {
          var k :| 0 <= k < |os| && n in os[k].marks;
          assert n in xss[k];
        }
      }
      assert n in ms ==> exists k :: 0 <= k < |os| && n in os[k].marks by {
        if n in ms {
          var k :| 0 <= k < |xss| && n in xss[k];
          assert n in os[k].marks;
        }
      }
    }
    if DistinctTexts(t.key) {
      MarkAppend([], t.key, ms);
      MarkFresh([], t.key);
      MarkKeepsFront(Mark([], t.key), ms);
    }
  }

  /** The definitions name each attribute once, type it with
      `_getKeyType`, and name exactly the table's key attributes and those
      the index keys mark. */
  ghost predicate DefinesOnce(t: Table, os: seq<IndexOutcome>, ds: seq<AttributeDefinition>) {
    && (forall i, j :: 0 <= i < j < |ds| ==> ds[i].attr != ds[j].attr)
    && (forall i :: 0 <= i < |ds| ==> GetKeyType(t, ds[i].attr).Ok? && ds[i].attrType == GetKeyType(t, ds[i].attr).value)
    && (forall n :: (exists i :: 0 <= i < |ds| && ds[i].attr == n) <==>
         n in t.key || exists k :: 0 <= k < |os| && n in os[k].marks)
  }

  lemma DefinitionsOf(t: Table, os: seq<IndexOutcome>)
    requires Definitions(t, AttributeNames(t, Marks(os))).Ok?
    ensures DefinesOnce(t, os, Definitions(t, AttributeNames(t, Marks(os))).value)
  {
    var names := AttributeNames(t, Marks(os));
    var ds := Definitions(t, names).value;
    AttributeNamesCover(t, os);
    forall n ensures (exists i :: 0 <= i < |ds| && ds[i].attr == n) <==> n in names {
      if n in names {
        var i :| 0 <= i < |names| && names[i] == n;
        assert ds[i].attr == n;
      }
    }
  }

  /** Built attribute definitions name every key attribute of the table and
      of the indexes exactly once, each typed by `_getKeyType`. */
  lemma DefinitionsCover(env: Env, t: Table, read: Option<NativeValue>, write: Option<NativeValue>, indexes: NativeValue, options: Props)
    requires CreateTable(env, t, read, write, indexes, options).Ok?
    requires !Truthy(Preset(options, "AttributeDefinitions"))
    ensures var r := CreateTable(env, t, read, write, indexes, options).value;
      r.attributeDefinitions.Built? &&
      DefinesOnce(t, Outcomes(env, t, indexes, options).value, r.attributeDefinitions.built)
  {
    DefinitionsOf(t, Outcomes(env, t, indexes, options).value);
  }

  /** A key attribute of the table has no key type. */
  predicate SomeKeyUntyped(t: Table) {
    exists i :: 0 <= i < |t.key| && GetKeyType(t, t.key[i]).Err?
  }

  /** Without indexes, the definitions fail exactly when a key attribute
      of the table has no key type. */
  lemma KeyTypesDecide(t: Table)
    ensures Definitions(t, AttributeNames(t, Marks([]))).Err? <==> SomeKeyUntyped(t)
  {
    var names := AttributeNames(t, Marks([]));
    AttributeNamesCover(t, []);
    if exists i :: 0 <= i < |t.key| && GetKeyType(t, t.key[i]).Err? {
      var i :| 0 <= i < |t.key| && GetKeyType(t, t.key[i]).Err?;
      assert t.key[i] in names;
      var j :| 0 <= j < |names| && names[j] == t.key[i];
      assert GetKeyType(t, names[j]).Err?;
    } else {
      forall j | 0 <= j < |names| ensures GetKeyType(t, names[j]).Ok? {
        assert names[j] in t.key;
      }
    }
  }

  /** With the indexes not built and the definitions not preset, the table
      is refused exactly when one of its key attributes has no key type. */
  lemma UnsupportedKeyFails(env: Env, t: Table, read: Option<NativeValue>, write: Option<NativeValue>, indexes: NativeValue, options: Props)
    requires !BuildsIndexes(indexes, options) && !Truthy(Preset(options, "AttributeDefinitions"))
    ensures CreateTable(env, t, read, write, indexes, options).Err? <==> SomeKeyUntyped(t)
  {
    assert Outcomes(env, t, indexes, options) == Ok([]);
    KeyTypesDecide(t);
  }

  /** A list of distinct attribute names names each index after its
      attribute, in order. */
  lemma {:induction false} ByNameTexts(env: Env, xs: seq<NativeValue>)
    requires forall i :: 0 <= i < |xs| ==> xs[i].Str?
    requires forall i, j :: 0 <= i < j < |xs| ==> xs[i] != xs[j]
    ensures |ByName(env, xs)| == |xs|
    ensures forall i :: 0 <= i < |xs| ==> ByName(env, xs)[i] == Field(xs[i].s, xs[i])
    decreases |xs|
  {
    if |xs| > 0 {
      var init := xs[..|xs| - 1];
      var last := xs[|xs| - 1];
      ByNameTexts(env, init);
      var prev := ByName(env, init);
      assert !Has(prev, last.s);
      var r := prev + [Field(last.s, last)];
      assert JsString(env, last) == last.s;
      assert ByName(env, xs) == r;
    }
  }

  /** A single attribute name declares a single index of that name. */
  lemma DobSpecs(env: Env)
    ensures IndexSpecs(env, Arr([Str("dob")])) == [Field("dob", Str("dob"))]
  {
    ByNameTexts(env, [Str("dob")]);
  }

  /** The index `dob` on a table hashed by `id`. */
  lemma DobIndex()
    ensures BuildIndex("id", "dob", IndexSpec(["dob"], Undefined)) ==
      LocalIndex("dob", [KeyElement("id", "HASH"), KeyElement("dob", "RANGE")], None)
  {
    var ks := KeySchemaOf(WithHash("id", ["dob"]));
    assert WithHash("id", ["dob"]) == ["id", "dob"];
    assert ks[0] == KeyElement("id", "HASH") && ks[1] == KeyElement("dob", "RANGE");
    assert ks == [KeyElement("id", "HASH"), KeyElement("dob", "RANGE")];
  }

  /** The index declared as `['dob']` on a table hashed by `id`. */
  lemma OneIndexBuilt(env: Env)
    ensures BuildIndexes("id", IndexSpecs(env, Arr([Str("dob")]))) ==
      Ok([IndexOutcome(LocalIndex("dob", [KeyElement("id", "HASH"), KeyElement("dob", "RANGE")], None), ["dob"])])
  {
    DobSpecs(env);
    DobIndex();
    var r := BuildIndexes("id", [Field("dob", Str("dob"))]);
    var o := IndexOutcome(LocalIndex("dob", [KeyElement("id", "HASH"), KeyElement("dob", "RANGE")], None), ["dob"]);
    assert r.Ok? && |r.value| == 1 && r.value[0] == o;
    assert r.value == [o];
  }

  /** Its attribute names: the table's key, then the index's range key. */
  lemma OneIndexNames(t: Table)
    requires t.key == ["id", "date"]
    ensures AttributeNames(t, ["dob"]) == ["id", "date", "dob"]
  {
    var names := ["id", "date", "dob"];
    assert names[0] != names[1] && names[0] != names[2] && names[1] != names[2];
    MarkFresh([], names);
    assert t.key + ["dob"] == names;
    assert Names<bool>([]) + names == names;
  }

  /** Its attribute definitions, all text. */
  lemma OneIndexDefinitions(t: Table)
    requires t.key == ["id", "date"] && t.mappings == map[] && t.keyTypes == map[]
    ensures Definitions(t, AttributeNames(t, ["dob"])) ==
      Ok([AttributeDefinition("id", "S"), AttributeDefinition("date", "S"), AttributeDefinition("dob", "S")])
  {
    var names := ["id", "date", "dob"];
    OneIndexNames(t);
    forall n ensures GetKeyType(t, n) == Ok("S") {
      assert DeclaredType(t, n) == Some("S");
    }
    var r := Definitions(t, names);
    assert r.Ok? && |r.value| == 3;
    assert r.value[0] == AttributeDefinition("id", "S");
    assert r.value[1] == AttributeDefinition("date", "S");
    assert r.value[2] == AttributeDefinition("dob", "S");
    assert r.value == [AttributeDefinition("id", "S"), AttributeDefinition("date", "S"), AttributeDefinition("dob", "S")];
  }

  /** With no preset options, a request that builds indexes is assembled
      entirely from the table: its name, the built indexes, the key schema,
      the definitions of every key attribute, and a throughput of one. */
  lemma NoPresets(env: Env, t: Table, indexes: NativeValue, os: seq<IndexOutcome>, ds: seq<AttributeDefinition>)
    requires BuildsIndexes(indexes, [])
    requires Outcomes(env, t, indexes, []) == Ok(os)
    requires Definitions(t, AttributeNames(t, Marks(os))) == Ok(ds)
    ensures CreateTable(env, t, None, None, indexes, []) ==
      Ok(CreateTableRequest(Named(t, []), Some(Built(Indexes(os))), Built(KeySchemaOf(t.key)), Built(ds), Built(Throughput(Num(1), Num(1)))))
  {
    var none: Props := [];
    assert !Has(none, "LocalSecondaryIndexes") && !Has(none, "KeySchema");
    assert !Has(none, "AttributeDefinitions") && !Has(none, "ProvisionedThroughput");
    assert DefinitionsSetting(t, none, os) == Ok(Built(ds));
    var r := CreateTable(env, t, None, None, indexes, none);
    assert r.Ok?;
    assert r.value.localIndexes == Some(Built(Indexes(os)));
    assert r.value.keySchema == Built(KeySchemaOf(t.key));
    assert r.value.attributeDefinitions == Built(ds);
    assert r.value.throughput == Built(Throughput(Num(1), Num(1)));
  }

  /** The index list and the attributes marked by one index on `dob`. */
  lemma DobMarks(lsi: LocalIndex)
    ensures Indexes([IndexOutcome(lsi, ["dob"])]) == [lsi]
    ensures Marks([IndexOutcome(lsi, ["dob"])]) == ["dob"]
  {
    var os := [IndexOutcome(lsi, ["dob"])];
    var xss := seq(|os|, i requires 0 <= i < |os| => os[i].marks);
    assert xss == [["dob"]];
    assert Flatten(xss) == ["dob"] + Flatten(xss[1..]);
    assert xss[1..] == [];
  }

  /** The key schema and the options of a table `users` keyed `id, date`. */
  lemma UsersTable(t: Table)
    requires t.name == "users" && t.key == ["id", "date"]
    ensures KeySchemaOf(t.key) == [KeyElement("id", "HASH"), KeyElement("date", "RANGE")]
    ensures Named(t, []) == [Field("TableName", Str("users"))]
  {
    var ks := KeySchemaOf(t.key);
    assert ks[0] == KeyElement("id", "HASH") && ks[1] == KeyElement("date", "RANGE");
    assert !Has<NativeValue>([], "TableName");
    assert Named(t, []) == Assign([], "TableName", Str("users"));
  }

  /** A table keyed `id, date` with one index declared as `['dob']`: the
      index is keyed `id` then `dob`, and every key attribute is defined as
      text, each once. */
  lemma OneIndexTable(env: Env)
    ensures var t := Table("users", ["id", "date"], map[], map[]);
      CreateTable(env, t, None, None, Arr([Str("dob")]), []) == Ok(CreateTableRequest(
        [Field("TableName", Str("users"))],
        Some(Built([LocalIndex("dob", [KeyElement("id", "HASH"), KeyElement("dob", "RANGE")], None)])),
        Built([KeyElement("id", "HASH"), KeyElement("date", "RANGE")]),
        Built([AttributeDefinition("id", "S"), AttributeDefinition("date", "S"), AttributeDefinition("dob", "S")]),
        Built(Throughput(Num(1), Num(1)))))
  {
    var t := Table("users", ["id", "date"], map[], map[]);
    var indexes := Arr([Str("dob")]);
    assert BuildsIndexes(indexes, []);
    OneIndexBuilt(env);
    var lsi := LocalIndex("dob", [KeyElement("id", "HASH"), KeyElement("dob", "RANGE")], None);
    DobMarks(lsi);
    OneIndexDefinitions(t);
    UsersTable(t);
    NoPresets(env, t, indexes, [IndexOutcome(lsi, ["dob"])],
      [AttributeDefinition("id", "S"), AttributeDefinition("date", "S"), AttributeDefinition("dob", "S")]);
  }
}

=== FILE: update_laws.dfy ===
/** What the update builder promises: for every attribute the first update
    written wins, in the order pre-existing updates, put, add, delete. */
module UpdateLaws {
  import opened Wrappers
  import opened Objects
  import opened Values
  import opened Codec
  import opened Keys
  import opened Updates

  /** The encoding of v under attr's hint, or nothing when encoding fails. */
  function Encoded(env: Env, mappings: Mappings, v: NativeValue, attr: string): Option<WireAttr> {
    match Encode(env, mappings, v, attr, Undefined)
    case Ok(a) => a
    case Err(_) => None
  }

  /** An update with an empty operand becomes a DELETE without operand. */
  function Normalize(u: AttrUpdate): AttrUpdate {
    if IsEmpty(u.value) then Deletion else u
  }

  /** Whether an element of the delete list names the attribute. */
  predicate Mentions(elem: NativeValue, attr: string) {
    elem == Str(attr) || (!elem.Str? && !IsNullish(elem) && attr in Names(OwnProps(elem)))
  }

  /** The update the first element of the delete list that names the
      attribute asks for. */
  function FirstDelete(env: Env, mappings: Mappings, elems: seq<NativeValue>, attr: string): Option<AttrUpdate> {
    if |elems| == 0 then None
    else if elems[0] == Str(attr) then Some(Deletion)
    else if Mentions(elems[0], attr) then
      Some(AttrUpdate(Some("DELETE"), Encoded(env, mappings, Prop(elems[0], attr), attr)))
    else FirstDelete(env, mappings, elems[1..], attr)
  }

  /** The phase an action belongs to lists the attribute. */
  predicate Lists(action: NativeValue, attr: string) {
    !IsNullish(action) && attr in Names(OwnProps(action))
  }

  /** The update each attribute ends up with, read off the inputs in
      precedence order. */
  function Winner(env: Env, mappings: Mappings, existing: Updates, actions: NativeValue, attr: string): Option<AttrUpdate> {
    var put := Prop(actions, "put");
    var add := Prop(actions, "add");
    var del := Prop(actions, "delete");
    if Has(existing, attr) then
      var e := Get(existing, attr).value;
      Some(if Lists(put, attr) then Normalize(e) else e)
    else if Lists(put, attr) then Some(Normalize(AttrUpdate(None, Encoded(env, mappings, Prop(put, attr), attr))))
    else if Lists(add, attr) then Some(AttrUpdate(Some("ADD"), Encoded(env, mappings, Prop(add, attr), attr)))
    else if !IsNullish(del) then FirstDelete(env, mappings, DeleteList(del), attr)
    else None
  }

  lemma PutOneGet(env: Env, mappings: Mappings, ups: Updates, n: string, v: NativeValue, attr: string)
    requires PutOne(env, mappings, ups, n, v).Ok?
    ensures Get(PutOne(env, mappings, ups, n, v).value, attr) ==
      if attr != n then Get(ups, attr)
      else if Has(ups, n) then Some(Normalize(Get(ups, n).value))
      else Some(Normalize(AttrUpdate(None, Encoded(env, mappings, v, n))))
  {
    var cur := if Has(ups, n) then Get(ups, n).value else AttrUpdate(None, Encoded(env, mappings, v, n));
    AssignGet(ups, n, if IsEmpty(cur.value) then Deletion else cur);
  }

  lemma AddOneGet(env: Env, mappings: Mappings, ups: Updates, n: string, v: NativeValue, attr: string)
    requires AddOne(env, mappings, ups, n, v).Ok?
    ensures Get(AddOne(env, mappings, ups, n, v).value, attr) ==
      if Has(ups, attr) || attr != n then Get(ups, attr)
      else Some(AttrUpdate(Some("ADD"), Encoded(env, mappings, v, n)))
  {
    if !Has(ups, n) {
      AssignGet(ups, n, AttrUpdate(Some("ADD"), Encoded(env, mappings, v, n)));
    }
  }

  lemma DeleteOneGet(env: Env, mappings: Mappings, ups: Updates, n: string, v: Option<NativeValue>, attr: string)
    requires DeleteOne(env, mappings, ups, n, v).Ok?
    ensures Get(DeleteOne(env, mappings, ups, n, v).value, attr) ==
      if Has(ups, attr) || attr != n then Get(ups, attr)
      else if v.None? then Some(Deletion)
      else Some(AttrUpdate(Some("DELETE"), Encoded(env, mappings, v.value, n)))
  {
    if !Has(ups, n) {
      if v.None? {
        AssignGet(ups, n, Deletion);
      } else {
        AssignGet(ups, n, AttrUpdate(Some("DELETE"), Encoded(env, mappings, v.value, n)));
      }
    }
  }

  lemma {:induction false} PutAllGet(env: Env, mappings: Mappings, ups: Updates, put: NativeValue, names: seq<string>, attr: string)
    requires PutAll(env, mappings, ups, put, names).Ok?
    ensures Get(PutAll(env, mappings, ups, put, names).value, attr) ==
      if Has(ups, attr) then Some(if attr in names then Normalize(Get(ups, attr).value) else Get(ups, attr).value)
      else if attr in names then Some(Normalize(AttrUpdate(None, Encoded(env, mappings, Prop(put, attr), attr))))
      else None
    decreases |names|
  {
    if |names| > 0 {
      var init := names[..|names| - 1];
      var n := names[|names| - 1];
      assert attr in names <==> attr in init || attr == n;
      PutAllGet(env, mappings, ups, put, init, attr);
      var prev := PutAll(env, mappings, ups, put, init).value;
      PutOneGet(env, mappings, prev, n, Prop(put, n), attr);
      if attr == n {
        if Has(ups, attr) {
          assert Has(prev, attr);
          assert Normalize(Normalize(Get(ups, attr).value)) == Normalize(Get(ups, attr).value);
        } else if attr in init {
          assert Has(prev, attr);
          var u := AttrUpdate(None, Encoded(env, mappings, Prop(put, attr), attr));
          assert Normalize(Normalize(u)) == Normalize(u);
        } else {
          assert !Has(prev, attr);
        }
      }
    }
  }

  lemma {:induction false} AddAllGet(env: Env, mappings: Mappings, ups: Updates, add: NativeValue, names: seq<string>, attr: string)
    requires AddAll(env, mappings, ups, add, names).Ok?
    ensures Get(AddAll(env, mappings, ups, add, names).value, attr) ==
      if Has(ups, attr) then Get(ups, attr)
      else if attr in names then Some(AttrUpdate(Some("ADD"), Encoded(env, mappings, Prop(add, attr), attr)))
      else None
    decreases |names|
  {
    if |names| > 0 {
      var init := names[..|names| - 1];
      var n := names[|names| - 1];
      assert attr in names <==> attr in init || attr == n;
      AddAllGet(env, mappings, ups, add, init, attr);
      AddOneGet(env, mappings, AddAll(env, mappings, ups, add, init).value, n, Prop(add, n), attr);
    }
  }

  lemma {:induction false} DeleteSetsGet(env: Env, mappings: Mappings, ups: Updates, elem: NativeValue, names: seq<string>, attr: string)
    requires DeleteSets(env, mappings, ups, elem, names).Ok?
    ensures Get(DeleteSets(env, mappings, ups, elem, names).value, attr) ==
      if Has(ups, attr) then Get(ups, attr)
      else if attr in names then Some(AttrUpdate(Some("DELETE"), Encoded(env, mappings, Prop(elem, attr), attr)))
      else None
    decreases |names|
  {
    if |names| > 0 {
      var init := names[..|names| - 1];
      var n := names[|names| - 1];
      assert attr in names <==> attr in init || attr == n;
      DeleteSetsGet(env, mappings, ups, elem, init, attr);
      DeleteOneGet(env, mappings, DeleteSets(env, mappings, ups, elem, init).value, n, Some(Prop(elem, n)), attr);
    }
  }

  lemma DeleteElemGet(env: Env, mappings: Mappings, ups: Updates, elem: NativeValue, attr: string)
    requires DeleteElem(env, mappings, ups, elem).Ok?
    ensures Get(DeleteElem(env, mappings, ups, elem).value, attr) ==
      if Has(ups, attr) then Get(ups, attr) else FirstDelete(env, mappings, [elem], attr)
  {
    if elem.Str? {
      DeleteOneGet(env, mappings, ups, elem.s, None, attr);
    } else {
      DeleteSetsGet(env, mappings, ups, elem, Names(OwnProps(elem)), attr);
    }
  }

  /** Looking for the first naming element in a list extended at the end. */
  lemma {:induction false} FirstDeleteSnoc(env: Env, mappings: Mappings, elems: seq<NativeValue>, x: NativeValue, attr: string)
    ensures FirstDelete(env, mappings, elems + [x], attr) ==
      if FirstDelete(env, mappings, elems, attr).Some? then FirstDelete(env, mappings, elems, attr)
      else FirstDelete(env, mappings, [x], attr)
    decreases |elems|
  {
    if |elems| > 0 {
      assert (elems + [x])[1..] == elems[1..] + [x];
      FirstDeleteSnoc(env, mappings, elems[1..], x, attr);
    } else {
      assert elems + [x] == [x];
    }
  }

  /** The delete phase: an attribute without an update gets the one the
      first element naming it asks for. */
  lemma {:induction false} DeleteAllGet(env: Env, mappings: Mappings, ups: Updates, elems: seq<NativeValue>, attr: string)
    requires DeleteAll(env, mappings, ups, elems).Ok?
    ensures Get(DeleteAll(env, mappings, ups, elems).value, attr) ==
      if Has(ups, attr) then Get(ups, attr) else FirstDelete(env, mappings, elems, attr)
    decreases |elems|
  {
    if |elems| > 0 {
      var init := elems[..|elems| - 1];
      var x := elems[|elems| - 1];
      assert elems == init + [x];
      DeleteAllGet(env, mappings, ups, init, attr);
      var prev := DeleteAll(env, mappings, ups, init).value;
      DeleteElemGet(env, mappings, prev, x, attr);
      FirstDeleteSnoc(env, mappings, init, x, attr);
      var r := DeleteAll(env, mappings, ups, elems).value;
      assert r == DeleteElem(env, mappings, prev, x).value;
      if Has(ups, attr) {
        assert Get(prev, attr) == Get(ups, attr);
        assert Has(prev, attr);
      } else if FirstDelete(env, mappings, init, attr).Some? {
        assert Get(prev, attr) == FirstDelete(env, mappings, init, attr);
        assert Has(prev, attr);
      } else {
        assert !Has(prev, attr);
      }
    }
  }

  lemma PutPhaseGet(env: Env, mappings: Mappings, ups: Updates, put: NativeValue, attr: string)
    requires PutPhase(env, mappings, ups, put).Ok?
    ensures Get(PutPhase(env, mappings, ups, put).value, attr) ==
      if Has(ups, attr) then Some(if Lists(put, attr) then Normalize(Get(ups, attr).value) else Get(ups, attr).value)
      else if Lists(put, attr) then Some(Normalize(AttrUpdate(None, Encoded(env, mappings, Prop(put, attr), attr))))
      else None
  {
    if !IsNullish(put) {
      PutAllGet(env, mappings, ups, put, Names(OwnProps(put)), attr);
    }
  }

  lemma AddPhaseGet(env: Env, mappings: Mappings, ups: Updates, add: NativeValue, attr: string)
    requires AddPhase(env, mappings, ups, add).Ok?
    ensures Get(AddPhase(env, mappings, ups, add).value, attr) ==
      if Has(ups, attr) then Get(ups, attr)
      else if Lists(add, attr) then Some(AttrUpdate(Some("ADD"), Encoded(env, mappings, Prop(add, attr), attr)))
      else None
  {
    if !IsNullish(add) {
      AddAllGet(env, mappings, ups, add, Names(OwnProps(add)), attr);
    }
  }

  lemma DeletePhaseGet(env: Env, mappings: Mappings, ups: Updates, del: NativeValue, attr: string)
    requires DeletePhase(env, mappings, ups, del).Ok?
    ensures Get(DeletePhase(env, mappings, ups, del).value, attr) ==
      if Has(ups, attr) then Get(ups, attr)
      else if !IsNullish(del) then FirstDelete(env, mappings, DeleteList(del), attr)
      else None
  {
    if !IsNullish(del) {
      DeleteAllGet(env, mappings, ups, DeleteList(del), attr);
    }
  }

  /** For every attribute the first update written wins: pre-existing
      updates, then put, then add, then the first element of the delete list
      naming it; a put only turns an empty pre-existing operand into a bare
      DELETE. */
  lemma FirstWriterWins(env: Env, mappings: Mappings, existing: Updates, actions: NativeValue, attr: string)
    requires BuildUpdates(env, mappings, existing, actions).Ok?
    ensures Get(BuildUpdates(env, mappings, existing, actions).value, attr) == Winner(env, mappings, existing, actions, attr)
  {
    var afterPut := PutPhase(env, mappings, existing, Prop(actions, "put")).value;
    var afterAdd := AddPhase(env, mappings, afterPut, Prop(actions, "add")).value;
    PutPhaseGet(env, mappings, existing, Prop(actions, "put"), attr);
    AddPhaseGet(env, mappings, afterPut, Prop(actions, "add"), attr);
    DeletePhaseGet(env, mappings, afterAdd, Prop(actions, "delete"), attr);
  }

  /** A put whose value encodes empty is a DELETE without operand. */
  lemma EmptyPutDeletes(env: Env, mappings: Mappings, existing: Updates, actions: NativeValue, attr: string)
    requires BuildUpdates(env, mappings, existing, actions).Ok?
    requires !Has(existing, attr) && Lists(Prop(actions, "put"), attr)
    requires IsEmpty(Encoded(env, mappings, Prop(Prop(actions, "put"), attr), attr))
    ensures Get(BuildUpdates(env, mappings, existing, actions).value, attr) == Some(Deletion)
  {
    FirstWriterWins(env, mappings, existing, actions, attr);
  }

  /** The request's updates follow the precedence rule for every attribute. */
  lemma UpdateFirstWriterWins(env: Env, t: Table, key: NativeValue, actions: NativeValue, options: NativeValue, presets: Presets, attr: string)
    requires !IsNullish(key)
    requires Update(env, t, key, actions, options, presets).Ok?
    ensures Get(Update(env, t, key, actions, options, presets).value.updates, attr) == Winner(env, t.mappings, presets.updates, actions, attr)
  {
    FirstWriterWins(env, t.mappings, presets.updates, actions, attr);
  }

  /** Dropping the key attributes leaves every other property readable as
      before. */
  lemma {:induction false} WithoutKeyGet(key: KeyNames, ps: Props, attr: string)
    ensures Get(WithoutKey(key, ps), attr) == if attr in key then None else Get(ps, attr)
    decreases |ps|
  {
    if |ps| > 0 {
      var init := ps[..|ps| - 1];
      var last := ps[|ps| - 1];
      WithoutKeyGet(key, init, attr);
      assert ps == init + [last];
      GetSnoc(init, last, attr);
      if last.name !in key {
        GetSnoc(WithoutKey(key, init), last, attr);
      }
    }
  }

  /** Without a key, the updates are built from the record's put action. */
  lemma RecordUpdates(env: Env, t: Table, ps: Props, options: NativeValue, presets: Presets)
    requires Update(env, t, Null, Obj(ps), options, presets).Ok?
    ensures var acts := SplitRecord(t, Obj(ps)).1;
      BuildUpdates(env, t.mappings, presets.updates, acts).Ok? &&
      Update(env, t, Null, Obj(ps), options, presets).value.updates == BuildUpdates(env, t.mappings, presets.updates, acts).value
  {
  }

  /** The winner for a record's put action: the put of the field when it is
      not part of the key. */
  lemma RecordWinner(env: Env, t: Table, ps: Props, existing: Updates, attr: string)
    requires !Has(existing, attr)
    ensures var acts := SplitRecord(t, Obj(ps)).1;
      Winner(env, t.mappings, existing, acts, attr) ==
        if attr !in t.key && Has(ps, attr) then Some(Normalize(AttrUpdate(None, Encoded(env, t.mappings, Get(ps, attr).value, attr))))
        else None
  {
    var acts := SplitRecord(t, Obj(ps)).1;
    var w := WithoutKey(t.key, ps);
    GetOne("put", Obj(w), "put");
    GetOne("put", Obj(w), "add");
    GetOne("put", Obj(w), "delete");
    assert Prop(acts, "put") == Obj(w);
    assert Prop(acts, "add") == Undefined && !Lists(Undefined, attr);
    assert Prop(acts, "delete") == Undefined && IsNullish(Undefined);
    WithoutKeyGet(t.key, ps, attr);
    NamesHas(w, attr);
    assert OwnProps(Obj(w)) == w;
    assert Lists(Obj(w), attr) <==> Has(w, attr);
    assert Has(w, attr) <==> Get(w, attr).Some?;
    assert Get(ps, attr).Some? <==> Has(ps, attr);
    assert Lists(Obj(w), attr) <==> attr !in t.key && Has(ps, attr);
    if Lists(Obj(w), attr) {
      assert Prop(Obj(w), attr) == Get(ps, attr).value;
    }
  }

  /** Given a whole record and no key, every non-key field is put (an empty
      one as a bare DELETE) and the key fields get no update. */
  lemma WholeRecordPutsTheRest(env: Env, t: Table, ps: Props, options: NativeValue, presets: Presets, attr: string)
    requires !Has(presets.updates, attr)
    requires Update(env, t, Null, Obj(ps), options, presets).Ok?
    ensures attr !in t.key && Has(ps, attr) ==>
      Get(Update(env, t, Null, Obj(ps), options, presets).value.updates, attr)
        == Some(Normalize(AttrUpdate(None, Encoded(env, t.mappings, Get(ps, attr).value, attr))))
    ensures attr in t.key || !Has(ps, attr) ==>
      Get(Update(env, t, Null, Obj(ps), options, presets).value.updates, attr) == None
  {
    var acts := SplitRecord(t, Obj(ps)).1;
    RecordUpdates(env, t, ps, options, presets);
    FirstWriterWins(env, t.mappings, presets.updates, acts, attr);
    RecordWinner(env, t, ps, presets.updates, attr);
  }

  /** An unknown action name is refused however the rest looks. */
  lemma UnknownActionRefused(env: Env, t: Table, key: NativeValue, presets: Presets)
    requires !IsNullish(key)
    ensures Update(env, t, key, Obj([Field("put", Obj([])), Field("replace", Obj([]))]), Null, presets) == Err(BadActions)
  {
    assert !ValidActions(Obj([Field("put", Obj([])), Field("replace", Obj([]))])) by {
      assert OwnProps(Obj([Field("put", Obj([])), Field("replace", Obj([]))]))[1].name == "replace";
    }
  }
}

=== FILE: updates.dfy ===
/** The update-request builder (`update`, index.js:223-279): validates the
    action names, resolves the key and assembles `AttributeUpdates`, where an
    attribute keeps the first update written for it. */
module Updates {
  import opened Wrappers
  import opened Objects
  import opened Values
  import opened Codec
  import opened Keys

  /** One entry of `AttributeUpdates`; a missing `Action` is the store's PUT,
      a missing `Value` is no operand. */
  datatype AttrUpdate = AttrUpdate(action: Option<string>, value: Option<WireAttr>)

  type Updates = Fields<AttrUpdate>

  /** What the caller's options may already carry: a key and updates, both
      in wire form. */
  datatype Presets = Presets(key: Option<Key>, updates: Updates)

  /** The request handed to the store. */
  datatype UpdateRequest = UpdateRequest(options: Props, key: Key, updates: Updates)

  const Deletion: AttrUpdate := AttrUpdate(Some("DELETE"), None)

  predicate IsAction(name: string) {
    name == "put" || name == "add" || name == "delete"
  }

  /** Every action name is put, add or delete. */
  predicate ValidActions(actions: NativeValue) {
    forall i :: 0 <= i < |OwnProps(actions)| ==> IsAction(OwnProps(actions)[i].name)
  }

  /** The record without its key attributes, in property order. */
  function WithoutKey(key: KeyNames, ps: Props): (r: Props)
    ensures forall i :: 0 <= i < |r| ==> r[i] in ps && r[i].name !in key
    ensures forall i :: 0 <= i < |ps| && ps[i].name !in key ==> ps[i] in r
    ensures |r| <= |ps|
  {
    if |ps| == 0 then []
    else
      var rest := WithoutKey(key, ps[..|ps| - 1]);
      var last := ps[|ps| - 1];
      if last.name in key then rest else rest + [last]
  }

  /** A put is written unless the attribute already has an update; an empty
      value, written now or before, turns into a DELETE without operand. */
  function PutOne(env: Env, mappings: Mappings, ups: Updates, attr: string, v: NativeValue): Res<Updates> {
    var cur :-
      if Has(ups, attr) then Ok(Get(ups, attr).value)
      else
        var a :- Encode(env, mappings, v, attr, Undefined);
        Ok(AttrUpdate(None, a));
    Ok(Assign(ups, attr, if IsEmpty(cur.value) then Deletion else cur))
  }

  /** An ADD with its operand unless the attribute already has an update. */
  function AddOne(env: Env, mappings: Mappings, ups: Updates, attr: string, v: NativeValue): Res<Updates> {
    if Has(ups, attr) then Ok(ups)
    else
      var a :- Encode(env, mappings, v, attr, Undefined);
      Ok(Assign(ups, attr, AttrUpdate(Some("ADD"), a)))
  }

  /** A DELETE, with the given operand, unless the attribute already has an
      update. */
  function DeleteOne(env: Env, mappings: Mappings, ups: Updates, attr: string, v: Option<NativeValue>): Res<Updates> {
    if Has(ups, attr) then Ok(ups)
    else if v.None? then Ok(Assign(ups, attr, Deletion))
    else
      var a :- Encode(env, mappings, v.value, attr, Undefined);
      Ok(Assign(ups, attr, AttrUpdate(Some("DELETE"), a)))
  }

  /** The put phase over `Object.keys(actions.put)`; each value is read back
      by name. */
  function PutAll(env: Env, mappings: Mappings, ups: Updates, put: NativeValue, names: seq<string>): Res<Updates>
    decreases |names|
  {
    if |names| == 0 then Ok(ups)
    else
      var prev :- PutAll(env, mappings, ups, put, names[..|names| - 1]);
      PutOne(env, mappings, prev, names[|names| - 1], Prop(put, names[|names| - 1]))
  }

  function AddAll(env: Env, mappings: Mappings, ups: Updates, add: NativeValue, names: seq<string>): Res<Updates>
    decreases |names|
  {
    if |names| == 0 then Ok(ups)
    else
      var prev :- AddAll(env, mappings, ups, add, names[..|names| - 1]);
      AddOne(env, mappings, prev, names[|names| - 1], Prop(add, names[|names| - 1]))
  }

  /** The set operands named by one non-text element of the delete list. */
  function DeleteSets(env: Env, mappings: Mappings, ups: Updates, elem: NativeValue, names: seq<string>): Res<Updates>
    decreases |names|
  {
    if |names| == 0 then Ok(ups)
    else
      var prev :- DeleteSets(env, mappings, ups, elem, names[..|names| - 1]);
      DeleteOne(env, mappings, prev, names[|names| - 1], Some(Prop(elem, names[|names| - 1])))
  }

  /** One element of the delete list: text names an attribute to remove,
      anything else lists set operands to remove per attribute. */
  function DeleteElem(env: Env, mappings: Mappings, ups: Updates, elem: NativeValue): Res<Updates> {
    match elem
    case Str(attr) => DeleteOne(env, mappings, ups, attr, None)
    case Undefined => Err(TypeError("Cannot convert undefined or null to object"))
    case Null => Err(TypeError("Cannot convert undefined or null to object"))
    case _ => DeleteSets(env, mappings, ups, elem, Names(OwnProps(elem)))
  }

  function DeleteAll(env: Env, mappings: Mappings, ups: Updates, elems: seq<NativeValue>): Res<Updates>
    decreases |elems|
  {
    if |elems| == 0 then Ok(ups)
    else
      var prev :- DeleteAll(env, mappings, ups, elems[..|elems| - 1]);
      DeleteElem(env, mappings, prev, elems[|elems| - 1])
  }

  /** `actions.delete`, a list or a single element. */
  function DeleteList(d: NativeValue): seq<NativeValue> {
    if d.Arr? then d.elems else [d]
  }

  /** `if (actions.put != null) ...` */
  function PutPhase(env: Env, mappings: Mappings, ups: Updates, put: NativeValue): Res<Updates> {
    if IsNullish(put) then Ok(ups) else PutAll(env, mappings, ups, put, Names(OwnProps(put)))
  }

  function AddPhase(env: Env, mappings: Mappings, ups: Updates, add: NativeValue): Res<Updates> {
    if IsNullish(add) then Ok(ups) else AddAll(env, mappings, ups, add, Names(OwnProps(add)))
  }

  function DeletePhase(env: Env, mappings: Mappings, ups: Updates, del: NativeValue): Res<Updates> {
    if IsNullish(del) then Ok(ups) else DeleteAll(env, mappings, ups, DeleteList(del))
  }

  /** The three phases in order: put, add, delete. */
  function BuildUpdates(env: Env, mappings: Mappings, existing: Updates, actions: NativeValue): Res<Updates> {
    var afterPut :- PutPhase(env, mappings, existing, Prop(actions, "put"));
    var afterAdd :- AddPhase(env, mappings, afterPut, Prop(actions, "add"));
    DeletePhase(env, mappings, afterAdd, Prop(actions, "delete"))
  }

  /** With no key, the actions are a whole record: its key attributes, in key
      order, are the key, and the rest is put. */
  function SplitRecord(t: Table, record: NativeValue): (NativeValue, NativeValue) {
    (Arr(seq(|t.key|, i requires 0 <= i < |t.key| => Prop(record, t.key[i]))),
     Obj([Field("put", Obj(WithoutKey(t.key, OwnProps(record))))]))
  }

  /** `update(key, actions, options)`; `presets` is what `options` already
      holds of `Key` and `AttributeUpdates`. */
  function Update(env: Env, t: Table, key: NativeValue, actions: NativeValue, options: NativeValue, presets: Presets): (r: Res<UpdateRequest>)
    // an action name other than put, add or delete is refused before anything is resolved
    ensures DefaultOptions(t, options).Ok? && !IsNullish(key) && !IsNullish(actions) && !ValidActions(actions) ==>
      r == Err(BadActions)
    ensures r.Ok? && !IsNullish(key) ==> ValidActions(actions)
    // the table name is always filled in
    ensures r.Ok? ==> Get(r.value.options, "TableName").Some?
    // a preset key is used as it is
    ensures r.Ok? && presets.key.Some? ==> r.value.key == presets.key.value
    // otherwise the key is resolved from the key argument, or from the record's key attributes
    ensures r.Ok? && presets.key.None? && !IsNullish(key) ==> Ok(r.value.key) == ResolveKey(env, t, [key])
    ensures r.Ok? && presets.key.None? && IsNullish(key) ==> Ok(r.value.key) == ResolveKey(env, t, [SplitRecord(t, actions).0])
  {
    var opts :- DefaultOptions(t, options);
    if IsNullish(key) && IsNullish(actions) then Err(TypeError("Cannot read properties of null"))
    else
      var (k, acts) := if IsNullish(key) then SplitRecord(t, actions) else (key, actions);
      if IsNullish(acts) then Err(TypeError("Cannot convert undefined or null to object"))
      else if !ValidActions(acts) then Err(BadActions)
      else
        var dbKey :- if presets.key.Some? then Ok(presets.key.value) else ResolveKey(env, t, [k]);
        var ups :- BuildUpdates(env, t.mappings, presets.updates, acts);
        Ok(UpdateRequest(opts, dbKey, ups))
  }
}

=== FILE: values.dfy ===
/** The values that cross the codec: native JavaScript values on one side,
    the store's tagged wire attributes on the other, plus the JavaScript
    conversions the codec leans on. */
module Values {
  import opened Wrappers
  import opened Objects
  import opened Decimal

  newtype byte = x: int | 0 <= x < 256

  /** A native (application-side) JavaScript value. Integral numbers are
      `Num`; every other number (fractions, NaN, the infinities) is `Float`,
      carried by its `String()` text. Objects list their own enumerable
      properties in `Object.keys` order. */
  datatype NativeValue =
    | Undefined
    | Null
    | Bool(b: bool)
    | Num(n: int)
    | Float(text: string)
    | Str(s: string)
    | Buf(bytes: seq<byte>)
    | Date(ms: int)
    | Arr(elems: seq<NativeValue>)
    | Obj(props: seq<Field<NativeValue>>)

  type Props = Fields<NativeValue>

  /** A wire attribute as the store's JSON shape presents it: an object that
      may carry any of the six type tags. A well-formed attribute carries
      exactly one. */
  datatype WireAttr = WireAttr(
    s: Option<string>,
    n: Option<string>,
    b: Option<string>,
    ss: Option<seq<string>>,
    ns: Option<seq<string>>,
    bs: Option<seq<string>>)

  function AttrS(x: string): WireAttr { WireAttr(Some(x), None, None, None, None, None) }
  function AttrN(x: string): WireAttr { WireAttr(None, Some(x), None, None, None, None) }
  function AttrB(x: string): WireAttr { WireAttr(None, None, Some(x), None, None, None) }
  function AttrSS(xs: seq<string>): WireAttr { WireAttr(None, None, None, Some(xs), None, None) }
  function AttrNS(xs: seq<string>): WireAttr { WireAttr(None, None, None, None, Some(xs), None) }
  function AttrBS(xs: seq<string>): WireAttr { WireAttr(None, None, None, None, None, Some(xs)) }

  /** `{S: undefined}`: an attribute object whose one property holds no
      value, so no tag is present. */
  const Untagged := WireAttr(None, None, None, None, None, None)

  /** Number of type tags the attribute carries. */
  function TagCount(a: WireAttr): nat {
    (if a.s.Some? then 1 else 0) + (if a.n.Some? then 1 else 0) + (if a.b.Some? then 1 else 0)
    + (if a.ss.Some? then 1 else 0) + (if a.ns.Some? then 1 else 0) + (if a.bs.Some? then 1 else 0)
  }

  predicate OneTag(a: WireAttr) {
    TagCount(a) == 1
  }

  /** The name of the first tag the attribute carries, in the order S, N, B,
      SS, NS, BS; empty when it carries none. */
  function FirstTag(a: WireAttr): string {
    if a.s.Some? then "S" else if a.n.Some? then "N" else if a.b.Some? then "B"
    else if a.ss.Some? then "SS" else if a.ns.Some? then "NS" else if a.bs.Some? then "BS"
    else ""
  }

  /** A stored item: field name to wire attribute, in key order. */
  type Item = Fields<WireAttr>

  /** A resolved key: every key field with its encoding, which JavaScript may
      leave `undefined` (None). */
  type Key = Fields<Option<WireAttr>>

  /** What the source throws, and the store's own failures passed through. */
  datatype Error =
    | TypeError(what: string)
    | UnknownWireType
    | BadActions
    | UnsupportedKeyType(attr: string)
    | EmptyBatch
    | Transport(message: string)
    | OutOfReplies
    | Uncaught(cause: Error)

  type Res<T> = Result<T, Error>

  /** A part of a request: the caller's own truthy value, sent as it is, or
      the one built here. */
  datatype Setting<T> = Given(given: NativeValue) | Built(built: T)

  /** The JavaScript runtime services the codec calls but this model does not
      define: JSON text, base64 text of bytes, ISO date text, date parsing,
      number parsing beyond plain safe integers, `String()` of objects, and
      `String()` of integral numbers beyond the safe range (rounded digits or
      exponent form). */
  datatype Env = Env(
    jsonText: NativeValue -> string,
    jsonParse: string -> Option<NativeValue>,
    base64: seq<byte> -> string,
    unbase64: string -> seq<byte>,
    isoText: int -> string,
    dateFromText: Option<string> -> NativeValue,
    numberText: string -> NativeValue,
    objectText: NativeValue -> string,
    integerText: int -> string)

  /** Base64 text decodes back to the bytes it was made from, and only the
      empty byte sequence has empty text (section 4 of RFC 4648). */
  ghost predicate Base64Faithful(env: Env) {
    (forall bs :: env.unbase64(env.base64(bs)) == bs)
    && (forall bs :: env.base64(bs) == "" <==> bs == [])
  }

  /** Parsing the ISO text of a date gives the date back. */
  ghost predicate IsoFaithful(env: Env) {
    forall ms :: env.dateFromText(Some(env.isoText(ms))) == Date(ms)
  }

  /** `Number.MAX_SAFE_INTEGER`, 2^53 - 1: every integer up to it in
      magnitude is a JavaScript number of its own, printed and parsed
      exactly. */
  const MaxSafeInteger := 0x1F_FFFF_FFFF_FFFF

  predicate SafeInteger(n: int) {
    -MaxSafeInteger <= n <= MaxSafeInteger
  }

  /** JavaScript `String(v)`. */
  function JsString(env: Env, v: NativeValue): string {
    match v
    case Undefined => "undefined"
    case Null => "null"
    case Bool(b) => if b then "true" else "false"
    case Num(n) => if SafeInteger(n) then IntToDecimal(n) else env.integerText(n)
    case Float(t) => t
    case Str(s) => s
    case _ => env.objectText(v)
  }

  /** JavaScript unary `+text`: integer text within the safe range is read
      exactly; any other text (a fraction, an exponent, or digits the nearest
      double rounds) is left to the runtime. */
  function NumberOfText(env: Env, t: string): NativeValue {
    match ParseInt(t)
    case Some(i) => if SafeInteger(i) then Num(i) else env.numberText(t)
    case None => env.numberText(t)
  }

  /** JavaScript unary `+v`. */
  function JsToNumber(env: Env, v: NativeValue): NativeValue {
    match v
    case Undefined => Float("NaN")
    case Null => Num(0)
    case Bool(b) => Num(if b then 1 else 0)
    case Num(_) => v
    case Float(_) => v
    case Str(s) => NumberOfText(env, s)
    case Date(ms) => Num(ms)
    case _ => NumberOfText(env, env.objectText(v))
  }

  /** JavaScript truthiness. */
  predicate Truthy(v: NativeValue) {
    match v
    case Undefined => false
    case Null => false
    case Bool(b) => b
    case Num(n) => n != 0
    case Float(t) => t != "NaN"
    case Str(s) => s != ""
    case _ => true
  }

  /** `v == null` in JavaScript (loose equality). */
  predicate IsNullish(v: NativeValue) {
    v.Undefined? || v.Null?
  }

  /** `Object.keys(v)` paired with the property values, for any non-null v. */
  function OwnProps(v: NativeValue): (ps: Props)
    ensures v.Obj? ==> ps == v.props
    ensures v.Arr? ==> |ps| == |v.elems|
  {
    match v
    case Obj(ps) => ps
    case Arr(xs) => seq(|xs|, i requires 0 <= i < |xs| => Field(NatToDecimal(i), xs[i]))
    case Str(s) => seq(|s|, i requires 0 <= i < |s| => Field(NatToDecimal(i), Str([s[i]])))
    case Buf(bs) => seq(|bs|, i requires 0 <= i < |bs| => Field(NatToDecimal(i), Num(bs[i] as int)))
    case _ => []
  }

  /** Property read `v[name]`. */
  function Prop(v: NativeValue, name: string): NativeValue {
    Get(OwnProps(v), name).GetOr(Undefined)
  }
}

=== FILE: wrappers.dfy ===
/** Failure-compatible wrappers used throughout the model: `Option` for a value
    that may be absent (JavaScript `undefined`), `Result` for an operation that
    may throw. */
module Wrappers {

  datatype Option<+T> = None | Some(value: T) {
    predicate IsFailure() {
      None?
    }

    function PropagateFailure<U>(): Option<U>
      requires None?
    {
      None
    }

    function Extract(): T
      requires Some?
    {
      value
    }

    function GetOr(default: T): T {
      match this
      case Some(v) => v
      case None => default
    }
  }

  datatype Result<+T, +E> = Ok(value: T) | Err(error: E) {
    predicate IsFailure() {
      Err?
    }

    function PropagateFailure<U>(): Result<U, E>
      requires Err?
    {
      Err(error)
    }

    function Extract(): T
      requires Ok?
    {
      value
    }
  }

  /** `xs.map(f)` where `f` may throw: the first failure, in list order,
      aborts the whole map. */
  function MapAll<A, B, E>(xs: seq<A>, f: A -> Result<B, E>): (r: Result<seq<B>, E>)
    ensures r.Ok? <==> forall i :: 0 <= i < |xs| ==> f(xs[i]).Ok?
    ensures r.Ok? ==> |r.value| == |xs| && forall i :: 0 <= i < |xs| ==> r.value[i] == f(xs[i]).value
    ensures r.Err? ==>
      exists i :: 0 <= i < |xs| && f(xs[i]) == Err(r.error) && (forall j :: 0 <= j < i ==> f(xs[j]).Ok?)
  {
    if |xs| == 0 then Ok([])
    else
      var prefix := xs[..|xs| - 1];
      assert forall i :: 0 <= i < |prefix| ==> prefix[i] == xs[i];
      match MapAll(prefix, f)
      case Err(e) => Err(e)
      case Ok(prev) =>
        match f(xs[|xs| - 1])
        case Err(e) =>
          assert f(xs[|xs| - 1]) == Err(e) && forall j :: 0 <= j < |xs| - 1 ==> f(xs[j]).Ok?;
          Err(e)
        case Ok(v) => Ok(prev + [v])
  }
}
